=== FILE: README.md ===
# Spine core in Dafny

A model of the deterministic core of Spine, an embedded C++ utility library,
with proofs of what its operations promise. Every component is a pure Dafny
datatype with functions over it; a mutating C++ member becomes a function that
returns the new state, paired with whatever the member returns.

What is covered, by module:

- `Ring`, `Lines`, `FixedArray`, `Vec`, `RW`, `ObjectPool`: the bounded
  containers `RingBuffer`, `LineBuffer`, `Array`, `Vector`, `RWBuffer` and
  `Pool`. Each has a representation invariant (`Valid`) and an abstraction of
  its contents as a sequence, and each operation is specified on that sequence.
  The `Pool`'s shared-pointer use counts are an explicit holder count per slot.
- `Outcome`, `TypeLists`: the three-state `Result` with its `chain`
  combinator, and the type-list de-duplication behind its payload variant.
- `Mock`, `Buffered`, `Transactions`: the ring-buffer `MockStream`, the
  `BufferedStream` line I/O above it, and the request/response `Transaction`
  with commit, abort and undo.
- `Units`, `TimeText`: integer kernel time in µs, ms, s, min, h and d, with
  truncating conversion and mixed-magnitude arithmetic and comparison;
  `repr` and `parse_time` for duration strings.
- `Timers`, `Events`, `Schedules`, `Latches`: the stopwatch, alarm and
  interval timers, the event `Pipeline`'s ordered insertion, the 24-hour block
  `Schedule`, and the set/reset latch with hysteresis and minimal and maximal
  on/off times.
- `Strings`, `FixedString`, `Calendar`, `Points`, `Concatenate`: string strip,
  prefix/suffix and find-first-of helpers and `StaticString`; the leap-year,
  day-of-year, BCD and epoch helpers of `DateTime`; integer point arithmetic;
  compile-time string concatenation.
- `CInt`, `Seqs`, `Wrappers`: C integer semantics (truncating division,
  `int32_t`/`int64_t` casts, `size_t` wrap-around), sequence lemmas and `Option`.

Conventions:

- The clock `HAL::millis()` is an explicit argument `now`.
- `spn_assert` and `assert` are no-ops outside debug builds. They become a
  `requires` only where the code would otherwise read or write outside its
  storage. Elsewhere the model follows what the release build does.
- A thrown exception or a null/`nullopt` result is an error value (`Option`,
  or an outcome datatype such as `TimeText.ParseOutcome`).
- Integers are unbounded. `size_t`, `int32_t` and `int64_t` wrap-around is
  written out where the code depends on it.
- Where the code and its documentation disagree, the model keeps both
  (see Findings). For a single operation, a member named `...AsWritten`, or a
  concrete lemma, models what the code does, and the plain name is the
  corrected operation. Operations built on a faulty one follow the code:
  `Ring.RingBuffer.Clear`, `Buffered.BufferedStream.OutputDropLast`, the
  `Transactions` undo and abort, and the `Events` pipeline's expiry use the
  as-written member, and a twin named `...Intended` is built on the corrected
  one.
- Where the code and its tests disagree, the model follows the code.
  `test/test_structure_units/test_units.cpp:54` expects `k_time_s(k_time_ms(500))`
  to hold 1 s. The conversion truncates to 0 s, as the comment at
  `src/spine/structure/units/time.hpp:26` and the tests at
  `test/test_structure_units/test_units.cpp:161-166` expect, and
  `Units.CoarseningTruncates` proves 0.

## Model

| member | source | states |
|---|---|---|
| Ring.RingBuffer.UsedSpace | src/spine/structure/ringbuffer.hpp:171-176 | the number of stored elements never exceeds the capacity |
| Ring.RingBuffer.FreeSpace | src/spine/structure/ringbuffer.hpp:178-183 | free and used space add up to the capacity in every valid state |
| Ring.RingBuffer.Contents | src/spine/structure/ringbuffer.hpp:134-141 | the logical contents, oldest first, have exactly `used_space()` elements |
| Ring.RingBuffer.Push | src/spine/structure/ringbuffer.hpp:79-91 | a push succeeds iff the buffer is not full or rollover is allowed; a refused push changes nothing; validity is kept |
| Ring.RingBuffer.PushRange | src/spine/structure/ringbuffer.hpp:93-101 | the count written never exceeds the length given; validity is kept |
| Ring.RingBuffer.Pop | src/spine/structure/ringbuffer.hpp:109-118 | a pop fails iff the buffer is empty, and a failed pop changes nothing |
| Ring.RingBuffer.PopN | src/spine/structure/ringbuffer.hpp:126-129 | popping `n <= used` elements one by one yields exactly `n` values |
| Ring.RingBuffer.PopRange | src/spine/structure/ringbuffer.hpp:120-132 | the range pop returns either nothing or exactly the requested count |
| Ring.RingBuffer.PeekAt | src/spine/structure/ringbuffer.hpp:134-141 | a peek fails iff the index is at least `used_space()` |
| Ring.RingBuffer.DropFirstAsWritten | src/spine/structure/ringbuffer.hpp:161-169 | the code as written returns `min(n, used_space())` and keeps validity |
| Ring.RingBuffer.DropLastAsWritten | src/spine/structure/ringbuffer.hpp:151-159 | the code as written returns `min(n, used_space())` and keeps validity, with the `size_t` subtraction wrapping |
| Ring.RingBuffer.DropFirst | src/spine/structure/ringbuffer.hpp:161-169 | the corrected drop returns `min(n, used_space())` and keeps validity |
| Ring.RingBuffer.DropLast | src/spine/structure/ringbuffer.hpp:151-159 | the corrected drop returns `min(n, used_space())` and keeps validity |
| Ring.RingBuffer.Clear | src/spine/structure/ringbuffer.hpp:42-43 | `clear()` is `drop_last(used_space())` as written, and keeps validity |
| Ring.New | src/spine/structure/ringbuffer.hpp:11 | a new buffer of positive capacity is valid, has that capacity, holds nothing and has no overrun |
| Ring.HeadAfterUsed | src/spine/structure/ringbuffer.hpp:171-176 | the head sits `used_space()` slots past the tail, modulo the capacity |
| Ring.PopValue | src/spine/structure/ringbuffer.hpp:110-113 | a pop from a non-empty buffer yields the oldest element |
| Ring.PopShrinks | src/spine/structure/ringbuffer.hpp:113-116 | a pop from a non-empty buffer removes exactly the oldest element |
| Ring.PushAppends | src/spine/structure/ringbuffer.hpp:80-90 | a push into a buffer with room succeeds, appends the value as the newest element and leaves the overrun count alone |
| Ring.PushOverwrites | src/spine/structure/ringbuffer.hpp:82-89 | a rollover push into a full buffer keeps it full, drops the oldest element, appends the value and adds one to the overrun count (capacity 1 leaves the count alone, because head meets tail again) |
| Ring.PushRangeFills | src/spine/structure/ringbuffer.hpp:94-101 | a range push without rollover writes `min(length, free_space())` elements, appended in order, and stops at the first refusal |
| Ring.PushRangeRollsOver | src/spine/structure/ringbuffer.hpp:94-101 | a range push with rollover accepts every element, and the buffer then holds the newest `capacity` of old contents followed by the data |
| Ring.FullAtCapacity | src/spine/structure/ringbuffer.hpp:173 | a full buffer holds exactly `capacity()` elements |
| Ring.PushRangeCons | src/spine/structure/ringbuffer.hpp:96-99 | a range push with rollover is a single push followed by the push of the rest |
| Ring.PushRolls | src/spine/structure/ringbuffer.hpp:80-91 | one rollover push keeps the newest `capacity` elements of the contents plus the value |
| Ring.PopNTakesOldest | src/spine/structure/ringbuffer.hpp:126-129 | popping `n` elements yields the `n` oldest, in order, and leaves the rest |
| Ring.PopRangeAllOrNothing | src/spine/structure/ringbuffer.hpp:120-132 | with fewer than `n` stored nothing is read or removed; otherwise the `n` oldest are read in order and removed |
| Ring.PopTakesOldest | src/spine/structure/ringbuffer.hpp:109-118 | a pop yields the oldest element, leaves the others in order and resets the overrun count to 0 |
| Ring.PeekAtReads | src/spine/structure/ringbuffer.hpp:134-141 | `peek_at(v, i)` with `i < used_space()` reads the `i`-th oldest element |
| Ring.EmptyIffNoContents | src/spine/structure/ringbuffer.hpp:45-46 | `empty()` holds iff there are no contents |
| Ring.AdvanceTail | src/spine/structure/ringbuffer.hpp:64-65 | moving the tail forward by `k` drops exactly the `k` oldest elements |
| Ring.RetractHead | src/spine/structure/ringbuffer.hpp:67-68 | pulling the head back by `k` drops exactly the `k` newest elements |
| Ring.DropFirstRemovesOldest | src/spine/structure/ringbuffer.hpp:161-169 | the corrected `drop_first(n)` removes the `min(n, used)` oldest elements, never raises the overrun count, and changes nothing when it drops nothing |
| Ring.DropLastRemovesNewest | src/spine/structure/ringbuffer.hpp:151-159 | the corrected `drop_last(n)` removes the `min(n, used)` newest elements, lowers the overrun count by that much but not below 0, and changes nothing when it drops nothing |
| Ring.ClearEmpties | src/spine/structure/ringbuffer.hpp:42-43 | `clear()` leaves an empty buffer over the same storage |
| Ring.AsWrittenDropsAgree | src/spine/structure/ringbuffer.hpp:151-169 | whenever something is dropped, or the buffer is not full, the drops as written leave the same contents as the corrected ones |
| Ring.DropLastAsWrittenRemoves | src/spine/structure/ringbuffer.hpp:151-159 | `drop_last(n)` as written removes the `min(n, used)` newest elements, except that dropping nothing from a full buffer leaves it empty |
| Ring.SameSlotsSameContents | src/spine/structure/ringbuffer.hpp:71-76 | the contents are determined by the array, the two positions and the full flag |
| Ring.DropZeroEmptiesFullBuffer | src/spine/structure/ringbuffer.hpp:156 | on a full buffer of two elements, `drop_first(0)` and `drop_last(0)` as written report 0 dropped yet clear the full flag, so the buffer reads as empty; the corrected drop changes nothing |
| Ring.DropLastWrapsOverrun | src/spine/structure/ringbuffer.hpp:151-159 | `drop_last(1)`, and so `clear()`, on one element with an overrun count of 0 wraps the count to 2^64 - 1 as written; the corrected count is 0 |
| Ring.RingBuffer.Capacity | src/spine/structure/ringbuffer.hpp:61 | a valid buffer has at least one slot, and the capacity is the number of stored elements plus the free space |
| Ring.RingBuffer.Empty | src/spine/structure/ringbuffer.hpp:46 | `empty()` holds exactly when the buffer stores no element (not full and head at tail) |
| Lines.LineEnd | src/spine/structure/linebuffer.hpp:65-78 | the line length is 1 + the index of the first delimiter, or 0 exactly when no char is a delimiter |
| Lines.LineBuffer.Push | src/spine/structure/linebuffer.hpp:15-16 | pushing text accepts `min(length, free_space())` chars and appends exactly those, keeping the delimiters |
| Lines.LineBuffer.LengthOfNextLine | src/spine/structure/linebuffer.hpp:65-78 | the peeking loop computes the position just past the first delimiter in the buffered text, or 0 |
| Lines.LineBuffer.ScanFrom | src/spine/structure/linebuffer.hpp:70-77 | resuming the loop at index `i`, past chars that are not delimiters, gives the same answer |
| Lines.LineBuffer.GetNextLine | src/spine/structure/linebuffer.hpp:38-50 | with no line, or a line longer than `max_length`, nothing is read or removed; otherwise the line without its delimiter is returned and the line and delimiter are removed |
| Lines.LineBuffer.GetNextLineInto | src/spine/structure/linebuffer.hpp:38-50 | in the caller's buffer, a successful read leaves the line followed by a NUL, inside `max_length`, and the rest untouched, and the count returned is the line's length; otherwise the buffer is untouched and 0 is returned |
| Lines.LineBuffer.DropNextLine | src/spine/structure/linebuffer.hpp:52-63 | dropping succeeds iff a line is present |
| Lines.LineBuffer.NextLineSpanAsWritten | src/spine/structure/linebuffer.hpp:28-36 | the view as written is absent iff there is no line |
| Lines.LineBuffer.NextLineView | src/spine/structure/linebuffer.hpp:28-36 | the intended view is absent iff there is no line |
| Lines.NewLineBuffer | src/spine/structure/linebuffer.hpp:12-13 | a new line buffer is empty, has the given capacity and delimiters |
| Lines.GetNextLineSplits | src/spine/structure/linebuffer.hpp:38-50 | a successful read splits the buffer into the line, one delimiter and the rest; the line holds no delimiter and is shorter than `max_length` |
| Lines.DropNextLineSkipsLine | src/spine/structure/linebuffer.hpp:52-63 | dropping leaves what reading the line would leave: everything after the line's delimiter |
| Lines.PushedLineComesBack | src/spine/structure/linebuffer.hpp:15-50 | pushing a line and a delimiter into a buffer without a line, then reading, gives back the old text followed by that line and empties the buffer |
| Lines.SpanInBoundsReadsLine | src/spine/structure/linebuffer.hpp:29-35 | when the line does not wrap past the end of the array, the contiguous view is exactly the line |
| Lines.WrappedLineViewOverruns | src/spine/structure/linebuffer.hpp:34-35 | a line "ab" whose 'a' sits in the last array slot yields a view running one char past the array |
| Lines.ReadAllLinesStep | src/spine/structure/linebuffer.hpp:38-50 | reading lines until none is left starts with the next line and continues with the rest |
| Lines.FirstLineComesOut | src/spine/structure/linebuffer.hpp:38-50 | a buffer holding a line, a delimiter and a rest yields that line and keeps the rest |
| Lines.ReadsBackLines | test/test_structure_linebuffer/test_structure_linebuffer.cpp:53-75 | a buffer holding delimited lines followed by an undelimited tail yields exactly those lines, never the tail |
| Lines.NextLineIsFirst | src/spine/structure/linebuffer.hpp:38-50 | the next line of such a buffer is its first line, and the rest of the buffer has the same form |
| Lines.EmptyLinesThenTail | test/test_structure_linebuffer/test_structure_linebuffer.cpp:74 | "\n\n\nab" yields three empty lines and never "ab" |
| Lines.LineBuffer.HasLine | src/spine/structure/linebuffer.hpp:26 | `has_line()` holds exactly when some stored character is one of the delimiters |
| Vec.Vector.Size | src/spine/structure/vector.hpp:374-377 | the size `tail - head` never exceeds `max_size()` |
| Vec.Vector.Elements | src/spine/structure/vector.hpp:17-24 | the logical contents are the `size()` slots from head to tail |
| Vec.Vector.At | src/spine/structure/vector.hpp:144-148 | `operator[](i)` reads the `i`-th logical element |
| Vec.Vector.SetAt | src/spine/structure/vector.hpp:144-148 | writing through `operator[](i)` replaces exactly the `i`-th logical element |
| Vec.Vector.Back | src/spine/structure/vector.hpp:323-326 | `back()` of a non-empty vector is its last element |
| Vec.Vector.Rearrange | src/spine/structure/vector.hpp:86-106 | moving the elements to start at `idx` keeps them in order and blanks every slot outside the new window |
| Vec.Vector.PushBack | src/spine/structure/vector.hpp:156-165 | `push_back` keeps the invariant `head <= tail <= max_size` |
| Vec.Vector.PushFront | src/spine/structure/vector.hpp:199-226 | `push_front` on a vector with room prepends the item and keeps the rest in order |
| Vec.Vector.PopFront | src/spine/structure/vector.hpp:249-258 | `pop_front` returns the first element and leaves the rest in order |
| Vec.Vector.PopBackAsWritten | src/spine/structure/vector.hpp:186-197 | `pop_back` as written removes the last element |
| Vec.Vector.PopBack | src/spine/structure/vector.hpp:186-197 | the corrected `pop_back` returns the last element and leaves the rest in order |
| Vec.Vector.Insert | src/spine/structure/vector.hpp:260-292 | `insert` keeps the invariant and the capacity |
| Vec.Vector.OpenGap | src/spine/structure/vector.hpp:286-291 | shifting the later elements one slot up and writing the item puts it at the given position, the rest in order |
| Vec.Vector.RemoveAtSlot | src/spine/structure/vector.hpp:294-313 | removal at a physical slot keeps the invariant |
| Vec.Vector.RemoveAsWritten | src/spine/structure/vector.hpp:294-313 | `remove` as written, comparing the index with the physical head and tail, keeps the invariant |
| Vec.Vector.RemoveCopySpanAsWritten | src/spine/structure/vector.hpp:304 | the `memmove` in `remove` copies `tail - index` elements starting at `index + 1`, so it ends at `tail + 1` |
| Vec.Vector.Remove | src/spine/structure/vector.hpp:294-313 | the corrected `remove`, taking a logical index, keeps the invariant |
| Vec.Vector.Fill | src/spine/structure/vector.hpp:389-394 | `fill(v)` leaves a full vector whose every element is `v` |
| Vec.Vector.Clear | src/spine/structure/vector.hpp:315-321 | `clear()` leaves an empty vector of the same capacity |
| Vec.NewVector | src/spine/structure/vector.hpp:123-124 | a new vector is empty and has the given capacity |
| Vec.FromList | src/spine/structure/vector.hpp:129-130 | a vector built from a list holds that list and is exactly as large |
| Vec.PushBackAppends | src/spine/structure/vector.hpp:156-165 | on a vector that is not full `push_back` appends the item, compacting first if needed; on a full vector it changes nothing |
| Vec.PushBackPopBack | src/spine/structure/vector.hpp:156-197 | `pop_back` after `push_back` returns the item and restores the contents |
| Vec.PushFrontPopFront | src/spine/structure/vector.hpp:199-258 | `pop_front` after `push_front` returns the item and restores the contents |
| Vec.InsertPlaces | src/spine/structure/vector.hpp:260-292 | `insert(i, x)` puts `x` at position `min(i, size())` and keeps every other element in order |
| Vec.RemoveTakesOut | src/spine/structure/vector.hpp:294-313 | `remove(i)` for `i < size()` takes out the `i`-th element; `i == size()` takes out the last; a larger index changes nothing |
| Vec.RemoveAgreesAtSlotZero | src/spine/structure/vector.hpp:294-313 | while head is 0 the code as written and the corrected `remove` agree |
| Vec.ClearEmpties | src/spine/structure/vector.hpp:315-321 | `clear()` leaves no elements |
| Vec.PopBackReturnsStaleSlot | src/spine/structure/vector.hpp:189-196 | popping the only element 9 of a vector with head 2 resets the tail to 0 first and returns the stale slot 0 |
| Vec.RemoveUsesSlotNotPosition | src/spine/structure/vector.hpp:296-302 | with head 1, `remove(0)` as written removes nothing and `remove(1)` removes the first element instead of the second |
| Vec.RemoveCopiesPastArray | src/spine/structure/vector.hpp:304 | in a full vector of three, `remove(1)` copies two elements from slot 2, one past the array |
| Vec.Vector.MaxSize | src/spine/structure/array.hpp:345-347 | a valid vector never holds more elements than `max_size()` |
| Vec.Vector.Empty | src/spine/structure/vector.hpp:380-382 | `empty()` holds exactly when the vector stores no element |
| Vec.Vector.Full | src/spine/structure/vector.hpp:385-387 | `full()` holds exactly when the number of stored elements equals `max_size()` |
| FixedArray.Array.At | src/spine/structure/array.hpp:229-242 | `at(i)` and `operator[](i)` read an element stored in the array |
| FixedArray.Array.Set | src/spine/structure/array.hpp:234-237 | writing through `operator[](i)` changes element `i` only, and not the size |
| FixedArray.Array.Front | src/spine/structure/array.hpp:244-247 | `front()` is element 0 |
| FixedArray.Array.Back | src/spine/structure/array.hpp:249-252 | `back()` of a non-empty array is element `max_size - 1` |
| FixedArray.Array.Fill | src/spine/structure/array.hpp:356-360 | `fill(v)` sets every element to `v` and keeps the size |
| FixedArray.Array.SwapAsWritten | src/spine/structure/array.hpp:349-354 | `swap` as written exchanges the stores but each array keeps its own size |
| FixedArray.Array.Swap | src/spine/structure/array.hpp:349-354 | the corrected `swap` exchanges stores and sizes: each array then has the other's size and, slot by slot, the other's elements |
| FixedArray.Zeroed | src/spine/structure/array.hpp:149-153 | `Array(n)` has `n` elements, all zeroed |
| FixedArray.Filled | src/spine/structure/array.hpp:155-158 | `Array(n, v)` has `n` elements, all equal to `v` |
| FixedArray.FromList | src/spine/structure/array.hpp:160-167 | construction from a list keeps its length and its order |
| FixedArray.SetThenAt | src/spine/structure/array.hpp:234-242 | a read after a write sees the written value at that index and the old value elsewhere |
| FixedArray.SwapTwice | src/spine/structure/array.hpp:349-354 | swapping twice restores both arrays |
| FixedArray.SwapMismatchedSizes | src/spine/structure/array.hpp:349-354 | swapping arrays of one and two elements as written leaves each with a store of the wrong length |
| FixedArray.Array.Empty | src/spine/structure/array.hpp:335-337 | an array is empty exactly when its storage has no slots |
| FixedArray.Array.Size | src/spine/structure/array.hpp:340-342 | `size()` is the recorded maximum size, which is the number of storage slots |
| RW.RWBuffer.Pending | src/spine/structure/rwbuffer.hpp:65 | the unread data has exactly `available_to_read()` elements |
| RW.RWBuffer.Read | src/spine/structure/rwbuffer.hpp:30-39 | `read(buf, n)` returns `min(n, available_to_read())` elements and keeps the invariant `head <= tail <= size` |
| RW.RWBuffer.ReadOne | src/spine/structure/rwbuffer.hpp:41-49 | `read()` returns the oldest unread element and leaves the rest in order |
| RW.RWBuffer.Compact | src/spine/structure/rwbuffer.hpp:53-56 | moving the unread data to the front keeps it unchanged and sets head to 0 |
| RW.RWBuffer.Append | src/spine/structure/rwbuffer.hpp:59-62 | the copy at the tail appends `min(length, available_to_write())` elements in order |
| RW.RWBuffer.WriteAsWritten | src/spine/structure/rwbuffer.hpp:51-63 | `write` as written appends a prefix of the data to the unread data |
| RW.RWBuffer.Write | src/spine/structure/rwbuffer.hpp:51-63 | the corrected `write` appends a prefix of the data to the unread data |
| RW.ReadTakesOldest | src/spine/structure/rwbuffer.hpp:30-39 | a read returns the oldest unread elements in order and leaves the rest |
| RW.WriteTakesWhatFits | src/spine/structure/rwbuffer.hpp:51-63 | with the corrected test, data that fits in the space not held by unread data is written whole; otherwise only `available_to_write()` elements are |
| RW.WriteThenReadAll | src/spine/structure/rwbuffer.hpp:30-63 | reading everything after a write yields the old unread data followed by the written prefix, and drains the buffer |
| RW.ExactFitNotCompacted | src/spine/structure/rwbuffer.hpp:52 | three elements into a buffer of four with one unread element at slot 1: the strict `<` skips compaction and only two are written |
| RW.RWBuffer.AvailableToRead | src/spine/structure/rwbuffer.hpp:65 | the readable count starts at the read position, stays inside the buffer and fits the 16-bit `Size` type |
| RW.RWBuffer.AvailableToWrite | src/spine/structure/rwbuffer.hpp:66 | the writable room is what the consumed prefix and the pending data leave of the buffer |
| ObjectPool.Pool.Slots | src/spine/structure/pool.hpp:120-123 | the slots, in population order, number exactly `size()` |
| ObjectPool.Pool.Populate | src/spine/structure/pool.hpp:44-57 | `populate` on a pool that is not full appends one slot and keeps the capacity |
| ObjectPool.Pool.Depopulate | src/spine/structure/pool.hpp:59-62 | `depopulate` returns the first slot populated and removes it |
| ObjectPool.Pool.Release | src/spine/structure/pool.hpp:89-90 | a holder dropping its copy lowers that slot's use count by one and touches nothing else |
| ObjectPool.FirstFree | src/spine/structure/pool.hpp:88-100 | the scan over `[lo, hi)` finds the first slot whose only holder is the pool, or reports that there is none |
| ObjectPool.AcquireChoice | src/spine/structure/pool.hpp:87-101 | the slot chosen is free, and no slot is chosen iff none is free |
| ObjectPool.Acquire | src/spine/structure/pool.hpp:66-102 | `acquire` scans from the lookup index to the end and then from 0 up to the old lookup index; the chosen slot gains the caller as a holder; the lookup index moves to the slot found in the first scan, and to 0 otherwise; a pool that is not fully populated is searched the same way, and stays as populated as it was |
| ObjectPool.CanAcquire | src/spine/structure/pool.hpp:104-118 | `can_acquire` holds iff some slot is free |
| ObjectPool.NewPool | src/spine/structure/pool.hpp:18 | a new pool has no slots and the given capacity |
| ObjectPool.AcquireFollowsPopulationOrder | test/test_structure_pool/test_structure_pool.cpp:56-61 | when the slots before `k` are held and the rest are free, with the lookup index at most `k`, `acquire` returns slot `k`: kept acquisitions come out in population order |
| ObjectPool.ReleaseMakesAcquirable | test/test_structure_pool/test_structure_pool.cpp:62-72 | when every slot is held nothing can be acquired; releasing slot `i` makes `acquire` return it |
| ObjectPool.Handle.UseCount | src/spine/structure/pool.hpp:78-80 | a slot's use count is zero exactly when it holds a null pointer |
| ObjectPool.Pool.Size | src/spine/structure/pool.hpp:120 | the number of populated slots never exceeds the pool's capacity |
| ObjectPool.Pool.FullyPopulated | src/spine/structure/pool.hpp:64 | the pool is fully populated exactly when its slots fill the whole capacity |
| Outcome.Result.IsSuccess | src/spine/structure/result.hpp:113 | a success is neither an intermediary nor a failure |
| Outcome.Result.IsIntermediary | src/spine/structure/result.hpp:117 | an intermediary is neither a success nor a failure |
| Outcome.Result.IsFailed | src/spine/structure/result.hpp:121 | a defined result that is neither success nor intermediary is a failure, and a failure is neither |
| Outcome.Result.AsBool | src/spine/structure/result.hpp:123 | the conversion to `bool` is true exactly for a success |
| Outcome.Result.Value | src/spine/structure/result.hpp:137-141 | `value()` may only be asked of a success, and gives the payload that success was built from |
| Outcome.Result.ErrorValue | src/spine/structure/result.hpp:125-129 | `error_value()` may only be asked of a failure, and gives the error that failure was built from |
| Outcome.Result.Chain | src/spine/structure/result.hpp:164-173 | `chain(f)` returns a success or a failure unchanged, and applies `f` to the payload of an intermediary |
| Outcome.Default | src/spine/structure/result.hpp:92 | a default-constructed result is neither success nor intermediary nor failed, and converts to false |
| Outcome.ChainAll | src/spine/structure/result.hpp:164-173 | a chain of stages that never return an undefined result never yields one |
| Outcome.SettledPassesThrough | src/spine/structure/result.hpp:169-171 | a success or a failure passes through any number of further stages unchanged |
| Outcome.ChainAllAppend | src/spine/structure/result.hpp:164-173 | chaining two runs of stages in one go is chaining the first run and then the second |
| Outcome.FirstFailureWins | test/test_structure_result/test_structure_result.cpp:99-103 | once a chain has failed, further stages keep that failure, so the first failure's error is what the whole chain yields |
| Outcome.ChainedStages | test/test_structure_result/test_structure_result.cpp:105-110 | 5 through two incrementing stages and a final stage gives success 7; an early success of 42 survives a later failing stage; a failing stage yields its own error |
| Outcome.Result.IntermediaryValue | src/spine/structure/result.hpp:131-135 | on an intermediary result the accessor yields the value the result was built from |
| TypeLists.Prepend | src/spine/core/meta/unique_type_variant.hpp:34-40 | `Prepend<L, T>` is `T` followed by the whole of `L` |
| TypeLists.Contains | src/spine/core/meta/unique_type_variant.hpp:42-53 | the head-first search only answers true for a type that is in the list |
| TypeLists.Unique | src/spine/core/meta/unique_type_variant.hpp:55-71 | `Unique` never lengthens the list and leaves a non-empty list non-empty |
| TypeLists.ContainsIsMembership | src/spine/core/meta/unique_type_variant.hpp:42-53 | `Contains<L, T>` holds iff `T` is an element of `L` |
| TypeLists.UniqueIsDeduplication | src/spine/core/meta/unique_type_variant.hpp:55-71 | `Unique<Ts...>` has exactly the elements of `Ts` and no element twice |
| TypeLists.UniqueKeepsDistinct | src/spine/core/meta/unique_type_variant.hpp:58-63 | a list without duplicates comes out of `Unique` unchanged |
| TypeLists.UniqueIdempotent | src/spine/core/meta/unique_type_variant.hpp:55-71 | applying `Unique` twice gives what applying it once gives |
| TypeLists.ResultVariantAlternatives | src/spine/structure/result.hpp:183-187 | the variant of a `Result<T, T, T>` has one alternative, that of `Result<T, E, T>` has `E` then `T` (each head is dropped when it occurs later), and three distinct types stay in order |
| TypeLists.UniqueKeepsLastOccurrences | src/spine/core/meta/unique_type_variant.hpp:55-71 | `Unique` equals the independent filter that keeps an element exactly when no later element equals it, in the original order: the last occurrence of each type survives |
| Units.Micros | src/spine/structure/units/primitives/magnitudes.hpp:19-67 | every kernel-time magnitude is a positive whole number of microseconds: the code's `double` magnitudes taken as exact decimals, so the model's conversion ratios are exact where the code divides two `double` values |
| Units.KTime.To | src/spine/structure/units/primitives/unit.hpp:36-37 | converting construction keeps the target magnitude and truncates toward zero: the result's magnitude in the target unit is the largest whole count not exceeding the exact duration, with the sign of the duration |
| Units.KTime.IsNegative | src/spine/structure/units/primitives/unit.hpp:30 | a quantity is negative iff the duration it stands for is negative, in any magnitude |
| Units.KTime.IsIntegral | src/spine/structure/units/primitives/unit.hpp:31-34 | a kernel-time quantity, whose count is an integer, is always integral |
| Units.KTime.Plus | src/spine/structure/units/primitives/unit.hpp:50-53 | the sum keeps the left operand's magnitude |
| Units.KTime.Minus | src/spine/structure/units/primitives/unit.hpp:54-57 | the difference keeps the left operand's magnitude |
| Units.KTime.Negate | src/spine/structure/units/primitives/unit.hpp:58 | unary minus keeps the magnitude and negates the duration |
| Units.KTime.Times | src/spine/structure/units/primitives/unit.hpp:70-73 | multiplication by an integer keeps the magnitude and scales the duration |
| Units.KTime.DividedBy | src/spine/structure/units/primitives/unit.hpp:79-83 | division by zero is the error case and the only one; otherwise the quotient keeps the magnitude and truncates toward zero: its size is the largest count whose product with the divisor's size does not exceed the dividend's, and its sign is the sign of the exact quotient |
| Units.KTime.Equals | src/spine/structure/units/primitives/unit.hpp:91-95 | against an operand of the same or a coarser magnitude, `==` holds iff the two durations are equal |
| Units.KTime.NotEquals | src/spine/structure/units/primitives/unit.hpp:96-99 | `!=` holds iff one of `<` and `>` does |
| Units.KTime.Less | src/spine/structure/units/primitives/unit.hpp:100-103 | `<` never holds together with `==` |
| Units.KTime.Greater | src/spine/structure/units/primitives/unit.hpp:104-107 | `>` never holds together with `==` or `<` |
| Units.KTime.AtMost | src/spine/structure/units/primitives/unit.hpp:108-111 | `<=` holds iff `<` or `==` does |
| Units.KTime.AtLeast | src/spine/structure/units/primitives/unit.hpp:112-115 | `>=` holds iff `>` or `==` does, which is exactly when `<` does not |
| Units.FinerDivides | src/spine/structure/units/primitives/unit.hpp:127-131 | a coarser magnitude is a whole multiple of a finer one |
| Units.RefineIsExact | src/spine/structure/units/primitives/unit.hpp:36-37 | converting to a finer magnitude keeps the duration, and converting back restores the original quantity |
| Units.ExactDivision | src/spine/structure/units/primitives/unit.hpp:127-131 | truncating division of an exact multiple gives back the factor |
| Units.EqualsIsSameDuration | src/spine/structure/units/primitives/unit.hpp:91-103 | against an operand of the same or a coarser magnitude, `==` holds iff the durations are equal and `<` iff the left duration is smaller |
| Units.CoarserOperandIsExact | src/spine/structure/units/primitives/unit.hpp:50-57 | `+` and `-` with an operand of the same or a coarser magnitude add and subtract the durations exactly |
| Units.PlusMinusCancel | src/spine/structure/units/primitives/unit.hpp:50-57 | adding a quantity and then subtracting it gives back the original |
| Units.CoarseningTruncates | test/test_structure_units/test_units.cpp:161-166 | 500 ms is 0 s and -1500 ms is -1 s; 0 s equals 500 ms but 500 ms does not equal 0 s, so mixed-magnitude `==` is not symmetric |
| Units.MagnitudeLadder | test/test_structure_units/test_units.cpp:42-48 | 1000 ms equals 1 s, 60 s equals 1 min, 60 min equals 1 h and 24 h equals 1 d |
| Units.TimesThenDivide | test/test_structure_units/test_units.cpp:76-79 | multiplying by a non-zero integer and dividing by it again gives back the quantity |
| TimeText.NatDigits | src/spine/core/utils/time_repr.hpp:56 | the `%PRId64` text of a non-negative count is a non-empty run of decimal digits |
| TimeText.IntText | src/spine/core/utils/time_repr.hpp:56 | a negative count prints as a minus sign followed by digits, a non-negative one as digits only |
| TimeText.UnitName | src/spine/core/utils/time_repr.hpp:47-53 | every unit suffix is non-empty and does not start with a digit, so it ends the digit run |
| TimeText.FirstNonDigit | src/spine/core/utils/time_repr.cpp:35-36 | `find_first_not_of` gives the first position holding a non-digit with only digits before it, or `npos` when every char is a digit |
| TimeText.ParseTime | src/spine/core/utils/time_repr.cpp:29-50 | a parsed count is never negative and fits an `int` |
| TimeText.DigitsRoundTrip | src/spine/core/utils/time_repr.cpp:39 | reading back the decimal text of a count gives the count |
| TimeText.UnitNameRoundTrip | src/spine/core/utils/time_repr.cpp:42-47 | every suffix `repr` prints is one `parse_time` accepts, for the same magnitude |
| TimeText.ParseOfPrinted | src/spine/core/utils/time_repr.cpp:29-50 | digits of a count up to `INT_MAX` followed by a suffix parse to that count of that magnitude |
| TimeText.FirstNonDigitAfterDigits | src/spine/core/utils/time_repr.cpp:35 | after a run of digits, the first non-digit is where the suffix starts |
| TimeText.ReprCutoffs | src/spine/core/utils/time_repr.hpp:39-53 | each test of the `repr` cascade, reached after the ones before it failed, is a threshold on the duration: 1 ms, 1 s, 900 s and one day; past a day the hour test fails and the day count is positive |
| TimeText.ReprUnit | src/spine/core/utils/time_repr.hpp:39-53 | `repr` settles on microseconds below 1 ms, milliseconds below 1 s, seconds below 900 s, minutes below a day and days from a day on: never on hours and never "unknown" |
| TimeText.Repr | src/spine/core/utils/time_repr.hpp:34-60 | for any time that fits an `int64_t` in microseconds, `repr` prints the count in the unit read off the duration followed by that unit's suffix, and the text fits the 64-char buffer, so "Error" is never returned |
| TimeText.CountWithinDuration | src/spine/core/utils/time_repr.hpp:39-45 | the count in any unit is no larger in size than the count in microseconds, so it prints in no more digits |
| TimeText.ReprThenParse | src/spine/core/utils/time_repr.hpp:34-67 | for a non-negative time, parsing what `repr` prints gives the time truncated to the unit `repr` chose, whenever that count fits an `int`; the 64-char buffer never overflows |
| TimeText.DigitsShort | src/spine/core/utils/time_repr.hpp:56-59 | any `int64_t` magnitude prints in at most 19 digits, so the "Error" branch is never taken |
| TimeText.SignedTextThrows | src/spine/core/utils/time_repr.cpp:35-39 | text that starts with a minus sign has an empty digit run, on which `std::stoi` throws `invalid_argument` |
| TimeText.NegativeReprDoesNotParse | src/spine/core/utils/time_repr.hpp:39-56 | a negative time prints in microseconds with a minus sign, and parsing that text throws `invalid_argument` |
| TimeText.LargeCountThrows | src/spine/core/utils/time_repr.cpp:39 | a count above `INT_MAX` makes `std::stoi` throw `out_of_range`, whatever the unit |
| TimeText.ParseRejects | src/spine/core/utils/time_repr.cpp:32-49 | the literals `""` (empty), `"10"` (no suffix) and `"10x"` (unknown suffix) give no time, and `"s"` (no digits) throws `invalid_argument` |
| TimeText.ParseDigitsThenSuffix | src/spine/core/utils/time_repr.cpp:29-50 | for every non-empty digit run up to `INT_MAX` followed by a suffix starting with a non-digit, the result is that count of the suffix's unit when the whole suffix is one of `us`, `ms`, `s`, `m`, `h`, `d`, and no time otherwise (so `"10mss"` and `"10 s"` give no time) |
| TimeText.ParsedMeansDigitsThenUnit | src/spine/core/utils/time_repr.cpp:29-50 | every input that parses is a non-empty digit run whose value is the parsed count followed by a suffix that names the parsed unit |
| Strings.LeadingRun | src/spine/core/utils/string.hpp:12-15 | the `lstrip` loop stops at the first char outside the delimiters: everything before it is a delimiter, and it stops at the end only when the string holds no other char |
| Strings.TrailingRun | src/spine/core/utils/string.hpp:21-24 | the `rstrip` loop, scanning from the back, stops at the last char outside the delimiters |
| Strings.LStrip | src/spine/core/utils/string.hpp:11-17 | the result is a suffix of the input that starts with a non-delimiter, and everything cut off is a delimiter |
| Strings.RStripAsWritten | src/spine/core/utils/string.hpp:20-26 | as written, the result has the right length but is the suffix of the input, so it starts at an offset that counts the trailing delimiters |
| Strings.RStrip | src/spine/core/utils/string.hpp:19-26 | as documented, the result is a prefix of the input that ends with a non-delimiter, and everything cut off is a delimiter |
| Strings.StartsWith | src/spine/core/utils/string.hpp:28-31 | true iff the needle fits and matches the first chars of the string |
| Strings.EndsWith | src/spine/core/utils/string.hpp:33-36 | a needle longer than the string makes `compare` throw; otherwise true iff the needle matches the last chars of the string |
| Strings.FindFirstOf | src/spine/core/utils/string.hpp:38-47 | `npos` iff no char of the string is a delimiter; otherwise the position of the first delimiter |
| Strings.LStripIdempotent | src/spine/core/utils/string.hpp:11-17 | stripping the front twice gives what stripping it once gives |
| Strings.RStripIdempotent | src/spine/core/utils/string.hpp:19-26 | stripping the back twice gives what stripping it once gives |
| Strings.TrailingIsReversedLeading | src/spine/core/utils/string.hpp:21-24 | the trailing delimiter run of a string is the leading run of its reversal |
| Strings.RStripMirrorsLStrip | src/spine/core/utils/string.hpp:11-26 | stripping the back is stripping the front of the reversed string, reversed back |
| Strings.RStripDropsPrefix | src/spine/core/utils/string.hpp:20-26 | on "ab" followed by two spaces, the code as written returns the two spaces, where "ab" is meant |
| Strings.RStripSkipsFirstChars | src/spine/core/utils/string.hpp:20-26 | on "abc" followed by one space, the code as written drops the first char and returns "bc" and the space, where "abc" is meant |
| FixedString.StaticString.SetSize | src/spine/structure/static_string.cpp:6-9 | the size becomes `min(n, capacity)`; the chars that stay are kept and the new ones are NUL |
| FixedString.StaticString.Data | src/spine/structure/static_string.cpp:10-17 | announcing no bytes leaves the string alone; announcing some resizes it to that many, capped at the capacity |
| FixedString.StaticString.LStrip | src/spine/structure/static_string.cpp:18-26 | what is left is a suffix of the string that starts with a non-delimiter, and everything removed is a delimiter; the loop may run on into the NUL terminator, which a delimiter set without NUL stops |
| FixedString.StaticString.RStrip | src/spine/structure/static_string.cpp:27-34 | what is left is a non-empty prefix of the string that ends with a non-delimiter, and everything removed is a delimiter |
| FixedString.StaticString.StartsWith | src/spine/structure/static_string.cpp:35-37 | true iff the needle fits and is the start of the string |
| FixedString.StaticString.EndsWith | src/spine/structure/static_string.cpp:38-40 | a needle longer than the string makes `compare` throw; otherwise true iff it is the end of the string |
| FixedString.New | src/spine/structure/static_string.cpp:5 | a new string is as long as its capacity and holds only NULs |
| FixedString.SetSizeKeepsPrefix | src/spine/structure/static_string.cpp:6-9 | shrinking and growing back keeps the kept prefix and fills the rest with NULs |
| FixedString.LStripMatchesUtils | src/spine/structure/static_string.cpp:18-26 | on a string with a non-delimiter, the in-place `lstrip` leaves exactly what the view-returning `lstrip` of the string utilities returns |
| FixedString.RStripMatchesIntended | src/spine/structure/static_string.cpp:27-34 | the in-place `rstrip` leaves exactly the documented right-stripped string, which the view-returning utility misses |
| FixedString.FreshStringDoesNotStrip | src/spine/structure/static_string.cpp:5 | a fresh string of NULs is left unchanged by stripping whitespace |
| FixedString.StaticString.Size | src/spine/structure/static_string.hpp:20 | the size of a valid string never exceeds its capacity |
| Mock.MockStream.Swap | src/spine/io/stream/implementations/mock.hpp:57-61 | swapping exchanges the active input and output buffers |
| Mock.MockStream.WriteOne | src/spine/io/stream/implementations/mock.hpp:45 | a byte is written iff the output buffer is not full, and then it is appended to the output; otherwise nothing changes |
| Mock.MockStream.Write | src/spine/io/stream/implementations/mock.hpp:46 | as many bytes as fit are written, the first ones of the data, appended to the output |
| Mock.MockStream.ReadOne | src/spine/io/stream/implementations/mock.hpp:49 | reading a byte fails iff the input is empty; otherwise it gives the oldest byte and removes it |
| Mock.MockStream.Read | src/spine/io/stream/implementations/mock.hpp:50 | a read of at most what is available gives the oldest bytes and removes them; a longer read gives nothing and changes nothing |
| Mock.MockStream.Available | src/spine/io/stream/implementations/mock.hpp:52 | the number of bytes waiting in the input |
| Mock.MockStream.AvailableForWrite | src/spine/io/stream/implementations/mock.hpp:53 | the room left in the output buffer |
| Mock.MockStream.Inject | src/spine/io/stream/implementations/mock.hpp:26-30 | injected bytes are appended to the input as far as they fit, and the output is untouched |
| Mock.MockStream.Extract | src/spine/io/stream/implementations/mock.hpp:32-42 | extraction returns everything written so far and empties the output, leaving the input alone |
| Mock.NewMock | src/spine/io/stream/implementations/mock.hpp:18-20 | a new mock has empty input and output buffers of the configured sizes |
| Mock.WriteThenExtract | src/spine/io/stream/implementations/mock.hpp:32-46 | data that fits, written into an empty output, is extracted back unchanged |
| Mock.InjectThenRead | src/spine/io/stream/implementations/mock.hpp:26-50 | data that fits, injected into an empty input, is read back unchanged |
| Buffered.Newest | src/spine/structure/ringbuffer.hpp:79-91 | what a rolling-over buffer of capacity `cap` keeps of a sequence is its newest `min(length, cap)` elements |
| Buffered.BufferedStream.BufferedWrite | src/spine/io/stream/buffered_stream.cpp:9-11 | without rollover, as many bytes as fit are queued after the existing output and their count returned; with rollover, all bytes are taken and the output keeps the newest ones that fit |
| Buffered.BufferedStream.BufferedWriteOne | src/spine/io/stream/buffered_stream.cpp:8 | one byte is accepted when the output is not full or rollover is asked for; into a non-full output it is appended, into a full output it replaces the oldest byte (the contents become the old contents minus the first byte, plus the new one); a refused byte changes nothing |
| Buffered.BufferedStream.PullIn | src/spine/io/stream/buffered_stream.cpp:26-46 | the loop moves the oldest stream bytes, in order, into the input buffer with rollover, and stops before the stream is drained only at one of its two early exits, with the input buffer full |
| Buffered.BufferedStream.PullInStep | src/spine/io/stream/buffered_stream.cpp:39-43 | one turn reads the oldest stream byte and pushes it into the input buffer |
| Buffered.BufferedStream.PullInData | src/spine/io/stream/buffered_stream.cpp:26-29 | `pull_in_data` leaves the output side alone |
| Buffered.BufferedStream.PushOut | src/spine/io/stream/buffered_stream.cpp:48-57 | the loop moves the `min(queued, room)` oldest queued bytes, in order, to the end of the stream's output, and returns that count |
| Buffered.BufferedStream.OutputDropLast | src/spine/io/stream/buffered_stream.hpp:104 | dropping the last `n` queued bytes through the ring buffer's `drop_last` as written removes `min(n, queued)` bytes from the end of the output, except that dropping nothing from a full output buffer empties it |
| Buffered.BufferedStream.OutputDropLastIntended | src/spine/io/stream/buffered_stream.hpp:104 | over the corrected `drop_last`, dropping the last `n` queued bytes removes `min(n, queued)` bytes from the end of the output and nothing else |
| Buffered.BufferedStream.DropNextLine | src/spine/io/stream/buffered_stream.cpp:21-23 | with a complete line buffered, the line and its delimiter leave the input; without one, nothing changes |
| Buffered.PushRangeKeepsCapacity | src/spine/structure/ringbuffer.hpp:93-101 | pushing a range never changes a ring buffer's capacity |
| Buffered.NewBufferedStream | src/spine/io/stream/buffered_stream.cpp:5-7 | a new buffered stream has empty input and output buffers of the configured sizes over the given stream |
| Buffered.PullInKeepsNewest | src/spine/io/stream/buffered_stream.cpp:26-46 | after `pull_in_data` the input buffer holds the newest bytes, up to its capacity, of what it held followed by what was read |
| Buffered.PullInTakesAll | src/spine/io/stream/buffered_stream.cpp:26-46 | into an empty input buffer with room for all of it, `pull_in_data` reads the whole stream, in order |
| Buffered.NewestOfFew | src/spine/structure/ringbuffer.hpp:79-91 | a sequence that fits is kept whole |
| Buffered.WriteThenPushOut | src/spine/io/stream/buffered_stream.cpp:9-11 | data that fits, queued and then pushed out, reaches the stream whole and in order |
| Buffered.ThreeLines | test/test_io_buffered_stream/test_io_buffered_stream.cpp:26-27 | "abc\ndef\nghi\n" in the input buffer yields the lines "abc", "def" and "ghi" |
| Buffered.BufferedStream.HasLine | src/spine/io/stream/buffered_stream.hpp:38 | `has_line()` holds exactly when some character waiting in the input buffer is a delimiter |
| Buffered.BufferedStream.OutputSpaceLeft | src/spine/io/stream/buffered_stream.hpp:101 | the free output space and the queued output bytes add up to the output buffer's capacity |
| Transactions.NewTransaction | src/spine/io/stream/buffered_stream.cpp:59-63 | there is a transaction iff a complete line is buffered, and it starts with nothing queued and not finalized |
| Transactions.NewTransactionReadsSpan | src/spine/io/stream/transaction.cpp:9-12 | where the code's line view stays inside the input array, the request it reads is the request the model records |
| Transactions.SpaceLeft | src/spine/io/stream/transaction.cpp:35 | the space left for a response is the output buffer's free space |
| Transactions.OutgoingOne | src/spine/io/stream/transaction.cpp:18-25 | a byte is queued and counted iff the output buffer has room; otherwise nothing changes |
| Transactions.Outgoing | src/spine/io/stream/transaction.cpp:26-33 | as many bytes as fit are queued, the first ones of the data, and the count is added to the queued count |
| Transactions.UndoCount | src/spine/io/stream/transaction.cpp:58 | the count handed to the drop is `min(n, queued)`, or `queued` for `n == 0`, so never more than was queued |
| Transactions.Undo | src/spine/io/stream/transaction.cpp:57-60 | `undo(n)` drops the last `min(n, queued)` bytes of the output (all queued bytes for `n == 0`), never more than the output holds; when that count is 0 and the output buffer is full, the output is emptied |
| Transactions.UndoIntended | src/spine/io/stream/transaction.cpp:57-60 | over the corrected `drop_last`, `undo(n)` drops exactly the last `min(n, queued)` bytes of the output, or all queued bytes for `n == 0` |
| Transactions.Finalize | src/spine/io/stream/transaction.cpp:47-55 | finalizing once drops the request line and clears the transaction; finalizing again changes nothing |
| Transactions.Commit | src/spine/io/stream/transaction.cpp:37-41 | after `commit` the transaction is finalized |
| Transactions.Abort | src/spine/io/stream/transaction.cpp:42-46 | after `abort` the transaction is finalized |
| Transactions.AbortIntended | src/spine/io/stream/transaction.cpp:42-46 | after the corrected `abort` the transaction is finalized |
| Transactions.IncomingIsNextLine | src/spine/io/stream/transaction.cpp:6-13 | the request of a new transaction is the next buffered line without its delimiter |
| Transactions.NewTransactionTracks | src/spine/io/stream/transaction.cpp:6-13 | a new transaction has queued nothing on top of the output present when it began |
| Transactions.OutgoingTracks | src/spine/io/stream/transaction.cpp:26-33 | queuing data keeps the output as the starting output followed by exactly the queued bytes |
| Transactions.OutgoingOneTracks | src/spine/io/stream/transaction.cpp:18-25 | queuing a byte keeps the output as the starting output followed by exactly the queued bytes |
| Transactions.AbortRestoresOutput | src/spine/io/stream/transaction.cpp:42-46 | aborting restores the output to what it was when the transaction began, provided something was queued or the output buffer is not full |
| Transactions.AbortIntendedRestoresOutput | src/spine/io/stream/transaction.cpp:42-46 | with the corrected `drop_last`, aborting always restores the output to what it was when the transaction began |
| Transactions.AbortEmptiesFullOutput | src/spine/io/stream/transaction.cpp:42-46 | aborting a transaction that queued nothing on a full output buffer empties the output, earlier responses included, where the corrected abort keeps it |
| Transactions.CommitKeepsOutput | src/spine/io/stream/transaction.cpp:37-41 | committing keeps the queued response, and both commit and abort consume the request line |
| Transactions.FinalizeIdempotent | src/spine/io/stream/transaction.cpp:47-55 | finalizing a finalized transaction changes nothing |
| Transactions.UndoDropsQueued | src/spine/io/stream/transaction.cpp:57-60 | `undo(n)` takes back the last `min(n, queued)` queued bytes, and `undo()` restores the starting output, provided something was queued or the output buffer is not full |
| Transactions.UndoIntendedDropsQueued | src/spine/io/stream/transaction.cpp:57-60 | with the corrected `drop_last`, `undo(n)` always takes back exactly the last `min(n, queued)` queued bytes, and `undo()` restores the starting output |
| Points.XYZPoint.Plus | src/spine/structure/point.hpp:26 | `operator+` is undone by `operator-` |
| Points.XYZPoint.Minus | src/spine/structure/point.hpp:27 | the difference of two points is the origin iff the points are equal |
| Points.XYZPoint.Times | src/spine/structure/point.hpp:28 | the componentwise product has `(1, 1, 1)` as identity and the origin as absorbing operand |
| Points.XYZPoint.Div | src/spine/structure/point.hpp:29 | with no zero component in the divisor, each quotient component truncates: its size times the divisor's does not exceed the dividend's |
| Points.XYZPoint.Mod | src/spine/structure/point.hpp:30 | with no zero component in the divisor, each remainder component is smaller in size than the divisor's |
| Points.XYZPoint.Equals | src/spine/structure/point.hpp:31 | `==` holds iff all three components agree |
| Points.XYZPoint.NotEquals | src/spine/structure/point.hpp:32 | `!=` is the negation of `==` |
| Points.XYZPoint.Add | src/spine/structure/point.hpp:34-38 | the in-place `Add` gives what `operator+` gives |
| Points.XYZPoint.Substract | src/spine/structure/point.hpp:39-43 | the in-place `Substract` gives what `operator-` gives, and adding the operand back restores the point |
| Points.XYZPoint.ScalarMultiplication | src/spine/structure/point.hpp:44-48 | scaling by `s` is the componentwise product with `(s, s, s)` |
| Points.XYZPoint.Dot | src/spine/structure/point.hpp:56 | `Dot` is the componentwise product, and it is symmetric |
| Points.ZeroXYZ | src/spine/structure/point.hpp:15 | the default point is neutral for `+` and absorbing for `*` |
| Points.XYZDivModReconstruct | src/spine/structure/point.hpp:29-30 | divisor times quotient plus remainder gives back the dividend in every component |
| Points.XYPoint.Plus | src/spine/structure/point.hpp:77 | `operator+` is undone by `operator-` |
| Points.XYPoint.Minus | src/spine/structure/point.hpp:78 | the difference of two points is the origin iff the points are equal |
| Points.XYPoint.Times | src/spine/structure/point.hpp:79 | the componentwise product has `(1, 1)` as identity and the origin as absorbing operand |
| Points.XYPoint.Div | src/spine/structure/point.hpp:80 | with no zero component in the divisor, each quotient component truncates toward zero |
| Points.XYPoint.Mod | src/spine/structure/point.hpp:81 | with no zero component in the divisor, each remainder component is smaller in size than the divisor's |
| Points.XYPoint.Equals | src/spine/structure/point.hpp:82 | `==` holds iff both components agree |
| Points.XYPoint.NotEquals | src/spine/structure/point.hpp:83 | `!=` is the negation of `==` |
| Points.XYPoint.Add | src/spine/structure/point.hpp:85-88 | the in-place `Add` gives what `operator+` gives |
| Points.XYPoint.Substract | src/spine/structure/point.hpp:89-92 | the in-place `Substract` gives what `operator-` gives, and adding the operand back restores the point |
| Points.XYPoint.ScalarMultiplication | src/spine/structure/point.hpp:93-96 | scaling by `s` is the componentwise product with `(s, s)` |
| Points.XYPoint.Dot | src/spine/structure/point.hpp:103 | `Dot` is the componentwise product, and it is symmetric |
| Points.ZeroXY | src/spine/structure/point.hpp:67 | the default point is neutral for `+` and absorbing for `*` |
| Points.XYDivModReconstruct | src/spine/structure/point.hpp:80-81 | divisor times quotient plus remainder gives back the dividend in every component |
| Points.XYOperatorExamples | test/test_structure_xypoint/test_xypoint.cpp:38-49 | (1, 2) and (4, 5) sum to (5, 7), differ by (-3, -3), multiply to (4, 10), divide to (0, 0), and leave remainders (1, 2) one way and (0, 1) the other |
| Calendar.IsLeapYear | src/spine/core/datetime.cpp:47-54 | the Gregorian rule: years divisible by 400 are leap, other centuries are not, other multiples of 4 are, the rest are not |
| Calendar.YearLength | src/spine/core/datetime.cpp:47-54 | a year has 365 or 366 days |
| Calendar.MonthLength | src/spine/core/datetime.cpp:38 | every month has between 28 and 31 days |
| Calendar.YearDay | src/spine/core/datetime.cpp:64-70 | `calcYearDay` is the number of days in the months before, under the leap-year rule, plus the day of the month minus one; for a month below 1 the loop does not run |
| Calendar.TableMatchesCalendar | src/spine/core/datetime.cpp:64-70 | the common-year table plus one leap day after February agrees with summing the true month lengths |
| Calendar.YearIsTwelveMonths | src/spine/core/datetime.cpp:38-54 | the twelve month lengths add up to the length of the year |
| Calendar.CommonYearTable | src/spine/core/datetime.cpp:38 | the month table adds up to 365 days |
| Calendar.YearDayInRange | src/spine/core/datetime.cpp:56-70 | for a valid date the day of the year lies in 0 up to the year's length minus one, as documented |
| Calendar.YearDayEnds | src/spine/core/datetime.cpp:56-70 | January 1 is day 0 and December 31 is the year's last day |
| Calendar.YearDayNext | src/spine/core/datetime.cpp:64-70 | the next day of the month, or the first of the next month, is the next day of the year |
| Calendar.DaysBeforeMonthGrows | src/spine/core/datetime.cpp:64-70 | the days before a month grow by at least a month's length from one month to a later one |
| Calendar.YearDayIncreasing | src/spine/core/datetime.cpp:64-70 | a later date in the same year has a larger day of the year |
| Calendar.DaysBetweenSplit | src/spine/core/datetime.cpp:24-36 | counting days between years is additive |
| Calendar.CommonYear | src/spine/core/datetime.cpp:47-50 | a year not divisible by 4 has 365 days |
| Calendar.LeapThenCommon | src/spine/core/datetime.cpp:47-54 | inside a century, a multiple of 4 is leap and the three years after it are common |
| Calendar.FourYears | src/spine/core/datetime.cpp:47-54 | four years from a leap year inside a century span 1461 days |
| Calendar.FourYearRuns | src/spine/core/datetime.cpp:47-54 | `k` such runs inside a century span `k` times 1461 days |
| Calendar.LastThirtyYears | src/spine/core/datetime.cpp:47-54 | the last thirty years of any century hold seven leap days |
| Calendar.CommonCentury | src/spine/core/datetime.cpp:47-54 | a century not divisible by 400 holds 24 leap days |
| Calendar.EpochOffsetsAreWholeDays | src/spine/core/datetime.cpp:24-36 | `UNIX_OFFSET` and `NTP_OFFSET` are exactly the days from 1970 and from 1900 to 2000, under the leap-year rule, in seconds |
| Calendar.Bcd2Bin | src/spine/core/datetime.cpp:77 | a packed-BCD byte with digits `h` and `l` decodes to `10h + l` |
| Calendar.Bin2Bcd | src/spine/core/datetime.cpp:76 | commented out in the code: a number below 100 encodes to its tens digit in the high nibble and its units digit in the low one |
| Calendar.BcdRoundTrip | src/spine/core/datetime.cpp:76-77 | encoding 0 to 99 gives a BCD byte, and decoding it gives the number back |
| Calendar.BcdDecodeRoundTrip | src/spine/core/datetime.cpp:76-77 | decoding a BCD byte gives a number below 100, and encoding it gives the byte back |
| Calendar.Y2kFromUnix | src/spine/core/datetime.cpp:87-88 | with a 64-bit `time_t`, the Y2K timestamp is the Unix one minus the offset, wrapping in 64 bits |
| Calendar.Y2kFromUnixInjective | src/spine/core/datetime.cpp:87-88 | distinct 64-bit Unix timestamps have distinct Y2K timestamps, wrap-around included |
| Calendar.Y2kFromUnixAvr | src/spine/core/datetime.cpp:87-88 | on AVR, where `time_t` is 32-bit unsigned, the Y2K timestamp is the Unix one minus the offset, wrapping modulo 2^32 below the Y2K epoch |
| Calendar.UnixFromY2kAvr | src/spine/core/datetime.cpp:149-151 | on AVR the Unix timestamp is the Y2K one plus the offset, wrapping modulo 2^32 from 2^32 minus the offset on |
| Calendar.EpochRoundTripAvr | src/spine/core/datetime.cpp:87-88 | on AVR the two conversions undo each other on every 32-bit `time_t`, wrap-around included |
| Calendar.SetTimestamps | src/spine/core/datetime.cpp:148-156 | `set_timestamps` takes the Y2K timestamp from `mktime` on AVR and the Unix one elsewhere, each within its platform's `time_t` |
| Calendar.SetTimestampsAgreesWithConstructor | src/spine/core/datetime.cpp:87-88 | on either platform, the pair `set_timestamps` stores is the pair the constructor from its Unix timestamp stores |
| Concatenate.Body | src/spine/core/utils/concatenate.hpp:49-52 | the chars of an array that take part are a prefix one shorter than the array, and none for an empty array |
| Concatenate.StringSize | src/spine/core/utils/concatenate.hpp:38-42 | `string_size` is 0 exactly when every array holds at most its terminator |
| Concatenate.Lengths | src/spine/core/utils/concatenate.hpp:26-36 | one length per argument, each the length of its array |
| Concatenate.Concat | src/spine/core/utils/concatenate.hpp:38-57 | two arrays join into `string_size + 1` chars: the body of the first, the body of the second, then a NUL |
| Concatenate.ConcatAll | src/spine/core/utils/concatenate.hpp:54-68 | whatever the number of arguments, `concat` gives a non-empty array ending in a NUL |
| Concatenate.ConcatAllFlattens | src/spine/core/utils/concatenate.hpp:38-68 | for any number of arguments the nested result is the bodies one after another and one NUL, of length `string_size` of all lengths plus one |
| Concatenate.ConcatSmallCases | src/spine/core/utils/concatenate.hpp:64-68 | no argument gives a lone NUL, and one argument gives its body and a NUL |
| Concatenate.ConcatAssociates | src/spine/core/utils/concatenate.hpp:59-62 | nesting to the left or to the right gives the same string |
| Timers.TimeSinceLast | src/spine/structure/time/timers.cpp:7-11 | the answer is the time since the last reset; the timer restarts at now when asked and is untouched otherwise |
| Timers.TimeSinceLastSplits | src/spine/structure/time/timers.cpp:7-11 | two resetting reads measure consecutive stretches that add up to the time since the first reset |
| Timers.NewAlarm | src/spine/structure/time/timers.cpp:19-21 | a new alarm has not fired; its deadline is `future` itself when absolute and `future` from now otherwise |
| Timers.AlarmExpiredAsWritten | src/spine/structure/time/timers.cpp:23-33 | as written, the alarm answers true iff it already fired or the deadline cut to `int32_t` is at most the clock cut to `int32_t`, and a true answer is latched |
| Timers.AlarmExpired | src/spine/structure/time/timers.cpp:23-33 | as intended, true iff it already fired or the deadline has been reached, and a true answer is latched |
| Timers.TimeFromNow | src/spine/structure/time/timers.cpp:35 | now plus the answer is the deadline |
| Timers.AlarmStaysExpired | src/spine/structure/time/timers.cpp:23-27 | once an alarm has answered true it answers true at every later call, in both readings |
| Timers.AlarmExpiresOnTime | src/spine/structure/time/timers.cpp:19-33 | an alarm set `d > 0` ahead fires exactly from `d` after it was set, and until then reports `d` minus the time passed |
| Timers.AlarmAgreesInInt32Range | src/spine/structure/time/timers.cpp:28 | while deadline and clock both fit an `int32_t`, the code agrees with the intended reading |
| Timers.AlarmExpiresEarlyAcrossInt32 | src/spine/structure/time/timers.cpp:28 | an alarm set 100 ms ahead at 2147483600 ms of uptime fires at once as written, and not yet as intended |
| Timers.IntervalTimer.Future | src/spine/structure/time/timers.cpp:60 | the next tick is one interval after the last |
| Timers.NewInterval | src/spine/structure/time/timers.cpp:41-42 | a new interval timer counts from now, so its first tick is one interval from now |
| Timers.IntervalExpired | src/spine/structure/time/timers.cpp:44-56 | true iff strictly more than one interval has passed since the last tick; then the next tick moves one interval on with catch-up and to one interval from now without; otherwise nothing changes |
| Timers.IntervalReset | src/spine/structure/time/timers.cpp:58 | after a reset the next tick is one interval from now |
| Timers.TimeUntilNext | src/spine/structure/time/timers.cpp:62 | now plus the answer is the next tick |
| Timers.NoCatchUpFiresOnce | src/spine/structure/time/timers.hpp:70-83 | without catch-up, a timer fires at most once at any one moment, as documented |
| Timers.DrainCatchUp | src/spine/structure/time/timers.cpp:44-56 | with catch-up, polling at one moment fires once per missed interval, `(elapsed - 1) / interval` times, and leaves the last tick that many intervals later |
| Timers.CatchUpCount | src/spine/structure/time/timers.cpp:47-49 | the number of whole intervals that fit strictly below the elapsed time is `(elapsed - 1) / interval` |
| Timers.DivUnique | src/spine/structure/time/timers.cpp:47-49 | the quotient is the unique `q` with `q * y <= x < (q + 1) * y` |
| Events.Future.TimeUntil | src/spine/eventsystem/pipeline.hpp:37 | now plus the time left is the deadline |
| Events.Future.Key | src/spine/eventsystem/pipeline.cpp:75 | the ordering key is the time left whenever that fits an `int32_t` |
| Events.NewFuture | src/spine/eventsystem/pipeline.cpp:7 | a new future keeps its delay and falls due that delay after now |
| Events.Reschedule | src/spine/eventsystem/pipeline.cpp:9-13 | a non-zero delay replaces the stored one, zero keeps it, and the future is re-armed from now |
| Events.InsertionIndex | src/spine/eventsystem/pipeline.cpp:73-83 | the insertion point is the first future whose key is strictly larger, after every future whose key is at most the new one's |
| Events.NewPipeline | src/spine/eventsystem/pipeline.hpp:50 | a new pipeline is empty with the given capacity |
| Events.Push | src/spine/eventsystem/pipeline.cpp:69-84 | `push` re-arms the future with its own delay and inserts it before the first future with a larger key, keeping every other future in place |
| Events.Expire | src/spine/eventsystem/pipeline.cpp:58-67 | an empty pipeline gives nothing; otherwise the front future is removed, and returned, now latched, iff its alarm had latched or its deadline cut to `int32_t` is at most the clock cut to `int32_t` |
| Events.ExpireIntended | src/spine/eventsystem/pipeline.cpp:58-67 | with the full-width alarm, the front future is removed and returned, now latched, iff its alarm had latched or its deadline has been reached |
| Events.ContainsExpiredFutures | src/spine/eventsystem/pipeline.hpp:127 | true iff there is a front future and its alarm, compared in `int32_t`, has expired; the front's alarm is latched by a true answer, and nothing else changes |
| Events.ContainsExpiredFuturesIntended | src/spine/eventsystem/pipeline.hpp:127 | with the full-width alarm, true iff there is a front future whose alarm has expired; a true answer latches the front's alarm |
| Events.TimeUntilNextFuture | src/spine/eventsystem/pipeline.cpp:49-56 | never negative; zero iff the pipeline is empty or the front future is due, and otherwise the time until it is |
| Events.RescheduleKeepsDelay | src/spine/eventsystem/pipeline.cpp:9-13 | rescheduling without a delay keeps the delay and sets the deadline that delay from now |
| Events.PushAddsOne | src/spine/eventsystem/pipeline.cpp:69-84 | `push` adds exactly the re-armed future and loses none |
| Events.PushKeepsKeyOrder | src/spine/eventsystem/pipeline.cpp:69-84 | a pipeline in key order stays in key order, and a future with the same key as the new one stays ahead of it |
| Events.InsertKeepsSorted | src/spine/eventsystem/pipeline.cpp:73-83 | inserting at the insertion point keeps a sorted sequence sorted |
| Events.EqualKeysStayAhead | src/spine/eventsystem/pipeline.cpp:75 | futures whose key equals the new one's keep their positions, ahead of it |
| Events.KeyOrderIsDeadlineOrder | src/spine/eventsystem/pipeline.cpp:75 | while every time left fits an `int32_t`, key order and deadline order are the same |
| Events.PushKeepsDeadlineOrder | src/spine/eventsystem/pipeline.cpp:69-84 | within the `int32_t` window, a pipeline ordered by deadline stays ordered by deadline after a push |
| Events.ExpiredIffNoTimeLeft | src/spine/eventsystem/pipeline.cpp:49-56 | for an unlatched front future whose deadline, like the clock, fits an `int32_t`, there is an expired future iff the time until the next future is zero |
| Events.ExpiredIntendedIffNoTimeLeft | src/spine/eventsystem/pipeline.cpp:49-56 | with the full-width alarm, for an unlatched front future, there is an expired future iff the time until the next future is zero |
| Events.ContainsExpiredThenExpire | src/spine/eventsystem/pipeline.hpp:127 | once `contains_expired_futures()` has answered true, the next `expire()` hands out the front future whatever the clock then says |
| Events.ExpireEarlyAcrossInt32 | src/spine/eventsystem/pipeline.cpp:58-67 | a future pushed with a 100 ms delay at 2147483600 ms is handed out by `expire()` at once as written, and is not yet due with the full-width alarm |
| Events.Pipeline.ContainsFutures | src/spine/eventsystem/pipeline.hpp:128 | `contains_futures()` holds exactly when at least one future is queued |
| Schedules.NewSchedule | src/spine/structure/time/schedule.cpp:7-14 | in a release build the constructor keeps any blocks as given, and it builds the same schedule as the debug build whenever that one does not throw |
| Schedules.NewScheduleDebug | src/spine/structure/time/schedule.cpp:7-14 | built with `DEBUG_SPINE`, the constructor accepts the blocks iff every duration is positive and together they fit in a day, keeping them as given, and throws otherwise |
| Schedules.ValueAt | src/spine/structure/time/schedule.cpp:16-23 | `value_at(t)` is 0 or the value of some block that covers `t` |
| Schedules.StartOfNextBlock | src/spine/structure/time/schedule.cpp:25-30 | `start_of_next_block(t)` is 24 h or the start of some block that starts after `t` |
| Schedules.ValueAtFirstCover | src/spine/structure/time/schedule.cpp:16-23 | `value_at(t)` is 0 when no block covers `t`, and otherwise the value of the first block in list order that does |
| Schedules.NextBlockFirstStart | src/spine/structure/time/schedule.cpp:25-30 | `start_of_next_block(t)` is 24 h when no block starts after `t`, and otherwise the start of the first block in list order that does |
| Schedules.ValueAtInsideBlock | src/spine/structure/time/schedule.cpp:16-23 | when no two blocks overlap, a moment inside a block gets that block's value, whatever the list order |
| Schedules.NextBlockIsEarliest | src/spine/structure/time/schedule.cpp:25-30 | for blocks sorted by start, the next start is after `t` (or 24 h) and no block starts after `t` but before it |
| Schedules.CoversAfterMidnight | src/spine/structure/time/schedule.cpp:18-19 | a block that runs past midnight also covers the morning up to its end minus 24 h |
| Schedules.ThreeBlocksAt | src/spine/structure/time/schedule.cpp:16-30 | over three blocks both lookups are a chain of tests in list order, and the durations add up |
| Schedules.ThreeBlockDay | test/test_structure_time_schedule/test_core_schedule.cpp:10-46 | three 3 h blocks from 1 h, 4 h and 7 h are accepted even by the debug build, and probing a second before and after each start and end gives the expected value and next start |
| Latches.Latch.Elapsed | src/spine/controller/sr_latch.cpp:6-7 | the time since the last switch, read without resetting the timer: the last switch plus the answer is now |
| Latches.NewLatch | src/spine/controller/sr_latch.hpp:30 | a new latch is off and counts as off for exactly the minimal off time already, so a first reading is not held back |
| Latches.Response | src/spine/controller/sr_latch.hpp:60 | the response is true iff the latch is on |
| Latches.SetAsWritten | src/spine/controller/sr_latch.hpp:63-67 | as written, `set` stores the state and restarts the timer, whether or not the state changes |
| Latches.Set | src/spine/controller/sr_latch.hpp:11-13 | as documented, the timer measures the time since the latch last switched: setting the state it already has leaves the timer alone, and a switch restarts it |
| Latches.Decide | src/spine/controller/sr_latch.cpp:5-30 | a latch inside its minimal time ignores the reading; past it, an exceeded maximal on time switches it off and an exceeded maximal off time switches it on, before the thresholds are looked at |
| Latches.NewReadingAsWritten | src/spine/controller/sr_latch.cpp:5-30 | a reading never changes the configuration |
| Latches.NewReading | src/spine/controller/sr_latch.cpp:5-30 | with the intended `set`, the timer is untouched unless the latch switches, and restarts when it does |
| Latches.SameStateEitherWay | src/spine/controller/sr_latch.cpp:5-30 | after any one reading both readings of `set` leave the latch in the same state; only the timer differs |
| Latches.MinimalTimeHolds | src/spine/controller/sr_latch.cpp:6-7 | before the minimal time in its state has passed, a reading changes nothing at all |
| Latches.ThresholdsDecide | src/spine/controller/sr_latch.cpp:9-29 | past the minimal time, an exceeded maximal on time switches the latch off whatever the reading; otherwise it ends up on iff the maximal off time ran out, the reading is above `high`, or it was on and the reading is not below `low` |
| Latches.BandKeepsState | src/spine/controller/sr_latch.cpp:23-29 | a reading between `low` and `high` moves the latch only when a maximal time has run out |
| Latches.HigherReadingNoLessOn | src/spine/controller/sr_latch.cpp:23-29 | a higher reading never leaves the latch off where a lower one would leave it on |
| Latches.FreshLatchSwitchesOn | src/spine/controller/sr_latch.hpp:30 | a new latch switches on at the first reading above `high`, in both readings of `set` |
| Latches.MaxOnTimeSkippedAsWritten | src/spine/controller/sr_latch.hpp:63-67 | with `set` as written, a high reading within the maximal on time restarts the timer, so the latch is still on at a later reading past the maximal on time since it switched; with the intended `set` it is off |
| Latches.OnTimeBounded | src/spine/controller/sr_latch.cpp:9-14 | with the intended `set`, a latch on for longer than the maximal on time and at least the minimal on time switches off at the next reading, whatever the reading |

## Left out

- The Python plotting script `src/spine/filter/plot.py`: random signals, floating point, a subprocess and plotting.
- PID controller and autotuner, filters and trackers: floating-point control and signal code driven by the hardware clock.
- Float-valued units: `CompoundUnit`, every real-valued unit, `to_kernel_time`/`to_real_time` and `to_double`. They rest on floating-point rounding, which the model does not have.
- The magnitude ratio in `from_other` is a `double`, computed by dividing two `double` magnitudes. The model uses the exact ratio and truncates toward zero, and the lines below name the contracts this makes stronger than the code.
- Units.Micros: the code's `double` magnitudes such as `1e-3` and `1e-6` are not exact binary fractions, and their quotients are rounded; the model's ratios are the exact decimal ones.
- Units.KTime.To: the code's product can fall just short of a whole number and then truncates one lower. Converting 3600000 ms to hours multiplies by 2.7777777777777776e-07, gives 0.9999999999999999 and stores 0 h, where the model gives 1 h. Products beyond 2^53 are also rounded before truncation.
- Units.RefineIsExact: the code's ratio from milliseconds to microseconds is 1000.0000000000001, so the round trip holds in the code only while the rounded product truncates back to the exact count; exactness is promised for the model's exact ratios only.
- Units.EqualsIsSameDuration: it rests on the exact conversion, so it is stronger than the code wherever the `double` conversion of the operand rounds, as in `Units.KTime.To` above.
- Units.CoarserOperandIsExact: as for `Units.EqualsIsSameDuration`, the exact sums hold for the model's exact ratios, not for every `double` product.
- Platform, HAL, GPIO and protocol code, logging and the exception plumbing: hardware I/O and diagnostics. A throw is an error value, and debug output is dropped.
- `EventSystem`: virtual handler dispatch and delays. Its ordering rule is the `Pipeline`'s, which is modelled.
- `Pipeline::to_string` and the `Pipeline`'s `std::shared_ptr` ownership: formatting and memory management. Empty slots of the pipe are a placeholder future.
- `DateTime` calendar fields and `strf_DateTime`: they call libc `mktime`, `gmtime_r`, `sscanf` and `strftime`. `set_timestamps` takes the value `mktime` returns as a parameter.
- Calendar: the Unix timestamp from a Y2K one is only computed on AVR, so only its 32-bit form is modelled (`Calendar.UnixFromY2kAvr`).
- `XYZPoint::Mag`/`Normalize` and their `XYPoint` twins: square roots on floats.
- `Points`: the width of `T` is not modelled, so integer overflow in point arithmetic is out of scope.
- `stack.hpp` cannot be instantiated, and `blockbuffer.hpp` is commented out.
- Memory details of `Array`, `Vector` and `Pool`: `malloc`/`free`, `memmove`/`memset`, copies and moves. Values are sequences, and freshly zeroed storage is a `blank` element.
- The `discovered_length` argument of the line-buffer and buffered-stream calls: the model always uses the computed line length, which is what every caller passes.
- `RWBuffer` sizes are `uint16_t`: lengths are required to fit, and wrap-around of the size type is not modelled. `Pool`'s `uint16_t` lookup index is kept below the pool size by the code itself.
- `MockStream` bytes are `char` rather than `uint8_t`. The value range does not matter to any operation.
- `StaticString` capacity is a parameter of the model. What `std::string` reserves for a given length is up to the standard library.
- `Timer::reset(epoch)` with an explicit epoch, and the debug check that an absolute alarm lies in the future: the first is a one-line assignment, and the second is a debug-only assertion.
- `Future::reschedule`'s debug check that the delay is positive is not a precondition, because release builds skip it.
- Kernel time (`KernelTimeRawType`, which is `time_t`) is modelled as a signed 64-bit `time_t`, with unbounded integers: `int64_t` overflow of millisecond counts is not modelled, while the `int32_t` casts the code makes are, in `Timers.AlarmExpiredAsWritten` and in the pipeline's `Events.Expire` and `Events.ContainsExpiredFutures` built on it. On AVR `time_t` is unsigned 32-bit; that kernel time is not modelled. There, differences such as `time_from_now`, `time_until_next` and the time since the last reset would wrap modulo 2^32, and no duration would be negative. Only the AVR epoch conversions of `Calendar` use the 32-bit width.
- Units.KTime.DividedBy: the divisor is an integer. `operator/` also accepts floating-point scalars, which fall under the floating-point units left out above.
- `Schedule`'s constructor has two models: `Schedules.NewSchedule` for the release build, where the checks expand to nothing, and `Schedules.NewScheduleDebug` for a build with `DEBUG_SPINE`, where they throw. The schedule lemmas hold for any blocks unless they say otherwise.
- `Schedule` and `SRLatch` values are `double` in the code and exact reals here. NaN readings are not modelled.
- `LogicalState` has an `UNDEFINED` value that `SRLatch` never takes, so the latch state is a `bool`.
- `Buffered.BufferedStream.PushOut` moves the bytes in one step rather than byte by byte. Each byte written into free space succeeds, so the two loops agree.
- `Buffered.BufferedStream.PullInData`: its own contract says only that the output side is untouched. The contents it leaves are stated by `Buffered.PullInKeepsNewest` and `Buffered.PullInTakesAll`.
- `Units.KTime.Plus` and `Units.KTime.Minus`: their contracts give only the magnitude of the result. Exactness for an operand of the same or a coarser magnitude is `Units.CoarserOperandIsExact`, and the inverse relation is `Units.PlusMinusCancel`. A finer operand truncates, as `Units.KTime.To` states.
- `Transactions.Commit` and `Transactions.Abort`: their contracts say only that the transaction ends finalized. What happens to the output is stated by `Transactions.CommitKeepsOutput`, `Transactions.AbortRestoresOutput` and `Transactions.AbortEmptiesFullOutput`.
- `Transactions.AbortIntended`: likewise, its effect on the output is `Transactions.AbortIntendedRestoresOutput`.
- Transactions.AbortRestoresOutput: holds only when something was queued or the output buffer is not full, because the code's `drop_last(0)` on a full buffer empties it; the unguarded promise is `Transactions.AbortIntendedRestoresOutput`, about the corrected abort.
- Transactions.UndoDropsQueued: guarded in the same way; the unguarded promise is `Transactions.UndoIntendedDropsQueued`.
- Events.ExpiredIffNoTimeLeft: holds only while the front deadline and the clock fit an `int32_t`, because the code's expiry compares `int32_t` cuts; outside that window the two answers can differ (`Events.ExpireEarlyAcrossInt32`). The unrestricted promise is `Events.ExpiredIntendedIffNoTimeLeft`, about the full-width alarm.
- Transactions.NewTransaction: the request it records is the line the corrected `Lines.LineBuffer.NextLineView` gives. The code's view reads past the end of the input array when the line wraps around (`Lines.WrappedLineViewOverruns`); where it does not, the two agree (`Transactions.NewTransactionReadsSpan`).
- `Latches.NewReadingAsWritten`: its contract says only that the configuration is unchanged. The state it reaches is tied to the corrected `Latches.NewReading` by `Latches.SameStateEitherWay`, and the timer difference is shown by `Latches.MaxOnTimeSkippedAsWritten`.
- `Schedules.ValueAt` and `Schedules.StartOfNextBlock`: their own contracts say only that the answer is a default or comes from some suitable block. Which block is `Schedules.ValueAtFirstCover` and `Schedules.NextBlockFirstStart`.
- `Result`'s `map`, `and_then`, `value_or` and similar, and the lowercase point methods used by some tests: they are not part of the code modelled.

## Findings

| source | as written | input that shows it | evidently intended | confidence | as-written member | corrected member |
|---|---|---|---|---|---|---|
| src/spine/structure/ringbuffer.hpp:151-169 | `drop_first(n)`/`drop_last(n)` clamp `n` to the used space and then always clear the full flag (line 156). The header comment (lines 36-40) says 0 means "all", but the code has no such case: on a buffer that is not full, 0 drops nothing | a full buffer of 2 elements and `drop_first(0)` or `drop_last(0)`: each returns 0, but head equals tail with the flag clear, so the buffer reads as empty; on the same buffer with one element, `drop_last(0)` leaves it as it was | the count returned is the number of elements removed, and dropping 0 removes nothing, as on a buffer that is not full: `clear()` (line 43) passes `used_space()` explicitly rather than relying on 0, and `Transaction::undo` (transaction.cpp:58) passes the queued count, which is 0 when nothing was queued | high, not executed | `Ring.DropZeroEmptiesFullBuffer` | `Ring.RingBuffer.DropFirst` |
| src/spine/structure/ringbuffer.hpp:157 | the overrun counter is lowered with `std::max(0, m_overwritten - n)` on `size_t`, where the subtraction wraps before the `max` | a buffer holding one element, no overrun, and `drop_last(1)`: the overrun count becomes 2^64 - 1 | the count stops at 0 | high, not executed | `Ring.DropLastWrapsOverrun` | `Ring.RingBuffer.DropLast` |
| src/spine/io/stream/transaction.cpp:42-46 | `abort()` calls `undo()`, which hands the queued count to `drop_last`; with nothing queued that is `drop_last(0)` | an output buffer of capacity 2 holding an earlier, not yet flushed response "ok", then a new transaction that queues nothing and aborts: the output is emptied and "ok" is lost | aborting a transaction removes only its own queued bytes | high, not executed | `Transactions.AbortEmptiesFullOutput` | `Transactions.AbortIntended` |
| src/spine/structure/linebuffer.hpp:28-36 | the next line is returned as a contiguous view of the ring storage, starting at the physical tail | a buffer of 4 slots holding "ab\n" from slot 3 on: the view starts at slot 3 with length 2 and so runs past the last slot | the line is read in ring order, wrapping around to slot 0 | high, not executed | `Lines.WrappedLineViewOverruns` | `Lines.LineBuffer.NextLineView` |
| src/spine/structure/vector.hpp:186-197 | `pop_back` resets head and tail to 0 when it removes the last element, before it reads `m_store[m_tail]` | slots holding 7, 8, 9 with only the 9 left after two `pop_front` calls: `pop_back` returns 7, the stale contents of slot 0 | `pop_back` returns the element it removes | high, not executed | `Vec.PopBackReturnsStaleSlot` | `Vec.Vector.PopBack` |
| src/spine/structure/vector.hpp:294-313 | `remove(index)` compares the position `index` with the physical slots `m_head` and `m_tail` | a vector whose head is slot 1: `remove(0)` removes nothing, and `remove(1)` removes the first element | `remove(i)` removes the element at position `i` | high, not executed | `Vec.RemoveUsesSlotNotPosition` | `Vec.Vector.Remove` |
| src/spine/structure/vector.hpp:304 | the middle case moves `m_tail - index` elements starting at `index + 1` | a full vector of 3 and `remove(1)`: the move reads slot 3, one past the storage | move the `m_tail - index - 1` elements after `index` | high, not executed | `Vec.RemoveCopiesPastArray` | `Vec.Vector.Remove` |
| src/spine/structure/rwbuffer.hpp:51-63 | `write` compacts the unread bytes to the front only when the new data fits strictly (`<`) | a buffer of 4 with 1 unread byte at slot 1 and a write of 3: only 2 bytes are written, though after compaction all 3 fit | compact whenever the data fits in the free space (`<=`) | medium, not executed | `RW.ExactFitNotCompacted` | `RW.RWBuffer.Write` |
| src/spine/structure/array.hpp:349-354 | `swap` exchanges the storage pointers but each array keeps its own size | arrays of 1 and 2 elements: after `swap` the first reads one element of the 2-element storage, and the second reads past the end of the 1-element storage | sizes move with the storage | high, not executed | `FixedArray.SwapMismatchedSizes` | `FixedArray.Array.Swap` |
| src/spine/core/utils/string.hpp:20-26 | `rstrip` counts the trailing whitespace run `k` and returns `{data + k, size - k}`: it drops the first `k` chars instead of the last `k` | `"abc "` gives `"bc "`, and `"ab  "` gives `"  "` | the view without the trailing whitespace, `"ab"` | high, not executed | `Strings.RStripSkipsFirstChars`, and `Strings.RStripDropsPrefix` for the second input | `Strings.RStrip` |
| src/spine/structure/time/timers.cpp:23-33 | `AlarmTimer::expired` cuts the deadline and the clock to `int32_t` before comparing them | an alarm set 100 ms ahead at 2147483600 ms: the deadline wraps negative and the alarm expires at once | compare the full-width times | medium, not executed | `Timers.AlarmExpiresEarlyAcrossInt32`, and in the pipeline `Events.ExpireEarlyAcrossInt32` | `Timers.AlarmExpired` |
| src/spine/controller/sr_latch.hpp:63-67 | `set` restarts the last-turned timer on every call, also when the state does not change | maximal on time 1000 ms and readings above `high` 600 ms and 1200 ms after switching on: the latch stays on | the timer measures the time since the last switch, as the class comment at lines 11-13 describes, so the latch switches off after its maximal on time | medium, not executed | `Latches.MaxOnTimeSkippedAsWritten` | `Latches.NewReading` |

=== FILE: array.dfy ===
/** `spn::structure::Array<T>`: a fixed-size store with a recorded maximum size.
    Freshly allocated storage is zero-filled; `blank` stands for the all-zero `T`. */
module FixedArray {

  datatype Array<T> = Array(store: seq<T>, maxSize: nat)
  {
    /** The recorded size describes the storage. */
    predicate Valid() { |store| == maxSize }

    /** `at(index)` and `operator[]`: no bounds check, so reading past the end is undefined. */
    function At(index: nat): (r: T)
      requires Valid() && index < maxSize
      ensures r in store
    {
      store[index]
    }

    /** Assignment through `operator[]`. */
    function Set(index: nat, v: T): (r: Array<T>)
      requires Valid() && index < maxSize
      ensures r.Valid() && r.maxSize == maxSize
      ensures r.At(index) == v
      ensures forall j :: 0 <= j < maxSize && j != index ==> r.At(j) == At(j)
    {
      Array(store[index := v], maxSize)
    }

    function Front(): (r: T)
      requires Valid() && maxSize > 0
      ensures r == At(0)
    {
      store[0]
    }

    /** `back()`: the last slot. With no slots the code falls back on slot 0, which
        does not exist either, so a non-empty array is required. */
    function Back(): (r: T)
      requires Valid() && maxSize > 0
      ensures r == At(maxSize - 1)
    {
      store[maxSize - 1]
    }

    /** `empty()`: the array has no slots. */
    function Empty(): (r: bool)
      ensures Valid() ==> (r <==> store == [])
    {
      maxSize == 0
    }

    /** `size()`: the recorded maximum size, which counts the slots of the storage. */
    function Size(): (n: nat)
      ensures Valid() ==> n == |store|
    {
      maxSize
    }

    /** `fill(value)`: every slot takes `value`. */
    function Fill(v: T): (r: Array<T>)
      requires Valid()
      ensures r.Valid() && r.maxSize == maxSize
      ensures forall j :: 0 <= j < maxSize ==> r.At(j) == v
    {
      Array(seq(maxSize, _ => v), maxSize)
    }

    /** `swap(other)` as written: exchanges the storage pointers but keeps each
        array's own maximum size. */
    function SwapAsWritten(other: Array<T>): (r: (Array<T>, Array<T>))
      ensures r.0.store == other.store && r.1.store == store
      ensures r.0.maxSize == maxSize && r.1.maxSize == other.maxSize
    {
      (Array(other.store, maxSize), Array(store, other.maxSize))
    }

    /** `swap(other)` with the evident intent: the two arrays trade places. */
    function Swap(other: Array<T>): (r: (Array<T>, Array<T>))
      requires Valid() && other.Valid()
      ensures r.0.Valid() && r.1.Valid()
      ensures r.0.maxSize == other.maxSize && r.1.maxSize == maxSize
      ensures forall j :: 0 <= j < other.maxSize ==> r.0.At(j) == other.At(j)
      ensures forall j :: 0 <= j < maxSize ==> r.1.At(j) == At(j)
    {
      (other, this)
    }
  }

  /** `Array(max_size)`: zero-filled storage. */
  function Zeroed<T>(maxSize: nat, blank: T): (r: Array<T>)
    ensures r.Valid() && r.maxSize == maxSize
    ensures forall j :: 0 <= j < maxSize ==> r.At(j) == blank
  {
    Array(seq(maxSize, _ => blank), maxSize)
  }

  /** `Array(max_size, init_value)`: zero-filled, then filled with `init_value`. */
  function Filled<T>(maxSize: nat, blank: T, v: T): (r: Array<T>)
    ensures r.Valid() && r.maxSize == maxSize
    ensures forall j :: 0 <= j < maxSize ==> r.At(j) == v
  {
    Zeroed(maxSize, blank).Fill(v)
  }

  /** `Array(initializer_list)`: one slot per listed value, in order. */
  function FromList<T>(values: seq<T>): (r: Array<T>)
    ensures r.Valid() && r.maxSize == |values|
    ensures forall j :: 0 <= j < |values| ==> r.At(j) == values[j]
  {
    Array(values, |values|)
  }

  /** Writing a slot then reading it back gives the written value; other slots keep theirs. */
  lemma SetThenAt<T>(a: Array<T>, i: nat, j: nat, v: T)
    requires a.Valid() && i < a.maxSize && j < a.maxSize
    ensures a.Set(i, v).At(j) == if i == j then v else a.At(j)
  {
  }

  /** Swapping twice restores both arrays. */
  lemma SwapTwice<T>(a: Array<T>, b: Array<T>)
    requires a.Valid() && b.Valid()
    ensures var (a2, b2) := a.Swap(b); a2.Swap(b2) == (a, b)
  {
  }

  /** Arrays of different sizes come out of `swap` with a size that does not match
      their storage: a one-slot array receives two slots of storage but still reports
      one, and the two-slot array reports two slots over one. */
  lemma SwapMismatchedSizes()
    ensures var a := FromList([1]);
            var b := FromList([2, 3]);
            var (a2, b2) := a.SwapAsWritten(b);
            && a.Valid() && b.Valid()
            && !a2.Valid() && !b2.Valid()
            && b2.maxSize == 2 && |b2.store| == 1
            && a.Swap(b) == (b, a)
  {
  }
}

=== FILE: buffered_stream.dfy ===
/**
 * `spn::io::BufferedStream`: an input and an output `LineBuffer` in front of
 * a byte stream. The stream is the `MockStream` model: a queue to read from
 * and a bounded queue to write to.
 */
module Buffered {
  import opened Wrappers
  import opened CInt
  import opened Ring
  import opened Lines
  import opened Mock
  import opened Seqs

  /** The newest `cap` elements of `s`: what a ring buffer that rolls over keeps. */
  function Newest<T>(s: seq<T>, cap: nat): (r: seq<T>)
    ensures |r| == Min(|s|, cap) && r == s[|s| - |r|..]
  {
    s[Max(0, |s| - cap)..]
  }

  datatype BufferedStream = BufferedStream(input: LineBuffer, output: LineBuffer, stream: MockStream) {
    predicate Valid() { input.Valid() && output.Valid() && stream.Valid() }

    /** `buffered_write(buffer, length, rollover)`: queues bytes on the output buffer. */
    function BufferedWrite(data: string, rollover: bool): (r: (BufferedStream, nat))
      requires Valid()
      ensures r.0.Valid() && r.0.input == input && r.0.stream == stream
      ensures r.0.output.delimiters == output.delimiters
      ensures r.0.output.ring.Capacity() == output.ring.Capacity()
      ensures !rollover ==> r.1 == Min(|data|, output.ring.FreeSpace())
                            && r.0.output.Contents() == output.Contents() + data[..(r.1)]
      ensures rollover ==> r.1 == |data|
                           && r.0.output.Contents() == Newest(output.Contents() + data, output.ring.Capacity())
    {
      var (rb, n) := output.ring.PushRange(data, rollover);
      PushRangeKeepsCapacity(output.ring, data, rollover);
      if rollover then
        PushRangeRollsOver(output.ring, data);
        (this.(output := LineBuffer(rb, output.delimiters)), n)
      else
        PushRangeFills(output.ring, data);
        (this.(output := LineBuffer(rb, output.delimiters)), n)
    }

    /** `buffered_write(value, rollover)`: queues one byte; yields 1 when it was accepted. */
    function BufferedWriteOne(v: char, rollover: bool): (r: (BufferedStream, nat))
      requires Valid()
      ensures r.0.Valid() && r.0.input == input && r.0.stream == stream
      ensures r.1 == (if !output.ring.isFull || rollover then 1 else 0)
      ensures r.1 == 1 && !output.ring.isFull ==> r.0.output.Contents() == output.Contents() + [v]
      ensures r.1 == 1 && output.ring.isFull ==> r.0.output.Contents() == output.Contents()[1..] + [v]
      ensures r.1 == 0 ==> r.0 == this
    {
      var (rb, ok) := output.ring.Push(v, rollover);
      if !ok then (this, 0)
      else if output.ring.isFull then
        PushOverwrites(output.ring, v);
        (this.(output := LineBuffer(rb, output.delimiters)), 1)
      else
        PushAppends(output.ring, v, rollover);
        (this.(output := LineBuffer(rb, output.delimiters)), 1)
    }

    /** The early exits of the `pull_in_data` loop, checked once the input buffer is full. */
    predicate StopsEarly(lastChar: char)
      requires Valid()
    {
      input.ring.isFull && (lastChar in input.delimiters || (input.ring.overwritten == 0 && input.HasLine()))
    }

    /**
     * The `pull_in_data` loop from a state whose previous byte was `lastChar`:
     * moves bytes from the stream into the input buffer with rollover.
     */
    function PullIn(lastChar: char): (r: (BufferedStream, nat))
      requires Valid()
      ensures r.0.Valid() && r.0.output == output && r.0.stream.Out() == stream.Out()
      ensures r.0.stream.swapped == stream.swapped && r.0.input.delimiters == input.delimiters
      ensures r.1 <= stream.Available()
      ensures r.0.stream.In().Contents() == stream.In().Contents()[r.1..]
      ensures r.0.input.ring == input.ring.PushRange(stream.In().Contents()[..(r.1)], true).0
      ensures r.1 < stream.Available() ==>
                r.0.StopsEarly(if r.1 == 0 then lastChar else stream.In().Contents()[r.1 - 1])
      decreases stream.Available()
    {
      if stream.Available() == 0 || StopsEarly(lastChar) then
        assert stream.In().Contents()[..0] == [];
        (this, 0)
      else
        var (next, c) := PullInStep();
        var (last, n) := next.PullIn(c);
        var all := stream.In().Contents();
        SplitFirst([], all, n);
        PushRangeCons(input.ring, all[..n + 1]);
        (last, n + 1)
    }

    /** One turn of the `pull_in_data` loop: read a byte from the stream and push it,
        with rollover, into the input buffer. */
    function PullInStep(): (r: (BufferedStream, char))
      requires Valid() && stream.Available() > 0
      ensures r.0.Valid() && r.0.output == output && r.0.stream.Out() == stream.Out()
      ensures r.0.stream.swapped == stream.swapped && r.0.input.delimiters == input.delimiters
      ensures r.1 == stream.In().Contents()[0] && r.0.stream.In().Contents() == stream.In().Contents()[1..]
      ensures r.0.input.ring == input.ring.Push(r.1, true).0
    {
      var (s, v) := stream.ReadOne();
      var (rb, _) := input.ring.Push(v.value, true);
      (BufferedStream(LineBuffer(rb, input.delimiters), output, s), v.value)
    }

    /** `pull_in_data()`: the loop starts with a NUL as its previous byte. */
    function PullInData(): (r: (BufferedStream, nat))
      requires Valid()
      ensures r.0.Valid() && r.0.output == output
    {
      PullIn('\0')
    }

    /**
     * `push_out_data()`: the loop pops the oldest queued byte and writes it to the
     * stream while the stream has room and bytes are queued. A write into free space
     * always succeeds, so the loop moves the `min(queued, room)` oldest bytes, in
     * order; yields that count.
     */
    function PushOut(): (r: (BufferedStream, nat))
      requires Valid()
      ensures r.0.Valid() && r.0.input == input && r.0.stream.In() == stream.In()
      ensures r.0.stream.swapped == stream.swapped && r.0.output.delimiters == output.delimiters
      ensures r.1 == Min(|output.Contents()|, stream.AvailableForWrite())
      ensures r.0.output.Contents() == output.Contents()[r.1..]
      ensures r.0.stream.Out().Contents() == stream.Out().Contents() + output.Contents()[..(r.1)]
    {
      var n := Min(output.ring.UsedSpace(), stream.AvailableForWrite());
      PopNTakesOldest(output.ring, n);
      var (rb, bytes) := output.ring.PopN(n);
      var (s, written) := stream.Write(bytes);
      assert bytes[..written] == bytes;
      (BufferedStream(input, LineBuffer(rb, output.delimiters), s), n)
    }

    /** `has_line()`: a delimiter is waiting in the input buffer. */
    function HasLine(): (r: bool)
      requires Valid()
      ensures r <==> exists j :: 0 <= j < |input.Contents()| && input.Contents()[j] in input.delimiters
    {
      input.HasLine()
    }

    /** `output_buffer_space_left()`. */
    function OutputSpaceLeft(): (n: nat)
      requires Valid()
      ensures n + |output.Contents()| == output.ring.Capacity()
    {
      output.ring.FreeSpace()
    }

    /**
     * `output_buffer_drop_last(n)`: drops the newest `n` queued bytes through the
     * ring buffer's `drop_last` as written, so dropping nothing from a full
     * output buffer leaves it reading as empty.
     */
    function OutputDropLast(n: nat): (r: (BufferedStream, nat))
      requires Valid() && n < SizeMod
      ensures r.0.Valid() && r.0.input == input && r.0.stream == stream
      ensures r.0.output.delimiters == output.delimiters
      ensures r.1 == Min(n, |output.Contents()|)
      ensures r.1 > 0 || !output.ring.isFull ==>
                r.0.output.Contents() == output.Contents()[..|output.Contents()| - r.1]
      ensures r.1 == 0 && output.ring.isFull ==> r.0.output.Contents() == []
    {
      DropLastAsWrittenRemoves(output.ring, n);
      var (rb, k) := output.ring.DropLastAsWritten(n);
      (this.(output := LineBuffer(rb, output.delimiters)), k)
    }

    /** `output_buffer_drop_last(n)` over the corrected `drop_last`: drops the newest `n` queued bytes, and nothing else. */
    function OutputDropLastIntended(n: nat): (r: (BufferedStream, nat))
      requires Valid() && n < SizeMod
      ensures r.0.Valid() && r.0.input == input && r.0.stream == stream
      ensures r.0.output.delimiters == output.delimiters
      ensures r.1 == Min(n, |output.Contents()|)
      ensures r.0.output.Contents() == output.Contents()[..|output.Contents()| - r.1]
    {
      DropLastRemovesNewest(output.ring, n);
      var (rb, k) := output.ring.DropLast(n);
      (this.(output := LineBuffer(rb, output.delimiters)), k)
    }

    /** `drop_next_line()` on the input buffer. */
    function DropNextLine(): (r: BufferedStream)
      requires Valid()
      ensures r.Valid() && r.output == output && r.stream == stream
      ensures r.input.delimiters == input.delimiters
      ensures HasLine() ==> r.input.Contents() == input.Contents()[input.LengthOfNextLine()..]
      ensures !HasLine() ==> r == this
    {
      DropNextLineSkipsLine(input);
      this.(input := input.DropNextLine().0)
    }
  }

  /** Range pushes never change a ring buffer's capacity. */
  lemma {:induction false} PushRangeKeepsCapacity<T>(rb: RingBuffer<T>, data: seq<T>, rollover: bool)
    requires rb.Valid()
    ensures rb.PushRange(data, rollover).0.Capacity() == rb.Capacity()
    decreases |data|
  {
    if |data| > 0 {
      var (next, ok) := rb.Push(data[0], rollover);
      if ok {
        PushRangeKeepsCapacity(next, data[1..], rollover);
      }
    }
  }

  /** `BufferedStream(stream, {input_buffer_size, output_buffer_size, delimiters})`. */
  function NewBufferedStream(stream: MockStream, inputSize: nat, outputSize: nat, delimiters: string): (r: BufferedStream)
    requires stream.Valid() && 0 < inputSize < SizeMod && 0 < outputSize < SizeMod
    ensures r.Valid() && r.input.Contents() == [] && r.output.Contents() == [] && r.stream == stream
    ensures r.input.ring.Capacity() == inputSize && r.output.ring.Capacity() == outputSize
  {
    BufferedStream(NewLineBuffer(inputSize, delimiters), NewLineBuffer(outputSize, delimiters), stream)
  }

  /** Pulled-in bytes accumulate in the input buffer, which keeps the newest of them. */
  lemma PullInKeepsNewest(bs: BufferedStream)
    requires bs.Valid()
    ensures var (r, n) := bs.PullInData();
            r.input.Contents() == Newest(bs.input.Contents() + bs.stream.In().Contents()[..n], bs.input.ring.Capacity())
  {
    var n := bs.PullInData().1;
    PushRangeRollsOver(bs.input.ring, bs.stream.In().Contents()[..n]);
  }

  /** When everything waiting fits in an empty input buffer, `pull_in_data` takes all of it, in order. */
  lemma PullInTakesAll(bs: BufferedStream)
    requires bs.Valid() && bs.input.Contents() == []
    requires bs.stream.Available() <= bs.input.ring.Capacity()
    ensures bs.PullInData().1 == bs.stream.Available()
    ensures bs.PullInData().0.input.Contents() == bs.stream.In().Contents()
    ensures bs.PullInData().0.stream.Available() == 0
  {
    var (r, n) := bs.PullInData();
    var data := bs.stream.In().Contents();
    PullInKeepsNewest(bs);
    PushRangeKeepsCapacity(bs.input.ring, data[..n], true);
    NewestOfFew(data, n, bs.input.ring.Capacity());
    FullAtCapacity(r.input.ring);
  }

  /** Keeping the newest `cap` of at most `cap` elements keeps them all. */
  lemma NewestOfFew<T>(data: seq<T>, n: nat, cap: nat)
    requires n <= |data| <= cap
    ensures Newest([] + data[..n], cap) == data[..n] && |data[..n]| == n
    ensures n == |data| ==> data[..n] == data && data[n..] == []
  {
    assert [] + data[..n] == data[..n];
  }

  /** Queued output that fits the stream comes out of the far end unchanged. */
  lemma WriteThenPushOut(bs: BufferedStream, data: string)
    requires bs.Valid() && bs.output.Contents() == [] && bs.stream.Out().Contents() == []
    requires |data| <= bs.output.ring.FreeSpace() && |data| <= bs.stream.AvailableForWrite()
    ensures bs.BufferedWrite(data, false).1 == |data|
    ensures bs.BufferedWrite(data, false).0.PushOut().1 == |data|
    ensures bs.BufferedWrite(data, false).0.PushOut().0.stream.Extract().1 == data
  {
    assert data[..|data|] == data;
  }

  /** "abc\ndef\nghi\n" in the input buffer yields the lines "abc", "def" and "ghi", and nothing after. */
  lemma ThreeLines(lb: LineBuffer)
    requires lb.Valid() && lb.delimiters == "\n" && lb.Contents() == "abc\ndef\nghi\n"
    ensures ReadAllLines(lb) == ["abc", "def", "ghi"]
  {
    var lines := ["abc", "def", "ghi"];
    assert Terminated(lines, '\n') == "abc\ndef\nghi\n" by {
      assert lines[1..] == ["def", "ghi"] && lines[1..][1..] == ["ghi"] && lines[1..][1..][1..] == [];
    }
    assert lb.Contents() == Terminated(lines, '\n') + "";
    ReadsBackLines(lb, lines, '\n', "");
  }
}

=== FILE: cint.dfy ===
/** Machine arithmetic of the C++ source, written out over unbounded integers. */
module CInt {

  /** `size_t` wraps modulo 2^64 on the 64-bit host the test-suite targets. */
  const SizeMod: nat := 0x1_0000_0000_0000_0000

  /** `int32_t` range. */
  const Int32Min: int := -0x8000_0000
  const Int32Max: int := 0x7fff_ffff

  /** `int64_t` (and `time_t`) range. */
  const Int64Min: int := -0x8000_0000_0000_0000
  const Int64Max: int := 0x7fff_ffff_ffff_ffff

  function Min(a: int, b: int): (r: int)
    ensures r <= a && r <= b
    ensures r == a || r == b
  {
    if a < b then a else b
  }

  function Max(a: int, b: int): (r: int)
    ensures r >= a && r >= b
    ensures r == a || r == b
  {
    if a < b then b else a
  }

  function Abs(a: int): (r: nat)
    ensures r == a || r == -a
  {
    if a < 0 then -a else a
  }

  /** Unsigned `size_t` subtraction `a - b`: wraps around below zero. */
  function SizeSub(a: nat, b: nat): (r: nat)
    requires a < SizeMod && b < SizeMod
    ensures r < SizeMod
    ensures b <= a ==> r == a - b
    ensures a < b ==> r == SizeMod - (b - a)
  {
    (a - b) % SizeMod
  }

  /** C++ integer division: the quotient is truncated toward zero. */
  function TruncDiv(a: int, b: int): (q: int)
    requires b != 0
  {
    var m := Abs(a) / Abs(b);
    if (a < 0) == (b < 0) then m else -m
  }

  /** What C++ guarantees for `a / b`: the magnitude is the floor of |a|/|b| and the
      sign is that of the exact quotient, so the division truncates toward zero. */
  lemma TruncDivBounds(a: int, b: int)
    requires b != 0
    ensures Abs(TruncDiv(a, b)) * Abs(b) <= Abs(a) < (Abs(TruncDiv(a, b)) + 1) * Abs(b)
    ensures (a >= 0) == (b > 0) ==> TruncDiv(a, b) >= 0
    ensures (a >= 0) != (b > 0) ==> TruncDiv(a, b) <= 0
  {
    TruncDivMagnitude(a, b);
    TruncDivSign(a, b);
  }

  lemma TruncDivMagnitude(a: int, b: int)
    requires b != 0
    ensures Abs(TruncDiv(a, b)) == Abs(a) / Abs(b)
  {
  }

  lemma TruncDivSign(a: int, b: int)
    requires b != 0
    ensures (a >= 0) == (b > 0) ==> TruncDiv(a, b) >= 0
    ensures (a >= 0) != (b > 0) ==> TruncDiv(a, b) <= 0
  {
    DivNonneg(Abs(a), Abs(b));
  }

  /** C++ `%`: the remainder that goes with the truncating quotient; it takes the sign of `a`. */
  function TruncMod(a: int, b: int): (r: int)
    requires b != 0
    ensures a == b * TruncDiv(a, b) + r
    ensures Abs(r) < Abs(b)
    ensures r != 0 ==> (r < 0 <==> a < 0)
  {
    var m := Abs(a) % Abs(b);
    DivBounds(Abs(a), Abs(b));
    TruncDivSplits(a, b);
    if a < 0 then -m else m
  }

  /** `|a| == |b| * (|a| / |b|) + |a| % |b|`, carried over to the signed quotient. */
  lemma TruncDivSplits(a: int, b: int)
    requires b != 0
    ensures a == b * TruncDiv(a, b) + (if a < 0 then -(Abs(a) % Abs(b)) else Abs(a) % Abs(b))
  {
    var q, m := Abs(a) / Abs(b), Abs(a) % Abs(b);
    assert Abs(a) == Abs(b) * q + m;
    if (a < 0) == (b < 0) {
      assert b * TruncDiv(a, b) == b * q;
      if a < 0 {
        assert b * q == -(Abs(b) * q);
      }
    } else {
      assert b * TruncDiv(a, b) == b * (-q);
      if a < 0 {
        assert b * (-q) == -(Abs(b) * q);
      } else {
        assert b * (-q) == Abs(b) * q;
      }
    }
  }

  lemma DivNonneg(x: int, y: int)
    requires x >= 0 && y > 0
    ensures x / y >= 0
  {
  }

  /** Euclidean division of naturals brackets the dividend. */
  lemma DivBounds(x: nat, y: nat)
    requires y > 0
    ensures (x / y) * y <= x < (x / y + 1) * y
  {
    var m := x / y;
    assert x == m * y + x % y;
    MulSucc(m, y);
  }

  lemma MulSucc(m: int, y: int)
    ensures (m + 1) * y == m * y + y
  {
  }

  /** `static_cast<int32_t>` of a wider integer: keeps the low 32 bits, two's complement. */
  function ToInt32(x: int): (r: int)
    ensures Int32Min <= r <= Int32Max
    ensures Int32Min <= x <= Int32Max ==> r == x
  {
    (x - Int32Min) % 0x1_0000_0000 + Int32Min
  }

  /** A signed 64-bit result of a wider computation: keeps the low 64 bits, two's complement. */
  function ToInt64(x: int): (r: int)
    ensures Int64Min <= r <= Int64Max
    ensures Int64Min <= x <= Int64Max ==> r == x
  {
    (x - Int64Min) % SizeMod + Int64Min
  }

  /** Wrapping an intermediate result does not change the wrapped value of a later sum. */
  lemma ToInt64Shift(a: int, k: int)
    ensures ToInt64(ToInt64(a) + k) == ToInt64(a + k)
  {
    var q := (a - Int64Min) / SizeMod;
    assert ToInt64(a) == a - SizeMod * q;
    ModShift(a + k - Int64Min, q, SizeMod);
  }

  /** Subtracting a multiple of the modulus leaves the remainder alone. */
  lemma ModShift(x: int, q: int, m: int)
    requires m > 0
    ensures (x - m * q) % m == x % m
  {
    var r := x % m;
    assert x == m * (x / m) + r;
    assert x - m * q == m * (x / m - q) + r;
    ModUnique(x - m * q, x / m - q, r, m);
  }

  /** The remainder is the unique `r` in `[0, m)` with `x == m * a + r`. */
  lemma ModUnique(x: int, a: int, r: int, m: int)
    requires m > 0 && 0 <= r < m && x == m * a + r
    ensures x % m == r
  {
    var q, s := x / m, x % m;
    assert x == m * q + s;
    assert m * (a - q) == s - r;
    if a > q {
      MulAtLeast(m, a - q);
    } else if a < q {
      MulAtLeast(m, q - a);
    }
  }

  lemma MulAtLeast(m: int, d: int)
    requires m > 0 && d >= 1
    ensures m * d >= m
  {
  }

  /** `x % c` for `0 <= x < 2c`: at most one subtraction of the modulus. */
  lemma ModWrap(x: int, c: int)
    requires 0 < c && 0 <= x < 2 * c
    ensures x % c == (if x < c then x else x - c)
  {
    if x < c {
      assert x == 0 * c + x;
    } else {
      assert x == 1 * c + (x - c);
    }
  }
}

=== FILE: concatenate.dfy ===
/**
 * `spn::core::utils::concat`: compile-time concatenation of character arrays.
 * Each argument is a whole array, string literals with their terminating NUL;
 * the last char of every array is dropped and one NUL closes the result.
 */
module Concatenate {

  /** The chars of an array of length N that take part, its first `N - 1` (none for an empty array). */
  function Body(a: seq<char>): (b: seq<char>)
    ensures |b| == if |a| == 0 then 0 else |a| - 1
    ensures b <= a
  {
    if |a| == 0 then [] else a[..|a| - 1]
  }

  /** `string_size(N...)`: the sum of `N - 1` over the array lengths, counting 0 for an empty array. */
  function StringSize(lengths: seq<nat>): (n: nat)
    ensures n == 0 <==> forall i :: 0 <= i < |lengths| ==> lengths[i] <= 1
    decreases |lengths|
  {
    if |lengths| == 0 then 0
    else (if lengths[0] > 0 then lengths[0] - 1 else 0) + StringSize(lengths[1..])
  }

  /** The array lengths of a list of arguments. */
  function Lengths(args: seq<seq<char>>): (ls: seq<nat>)
    ensures |ls| == |args|
    ensures forall i :: 0 <= i < |args| ==> ls[i] == |args[i]|
    decreases |args|
  {
    if |args| == 0 then [] else [|args[0]|] + Lengths(args[1..])
  }

  /** The string literal `""`: one NUL. */
  const EmptyLiteral: seq<char> := ['\0']

  /**
   * `concat(lhs, rhs)` through `concat_impl`: the body of `lhs`, the body of
   * `rhs` and a NUL, in an array of `string_length + 1` chars.
   */
  function Concat(lhs: seq<char>, rhs: seq<char>): (r: seq<char>)
    ensures |r| == StringSize([|lhs|, |rhs|]) + 1
    ensures r[..|r| - 1] == Body(lhs) + Body(rhs) && r[|r| - 1] == '\0'
  {
    assert [|lhs|, |rhs|][1..] == [|rhs|];
    assert [|rhs|][1..] == [];
    assert StringSize([|rhs|]) == |Body(rhs)|;
    Body(lhs) + Body(rhs) + ['\0']
  }

  /**
   * The overload set of `concat` over any number of arguments: none is
   * `concat("")`, one is `concat(t, "")`, and more nest to the right,
   * `concat(t0, concat(t1, ts...))`.
   */
  function ConcatAll(args: seq<seq<char>>): (r: seq<char>)
    ensures |r| >= 1 && r[|r| - 1] == '\0'
    decreases if |args| == 0 then 2 else |args|
  {
    if |args| == 0 then ConcatAll([EmptyLiteral])
    else if |args| == 1 then Concat(args[0], EmptyLiteral)
    else Concat(args[0], ConcatAll(args[1..]))
  }

  /** The bodies of all arguments, one after another. */
  function Flatten(args: seq<seq<char>>): (s: seq<char>)
    decreases |args|
  {
    if |args| == 0 then [] else Body(args[0]) + Flatten(args[1..])
  }

  /**
   * However many arguments are given, the nested result is the flat
   * concatenation of their bodies followed by one NUL, and its length is
   * `string_size` of all their lengths plus one.
   */
  lemma {:induction false} ConcatAllFlattens(args: seq<seq<char>>)
    ensures ConcatAll(args) == Flatten(args) + ['\0']
    ensures |ConcatAll(args)| == StringSize(Lengths(args)) + 1
    decreases if |args| == 0 then 2 else |args|
  {
    if |args| == 0 {
      ConcatAllFlattens([EmptyLiteral]);
      assert Flatten([EmptyLiteral]) == [];
    } else if |args| == 1 {
      assert Flatten(args) == Body(args[0]) + Flatten(args[1..]);
      assert Lengths(args) == [|args[0]|];
      assert Lengths(args)[1..] == [];
    } else {
      ConcatAllFlattens(args[1..]);
      assert Body(ConcatAll(args[1..])) == Flatten(args[1..]);
      assert Lengths(args)[1..] == Lengths(args[1..]);
      assert [|args[0]|, |ConcatAll(args[1..])|][1..] == [|ConcatAll(args[1..])|];
      assert [|ConcatAll(args[1..])|][1..] == [];
    }
  }

  /** `concat()` is a lone NUL, and `concat(t)` is `t`'s body closed by a NUL. */
  lemma ConcatSmallCases(t: seq<char>)
    ensures ConcatAll([]) == ['\0']
    ensures ConcatAll([t]) == Body(t) + ['\0']
  {
    assert Body(EmptyLiteral) == [];
  }

  /** Nesting either way gives the same string: concatenation of the bodies is associative. */
  lemma ConcatAssociates(a: seq<char>, b: seq<char>, c: seq<char>)
    ensures Concat(Concat(a, b), c) == Concat(a, Concat(b, c))
  {
    assert Body(Concat(a, b)) == Body(a) + Body(b);
    assert Body(Concat(b, c)) == Body(b) + Body(c);
  }
}

=== FILE: datetime.dfy ===
/**
 * The calendar helpers behind `DateTime` (after the JeeLabs / Adafruit RTC
 * library): the Gregorian leap-year rule, the day of the year, decoding of the
 * packed-BCD registers of an RTC chip and the offsets between the Unix, Y2K
 * and NTP epochs.
 */
module Calendar {
  import opened CInt

  /** `UNIX_OFFSET`: seconds from 1970-01-01 to 2000-01-01. */
  const UnixOffset: nat := 946684800
  /** `NTP_OFFSET`: seconds from 1900-01-01 to 2000-01-01. */
  const NtpOffset: nat := 3155673600
  const SecondsPerDay: nat := 86400

  /** `daysInMonth`: the month lengths of a common year, January first. */
  const DaysInMonth: seq<nat> := [31, 28, 31, 30, 31, 30, 31, 31, 30, 31, 30, 31]

  /**
   * `isleapYear`. C++ `%` truncates toward zero, but whether a remainder is
   * zero does not depend on the rounding, so Dafny's `%` gives the same tests.
   */
  function IsLeapYear(year: int): (r: bool)
    ensures year % 400 == 0 ==> r
    ensures year % 100 == 0 && year % 400 != 0 ==> !r
    ensures year % 4 == 0 && year % 100 != 0 ==> r
    ensures year % 4 != 0 ==> !r
  {
    if year % 4 != 0 then false
    else year % 100 != 0 || year % 400 == 0
  }

  function YearLength(year: int): (n: nat)
    ensures n == 365 || n == 366
  {
    if IsLeapYear(year) then 366 else 365
  }

  /** The length of month `m` (1 to 12) of `year` on the Gregorian calendar. */
  function MonthLength(year: int, m: int): (n: nat)
    requires 1 <= m <= 12
    ensures 28 <= n <= 31
  {
    if m == 2 && IsLeapYear(year) then 29 else DaysInMonth[m - 1]
  }

  /** The days of `year` before the first of month `m`: the reference the day of the year is measured against. */
  function DaysBeforeMonth(year: int, m: int): (n: nat)
    requires 1 <= m <= 13
    decreases m
  {
    if m == 1 then 0 else DaysBeforeMonth(year, m - 1) + MonthLength(year, m - 1)
  }

  /** A date that exists on the Gregorian calendar. */
  predicate ValidDate(year: int, month: int, day: int) {
    1 <= month <= 12 && 1 <= day <= MonthLength(year, month)
  }

  /** The table sum the loop of `calcYearDay` accumulates: months 1 to `month - 1` of a common year. */
  function TableDaysBefore(month: int): (n: nat)
    requires month <= 13
    decreases month
  {
    if month <= 1 then 0 else TableDaysBefore(month - 1) + DaysInMonth[month - 2]
  }

  /**
   * `calcYearDay(year, month, day)`: `day - 1` plus the table lengths of the
   * months before `month`, plus one after February of a leap year. A month
   * past 12 would read past the table, so it is excluded; a month below 1
   * adds no month at all.
   */
  function YearDay(year: int, month: int, day: int): (r: int)
    requires month <= 12
    ensures 1 <= month ==> r == DaysBeforeMonth(year, month) + day - 1
    ensures month < 1 ==> r == day - 1
  {
    assert 1 <= month ==> DaysBeforeMonth(year, month)
                          == TableDaysBefore(month) + (if month > 2 && IsLeapYear(year) then 1 else 0) by {
      if 1 <= month {
        TableMatchesCalendar(year, month);
      }
    }
    day - 1 + TableDaysBefore(month) + (if month > 2 && IsLeapYear(year) then 1 else 0)
  }

  /** The table sum and the leap-day correction together give the calendar's count. */
  lemma {:induction false} TableMatchesCalendar(year: int, m: int)
    requires 1 <= m <= 13
    ensures DaysBeforeMonth(year, m) == TableDaysBefore(m) + (if m > 2 && IsLeapYear(year) then 1 else 0)
    decreases m
  {
    if m > 1 {
      TableMatchesCalendar(year, m - 1);
      assert MonthLength(year, m - 1) == DaysInMonth[m - 2] + (if m - 1 == 2 && IsLeapYear(year) then 1 else 0);
    }
  }

  /** A whole year is its twelve months. */
  lemma YearIsTwelveMonths(year: int)
    ensures DaysBeforeMonth(year, 13) == YearLength(year)
  {
    TableMatchesCalendar(year, 13);
    CommonYearTable();
  }

  /** The table adds up to a common year. */
  lemma CommonYearTable()
    ensures TableDaysBefore(13) == 365
  {
    assert TableDaysBefore(4) == 31 + 28 + 31;
    assert TableDaysBefore(7) == 90 + 30 + 31 + 30;
    assert TableDaysBefore(10) == 181 + 31 + 31 + 30;
  }

  /** The day of the year of a valid date lies in `0 ..= 365`, below the year's length. */
  lemma YearDayInRange(year: int, month: int, day: int)
    requires ValidDate(year, month, day)
    ensures 0 <= YearDay(year, month, day) < YearLength(year)
  {
    DaysBeforeMonthGrows(year, month + 1, 13);
    YearIsTwelveMonths(year);
  }

  /** January 1 is day 0 and December 31 is the last day of the year. */
  lemma YearDayEnds(year: int)
    ensures YearDay(year, 1, 1) == 0
    ensures YearDay(year, 12, 31) == YearLength(year) - 1
  {
    YearIsTwelveMonths(year);
  }

  /** The next calendar day has the next day of the year, within a month and across a month end. */
  lemma YearDayNext(year: int, month: int, day: int)
    requires ValidDate(year, month, day)
    ensures day < MonthLength(year, month) ==> YearDay(year, month, day + 1) == YearDay(year, month, day) + 1
    ensures day == MonthLength(year, month) && month < 12 ==>
              YearDay(year, month + 1, 1) == YearDay(year, month, day) + 1
  {
  }

  lemma {:induction false} DaysBeforeMonthGrows(year: int, m: int, n: int)
    requires 1 <= m <= n <= 13
    ensures DaysBeforeMonth(year, n) >= DaysBeforeMonth(year, m)
    ensures m < n ==> DaysBeforeMonth(year, n) >= DaysBeforeMonth(year, m) + MonthLength(year, m)
    decreases n - m
  {
    if m < n {
      DaysBeforeMonthGrows(year, m + 1, n);
    }
  }

  /** The day of the year strictly increases with the date within a year. */
  lemma YearDayIncreasing(year: int, m1: int, d1: int, m2: int, d2: int)
    requires ValidDate(year, m1, d1) && ValidDate(year, m2, d2)
    requires m1 < m2 || (m1 == m2 && d1 < d2)
    ensures YearDay(year, m1, d1) < YearDay(year, m2, d2)
  {
    if m1 < m2 {
      DaysBeforeMonthGrows(year, m1, m2);
    }
  }

  /** A count of whole days from the start of year `a` to the start of year `b`. */
  function DaysBetween(a: int, b: int): (n: nat)
    requires a <= b
    decreases b - a
  {
    if a == b then 0 else DaysBetween(a, b - 1) + YearLength(b - 1)
  }

  lemma {:induction false} DaysBetweenSplit(a: int, b: int, c: int)
    requires a <= b <= c
    ensures DaysBetween(a, c) == DaysBetween(a, b) + DaysBetween(b, c)
    decreases c - b
  {
    if b < c {
      DaysBetweenSplit(a, b, c - 1);
    }
  }

  /** A year `4q + r` with `0 < r < 4` is a common year. */
  lemma CommonYear(y: int, q: int, r: int)
    requires y == 4 * q + r && 0 < r < 4
    ensures YearLength(y) == 365
  {
    ModUnique(y, q, r, 4);
  }

  /** A year `4q` strictly inside century `c` is a leap year, and the three after it are common. */
  lemma LeapThenCommon(y: int, q: int, c: int)
    requires y == 4 * q && 100 * c < y < 100 * c + 100
    ensures YearLength(y) == 366
    ensures YearLength(y + 1) == 365 && YearLength(y + 2) == 365 && YearLength(y + 3) == 365
  {
    ModUnique(y, q, 0, 4);
    ModUnique(y, c, y - 100 * c, 100);
    CommonYear(y + 1, q, 1);
    CommonYear(y + 2, q, 2);
    CommonYear(y + 3, q, 3);
  }

  lemma FourYears(y: int, q: int, c: int)
    requires y == 4 * q && 100 * c < y < 100 * c + 100
    ensures DaysBetween(y, y + 4) == 4 * 365 + 1
  {
    LeapThenCommon(y, q, c);
    assert DaysBetween(y, y + 1) == 366;
    assert DaysBetween(y, y + 2) == 366 + 365;
    assert DaysBetween(y, y + 3) == 366 + 2 * 365;
  }

  /** `k` four-year runs strictly inside century `c`, each starting with a leap year. */
  lemma {:induction false} FourYearRuns(y: int, q: int, k: nat, c: int)
    requires y == 4 * q && 100 * c < y && y + 4 * k <= 100 * c + 100
    ensures DaysBetween(y, y + 4 * k) == k * (4 * 365 + 1)
    decreases k
  {
    if k > 0 {
      FourYears(y, q, c);
      if k > 1 {
        FourYearRuns(y + 4, q + 1, k - 1, c);
        DaysBetweenSplit(y, y + 4, y + 4 * k);
      }
    }
  }

  /** The last thirty years of a century `c` hold seven leap years. */
  lemma LastThirtyYears(c: int)
    ensures DaysBetween(100 * c + 70, 100 * c + 100) == 30 * 365 + 7
  {
    var y := 100 * c + 70;
    DaysBetweenSplit(y, y + 2, y + 30);
    CommonYear(y, 25 * c + 17, 2);
    CommonYear(y + 1, 25 * c + 17, 3);
    assert DaysBetween(y, y + 1) == 365;
    FourYearRuns(y + 2, 25 * c + 18, 7, c);
  }

  /** A century whose first year is not divisible by 400 holds 24 leap years. */
  lemma CommonCentury(c: int, q: int, r: int)
    requires c == 4 * q + r && 0 < r < 4
    ensures DaysBetween(100 * c, 100 * c + 100) == 100 * 365 + 24
  {
    var y := 100 * c;
    ModUnique(y, 25 * c, 0, 4);
    ModUnique(y, c, 0, 100);
    ModUnique(y, q, 100 * r, 400);
    CommonYear(y + 1, 25 * c, 1);
    CommonYear(y + 2, 25 * c, 2);
    CommonYear(y + 3, 25 * c, 3);
    assert YearLength(y) == 365;
    assert DaysBetween(y, y + 1) == 365;
    assert DaysBetween(y, y + 3) == 3 * 365;
    DaysBetweenSplit(y, y + 4, y + 100);
    FourYearRuns(y + 4, 25 * c + 1, 24, c);
  }

  /** The two epoch offsets are the whole days between the epochs under the leap-year rule. */
  lemma EpochOffsetsAreWholeDays()
    ensures UnixOffset == DaysBetween(1970, 2000) * SecondsPerDay
    ensures NtpOffset == DaysBetween(1900, 2000) * SecondsPerDay
  {
    LastThirtyYears(19);
    CommonCentury(19, 4, 3);
  }

  /** A byte, the width of an RTC register. */
  newtype Byte = x: int | 0 <= x < 256

  /**
   * `bcd2bin`: `val - 6 * (val >> 4)`, computed in `int` and truncated back to
   * `uint8_t`. A packed-BCD byte `16h + l` with digits `h`, `l` decodes to `10h + l`.
   */
  function Bcd2Bin(val: Byte): (r: Byte)
    ensures val / 16 <= 9 && val % 16 <= 9 ==> r as int == 10 * (val as int / 16) + val as int % 16
  {
    ((val as int - 6 * (val as int / 16)) % 256) as Byte
  }

  /** `bin2bcd`, kept as a comment beside `bcd2bin`: `val + 6 * (val / 10)`, truncated to `uint8_t`. */
  function Bin2Bcd(val: Byte): (r: Byte)
    ensures val < 100 ==> r as int == 16 * (val as int / 10) + val as int % 10
  {
    ((val as int + 6 * (val as int / 10)) % 256) as Byte
  }

  /** A byte whose two nibbles are decimal digits. */
  predicate IsBcd(b: Byte) { b / 16 <= 9 && b % 16 <= 9 }

  /** Encoding 0 to 99 and decoding again gives the number back. */
  lemma BcdRoundTrip(val: Byte)
    requires val < 100
    ensures IsBcd(Bin2Bcd(val))
    ensures Bcd2Bin(Bin2Bcd(val)) == val
  {
    var h, l := val as int / 10, val as int % 10;
    var b := Bin2Bcd(val) as int;
    assert b == 16 * h + l;
    assert b / 16 == h && b % 16 == l;
  }

  /** Decoding a valid BCD byte and encoding again gives the byte back. */
  lemma BcdDecodeRoundTrip(b: Byte)
    requires IsBcd(b)
    ensures Bcd2Bin(b) < 100 && Bin2Bcd(Bcd2Bin(b)) == b
  {
    var v := Bcd2Bin(b) as int;
    assert v / 10 == b as int / 16 && v % 10 == b as int % 16;
  }

  /**
   * The Y2K timestamp of `DateTime(unix_timestamp)`, and of `set_timestamps`
   * off AVR, where `time_t` and `unsigned long` are 64 bits wide: the
   * difference taken as `unsigned long` and cast back to `time_t`, so it wraps
   * in 64 bits.
   */
  function Y2kFromUnix(unix: int): (r: int)
    requires Int64Min <= unix <= Int64Max
    ensures Int64Min <= r <= Int64Max
    ensures unix >= Int64Min + UnixOffset ==> r == unix - UnixOffset
  {
    ToInt64(unix - UnixOffset)
  }

  /** Distinct Unix timestamps have distinct Y2K timestamps, wrap-around included. */
  lemma Y2kFromUnixInjective(a: int, b: int)
    requires Int64Min <= a <= Int64Max && Int64Min <= b <= Int64Max
    ensures Y2kFromUnix(a) == Y2kFromUnix(b) ==> a == b
  {
    ToInt64Shift(a - UnixOffset, UnixOffset);
    ToInt64Shift(b - UnixOffset, UnixOffset);
  }

  /** On AVR `time_t` and `unsigned long` are 32-bit unsigned, so the epoch arithmetic wraps modulo 2^32. */
  const AvrTimeMod: nat := 0x1_0000_0000

  /** `DateTime(unix_timestamp)` on AVR: the Unix timestamp minus the offset, modulo 2^32. */
  function Y2kFromUnixAvr(unix: int): (r: int)
    requires 0 <= unix < AvrTimeMod
    ensures 0 <= r < AvrTimeMod
    ensures unix >= UnixOffset ==> r == unix - UnixOffset
    ensures unix < UnixOffset ==> r == unix + (AvrTimeMod - UnixOffset)
  {
    (unix - UnixOffset) % AvrTimeMod
  }

  /** `set_timestamps` on AVR, where `mktime` counts from 2000: the Y2K timestamp plus the offset, modulo 2^32. */
  function UnixFromY2kAvr(y2k: int): (r: int)
    requires 0 <= y2k < AvrTimeMod
    ensures 0 <= r < AvrTimeMod
    ensures y2k < AvrTimeMod - UnixOffset ==> r == y2k + UnixOffset
    ensures y2k >= AvrTimeMod - UnixOffset ==> r == y2k + UnixOffset - AvrTimeMod
  {
    (y2k + UnixOffset) % AvrTimeMod
  }

  /** On AVR the two conversions undo each other on every `time_t`, wrap-around included. */
  lemma EpochRoundTripAvr(unix: int, y2k: int)
    requires 0 <= unix < AvrTimeMod && 0 <= y2k < AvrTimeMod
    ensures UnixFromY2kAvr(Y2kFromUnixAvr(unix)) == unix
    ensures Y2kFromUnixAvr(UnixFromY2kAvr(y2k)) == y2k
  {
  }

  /**
   * `set_timestamps()` given the `mktime` result `mk`, as the pair (Unix, Y2K):
   * on AVR `mktime` gives the Y2K timestamp and the Unix one is derived, elsewhere
   * the other way round.
   */
  function SetTimestamps(mk: int, avr: bool): (r: (int, int))
    requires avr ==> 0 <= mk < AvrTimeMod
    requires !avr ==> Int64Min <= mk <= Int64Max
    ensures avr ==> r.1 == mk && 0 <= r.0 < AvrTimeMod
    ensures !avr ==> r.0 == mk && Int64Min <= r.1 <= Int64Max
  {
    if avr then (UnixFromY2kAvr(mk), mk) else (mk, Y2kFromUnix(mk))
  }

  /**
   * On either platform, the pair `set_timestamps` stores is the pair the
   * constructor from a Unix timestamp would store for its Unix half.
   */
  lemma SetTimestampsAgreesWithConstructor(mk: int, avr: bool)
    requires avr ==> 0 <= mk < AvrTimeMod
    requires !avr ==> Int64Min <= mk <= Int64Max
    ensures var (unix, y2k) := SetTimestamps(mk, avr);
            if avr then Y2kFromUnixAvr(unix) == y2k else Y2kFromUnix(unix) == y2k
  {
    if avr {
      EpochRoundTripAvr(0, mk);
    }
  }
}

=== FILE: linebuffer.dfy ===
/** `spn::structure::LineBuffer`: a character ring buffer that hands out
    delimiter-terminated lines. */
module Lines {
  import opened Wrappers
  import opened CInt
  import opened Ring
  import opened Seqs

  const DefaultDelimiters: string := "\r\n"

  /** One plus the index of the first delimiter in `s`, or 0 when `s` holds none:
      the length of the first line including its delimiter. */
  function LineEnd(s: string, delims: string): (n: nat)
    ensures n <= |s|
    ensures n > 0 ==> s[n - 1] in delims && forall j :: 0 <= j < n - 1 ==> s[j] !in delims
    ensures n == 0 <==> forall j :: 0 <= j < |s| ==> s[j] !in delims
    decreases |s|
  {
    if |s| == 0 then 0
    else if s[0] in delims then 1
    else
      var m := LineEnd(s[1..], delims);
      if m == 0 then 0 else m + 1
  }

  datatype LineBuffer = LineBuffer(ring: RingBuffer<char>, delimiters: string)
  {
    predicate Valid() { ring.Valid() }

    function Contents(): string
      requires Valid()
    {
      ring.Contents()
    }

    /** `push(string_view)`: a range push without rollover. */
    function Push(data: string): (r: (LineBuffer, nat))
      requires Valid()
      ensures r.0.Valid() && r.0.delimiters == delimiters
      ensures r.1 == Min(|data|, ring.FreeSpace())
      ensures r.0.Contents() == Contents() + data[..(r.1)]
    {
      PushRangeFills(ring, data);
      var (rb, n) := ring.PushRange(data, false);
      (LineBuffer(rb, delimiters), n)
    }

    /** `has_line()`: some stored character is a delimiter. */
    function HasLine(): (r: bool)
      requires Valid()
      ensures r <==> exists j :: 0 <= j < |Contents()| && Contents()[j] in delimiters
    {
      LengthOfNextLine() > 0
    }

    /** `length_of_next_line()`: scans the stored characters, oldest first, for a delimiter. */
    function LengthOfNextLine(): (n: nat)
      requires Valid()
      ensures n == LineEnd(Contents(), delimiters)
    {
      ScanFrom(0)
    }

    /** The scan loop of `length_of_next_line` from position `i` on, reading each
        character through `peek_at`. */
    function ScanFrom(i: nat): (n: nat)
      requires Valid() && i <= ring.UsedSpace()
      requires forall j :: 0 <= j < i ==> Contents()[j] !in delimiters
      ensures n == LineEnd(Contents(), delimiters)
      decreases ring.UsedSpace() - i
    {
      if i == ring.UsedSpace() then 0
      else
        // `peek_at` cannot fail below `used_space()`, so its error return is dead here
        PeekAtReads(ring, i);
        var c := ring.PeekAt(i).value;
        if c in delimiters then i + 1 else ScanFrom(i + 1)
    }

    /** `get_next_line(buffer, max_length)`: pops the next line and its delimiter when
        the line, delimiter included, fits in `max_length`; yields the characters
        copied out. What lands in the caller's buffer, NUL included, is
        `GetNextLineInto`. */
    function GetNextLine(maxLength: nat): (r: (LineBuffer, string))
      requires Valid()
      ensures r.0.Valid() && r.0.delimiters == delimiters
      ensures var len := LengthOfNextLine();
              if len == 0 || len > maxLength then r == (this, [])
              else r.1 == Contents()[..len - 1] && r.0.Contents() == Contents()[len..]
    {
      var len := LengthOfNextLine();
      if len == 0 || len > maxLength then (this, [])
      else
        var (rb1, line) := ring.PopN(len - 1);
        PopNTakesOldest(ring, len - 1);
        PopTakesOldest(rb1);
        SubSlice(Contents(), len - 1, |Contents()|, 1);
        var (rb2, _) := rb1.Pop();
        (LineBuffer(rb2, delimiters), line)
    }

    /** `get_next_line(buffer, max_length)` on the caller's buffer `out`, which holds
        at least `max_length` bytes: on success the line lands at the front followed
        by a terminating NUL, within `max_length`, and the rest of `out` is
        untouched; otherwise `out` is left alone. The count is the one returned. */
    function GetNextLineInto(out: seq<char>, maxLength: nat): (r: (LineBuffer, seq<char>, nat))
      requires Valid() && maxLength <= |out|
      ensures r.0 == GetNextLine(maxLength).0 && r.2 == |GetNextLine(maxLength).1|
      ensures |r.1| == |out|
      ensures var len := LengthOfNextLine();
              if len == 0 || len > maxLength then r.1 == out && r.2 == 0
              else && r.2 < maxLength
                   && r.1[..(r.2)] == Contents()[..len - 1]
                   && r.1[r.2] == '\0'
                   && r.1[(r.2) + 1..] == out[(r.2) + 1..]
    {
      var len := LengthOfNextLine();
      var (next, line) := GetNextLine(maxLength);
      if len == 0 || len > maxLength then (next, out, 0)
      else (next, line + ['\0'] + out[|line| + 1..], |line|)
    }

    /** `drop_next_line()`: discards the next line and its delimiter. */
    function DropNextLine(): (r: (LineBuffer, bool))
      requires Valid()
      ensures r.0.Valid() && r.0.delimiters == delimiters
      ensures r.1 <==> HasLine()
    {
      var len := LengthOfNextLine();
      if len == 0 then (this, false)
      else
        var (rb1, _) := ring.PopN(len - 1);
        PopNTakesOldest(ring, len - 1);
        var (rb2, _) := rb1.Pop();
        (LineBuffer(rb2, delimiters), true)
    }

    /** `get_next_line_view()` as written: a view of `len - 1` characters starting at
        the array slot of the oldest character. The view covers the array range
        `[tail, tail + len - 1)`, which runs past the end of the array when the line
        wraps around. Yields that range as `(start, length)`. */
    function NextLineSpanAsWritten(): (r: Option<(nat, nat)>)
      requires Valid()
      ensures r.None? <==> !HasLine()
    {
      var len := LengthOfNextLine();
      if len == 0 then None else Some((ring.tail, len - 1))
    }

    /** `get_next_line_view()` with the evident intent: the characters of the next line. */
    function NextLineView(): (r: Option<string>)
      requires Valid()
      ensures r.None? <==> !HasLine()
    {
      var len := LengthOfNextLine();
      if len == 0 then None else Some(Contents()[..len - 1])
    }
  }

  /** `LineBuffer(capacity, delimiters)`. */
  function NewLineBuffer(capacity: nat, delimiters: string): (r: LineBuffer)
    requires 0 < capacity < SizeMod
    ensures r.Valid() && r.Contents() == [] && r.ring.Capacity() == capacity
    ensures r.delimiters == delimiters
  {
    LineBuffer(New(capacity, '\0'), delimiters)
  }

  /** `get_next_line` splits the contents: the line it hands out, free of delimiters,
      then a delimiter, then what stays behind; a line that does not fit is left in place. */
  lemma GetNextLineSplits(lb: LineBuffer, maxLength: nat)
    requires lb.Valid()
    ensures var len := LineEnd(lb.Contents(), lb.delimiters);
            var (r, line) := lb.GetNextLine(maxLength);
            if len == 0 || len > maxLength then r == lb && line == []
            else && lb.Contents() == line + [lb.Contents()[len - 1]] + r.Contents()
                 && lb.Contents()[len - 1] in lb.delimiters
                 && (forall j :: 0 <= j < |line| ==> line[j] !in lb.delimiters)
                 && |line| < maxLength
  {
    var len := LineEnd(lb.Contents(), lb.delimiters);
    if len > 0 && len <= maxLength {
      SplitAt(lb.Contents(), len - 1);
    }
  }

  /** `drop_next_line` removes exactly what `get_next_line` would hand out. */
  lemma DropNextLineSkipsLine(lb: LineBuffer)
    requires lb.Valid()
    ensures lb.DropNextLine().0.Contents() == lb.GetNextLine(lb.LengthOfNextLine()).0.Contents()
    ensures lb.HasLine() ==> lb.DropNextLine().0.Contents() == lb.Contents()[lb.LengthOfNextLine()..]
  {
    var len := lb.LengthOfNextLine();
    GetNextLineSplits(lb, len);
    if len > 0 {
      PopNTakesOldest(lb.ring, len - 1);
      var rb1 := lb.ring.PopN(len - 1).0;
      PopTakesOldest(rb1);
    }
  }

  /** Writing a delimiter-free text followed by a delimiter into a buffer that holds
      no complete line, with room to spare, makes the stored text plus the new text
      the next line. */
  lemma PushedLineComesBack(lb: LineBuffer, text: string, d: char)
    requires lb.Valid() && !lb.HasLine()
    requires d in lb.delimiters && forall j :: 0 <= j < |text| ==> text[j] !in lb.delimiters
    requires |text| + 1 <= lb.ring.FreeSpace()
    ensures var (pushed, n) := lb.Push(text + [d]);
            && n == |text| + 1
            && pushed.HasLine()
            && pushed.GetNextLine(|lb.Contents()| + |text| + 1).1 == lb.Contents() + text
            && pushed.GetNextLine(|lb.Contents()| + |text| + 1).0.Contents() == []
  {
    var (pushed, n) := lb.Push(text + [d]);
    var s := lb.Contents() + text + [d];
    assert (text + [d])[..n] == text + [d];
    assert pushed.Contents() == s;
    assert forall j :: 0 <= j < |lb.Contents()| ==> lb.Contents()[j] !in lb.delimiters;
    assert s[|s| - 1] == d;
    assert forall j :: 0 <= j < |s| - 1 ==> s[j] !in lb.delimiters;
    assert LineEnd(s, lb.delimiters) == |s|;
    GetNextLineSplits(pushed, |s|);
    assert s[..|s| - 1] == lb.Contents() + text;
  }

  /** Where the as-written view stays inside the array it shows the right characters. */
  lemma SpanInBoundsReadsLine(lb: LineBuffer)
    requires lb.Valid() && lb.HasLine()
    requires var (start, len) := lb.NextLineSpanAsWritten().value; start + len <= |lb.ring.buf|
    ensures var (start, len) := lb.NextLineSpanAsWritten().value;
            lb.ring.buf[start..start + len] == lb.NextLineView().value
  {
    var (start, len) := lb.NextLineSpanAsWritten().value;
    forall i | 0 <= i < len
      ensures lb.ring.buf[start + i] == lb.Contents()[i]
    {
      ModWrap(lb.ring.tail + i, |lb.ring.buf|);
    }
  }

  /** A line that wraps around the end of the array: capacity 4, "ab\n" stored from
      slot 3 on. The view starts at slot 3 with length 2 and so ends past the last
      slot, while the intended view is "ab". */
  lemma WrappedLineViewOverruns()
    ensures var lb := LineBuffer(RingBuffer(['b', '\n', 'x', 'a'], 2, 3, 0, false), DefaultDelimiters);
            && lb.Valid() && lb.Contents() == "ab\n"
            && lb.NextLineSpanAsWritten() == Some((3, 2))
            && 3 + 2 > |lb.ring.buf|
            && lb.NextLineView() == Some("ab")
  {
    var lb := LineBuffer(RingBuffer(['b', '\n', 'x', 'a'], 2, 3, 0, false), DefaultDelimiters);
    ModWrap(3, 4);
    ModWrap(4, 4);
    ModWrap(5, 4);
    assert lb.ring.Slot(0) == 3 && lb.ring.Slot(1) == 0 && lb.ring.Slot(2) == 1;
    assert lb.Contents() == "ab\n";
    assert LineEnd(lb.Contents(), DefaultDelimiters) == 3;
    assert lb.Contents()[..2] == "ab";
  }

  /** Every complete line in the buffer, oldest first, as successive `get_next_line`
      calls hand them out; characters after the last delimiter stay behind. */
  function ReadAllLines(lb: LineBuffer): (r: seq<string>)
    requires lb.Valid()
    decreases |lb.Contents()|
  {
    var len := lb.LengthOfNextLine();
    if len == 0 then []
    else
      GetNextLineSplits(lb, len);
      var (next, line) := lb.GetNextLine(len);
      [line] + ReadAllLines(next)
  }

  lemma ReadAllLinesStep(lb: LineBuffer)
    requires lb.Valid() && lb.HasLine()
    ensures var (next, line) := lb.GetNextLine(lb.LengthOfNextLine());
            ReadAllLines(lb) == [line] + ReadAllLines(next)
  {
  }

  /** The lines, each followed by the delimiter `d`. */
  function Terminated(lines: seq<string>, d: char): string
  {
    if |lines| == 0 then [] else lines[0] + [d] + Terminated(lines[1..], d)
  }

  predicate NoDelimiters(lines: seq<string>, delims: string) {
    forall k, j :: 0 <= k < |lines| && 0 <= j < |lines[k]| ==> lines[k][j] !in delims
  }

  /** A buffer whose contents start with a delimiter-free line and the delimiter `d`
      hands out that line and keeps what follows. */
  lemma FirstLineComesOut(lb: LineBuffer, line: string, d: char, rest: string)
    requires lb.Valid() && d in lb.delimiters
    requires forall j :: 0 <= j < |line| ==> line[j] !in lb.delimiters
    requires lb.Contents() == line + [d] + rest
    ensures lb.HasLine()
    ensures var (next, got) := lb.GetNextLine(lb.LengthOfNextLine());
            got == line && next.Contents() == rest && next.delimiters == lb.delimiters
  {
    ConcatParts(line, d, rest);
    assert LineEnd(lb.Contents(), lb.delimiters) == |line| + 1;
  }

  /** `lb` holds the delimiter-free `lines`, each followed by `d`, and then a
      delimiter-free `tail`. */
  predicate HoldsLines(lb: LineBuffer, lines: seq<string>, d: char, tail: string) {
    && lb.Valid() && d in lb.delimiters && NoDelimiters(lines, lb.delimiters)
    && (forall j :: 0 <= j < |tail| ==> tail[j] !in lb.delimiters)
    && lb.Contents() == Terminated(lines, d) + tail
  }

  /** A buffer holding delimiter-terminated lines and then an unterminated tail hands
      out exactly those lines, in order, and never the tail. */
  lemma {:induction false} ReadsBackLines(lb: LineBuffer, lines: seq<string>, d: char, tail: string)
    requires HoldsLines(lb, lines, d, tail)
    ensures ReadAllLines(lb) == lines
    decreases |lines|
  {
    if |lines| == 0 {
      assert lb.Contents() == tail;
    } else {
      NextLineIsFirst(lb, lines, d, tail);
      ReadAllLinesStep(lb);
      ReadsBackLines(lb.GetNextLine(lb.LengthOfNextLine()).0, lines[1..], d, tail);
      ConsHeadTail(lines);
    }
  }

  /** The next line of a buffer holding `lines` is the first of them, and the rest
      stays behind. */
  lemma NextLineIsFirst(lb: LineBuffer, lines: seq<string>, d: char, tail: string)
    requires HoldsLines(lb, lines, d, tail) && |lines| > 0
    ensures lb.HasLine()
    ensures var (next, line) := lb.GetNextLine(lb.LengthOfNextLine());
            line == lines[0] && HoldsLines(next, lines[1..], d, tail)
  {
    TerminatedCons(lines, d, tail);
    NoDelimitersSplit(lines, lb.delimiters);
    FirstLineComesOut(lb, lines[0], d, Terminated(lines[1..], d) + tail);
  }

  lemma TerminatedCons(lines: seq<string>, d: char, tail: string)
    requires |lines| > 0
    ensures Terminated(lines, d) + tail == lines[0] + [d] + (Terminated(lines[1..], d) + tail)
  {
  }

  lemma NoDelimitersSplit(lines: seq<string>, delims: string)
    requires |lines| > 0 && NoDelimiters(lines, delims)
    ensures forall j :: 0 <= j < |lines[0]| ==> lines[0][j] !in delims
    ensures NoDelimiters(lines[1..], delims)
  {
    assert forall k :: 0 <= k < |lines| - 1 ==> lines[1..][k] == lines[k + 1];
  }

  /** "\n\n\nab" holds three empty lines; "ab" is never handed out. */
  lemma EmptyLinesThenTail(lb: LineBuffer)
    requires lb.Valid() && lb.delimiters == DefaultDelimiters && lb.Contents() == "\n\n\nab"
    ensures ReadAllLines(lb) == ["", "", ""]
  {
    assert Terminated(["", "", ""], '\n') == "\n\n\n" by {
      assert ["", "", ""][1..] == ["", ""] && ["", ""][1..] == [""] && [""][1..] == [];
    }
    ReadsBackLines(lb, ["", "", ""], '\n', "ab");
  }
}

=== FILE: mock_stream.dfy ===
/**
 * `MockStream`: an in-memory stream over two ring buffers, `stdin` for what
 * the program reads and `stdout` for what it writes. Tests reach the far end
 * of each buffer by swapping the two roles around a single call.
 */
module Mock {
  import opened Wrappers
  import opened CInt
  import opened Ring

  /** `swapped` records which buffer the active input and output pointers name. */
  datatype MockStream = MockStream(stdin: RingBuffer<char>, stdout: RingBuffer<char>, swapped: bool) {
    predicate Valid() { stdin.Valid() && stdout.Valid() }

    function In(): RingBuffer<char> { if swapped then stdout else stdin }
    function Out(): RingBuffer<char> { if swapped then stdin else stdout }

    function WithIn(rb: RingBuffer<char>): (r: MockStream)
      ensures r.In() == rb && r.Out() == Out() && r.swapped == swapped
    {
      if swapped then this.(stdout := rb) else this.(stdin := rb)
    }

    function WithOut(rb: RingBuffer<char>): (r: MockStream)
      ensures r.Out() == rb && r.In() == In() && r.swapped == swapped
    {
      if swapped then this.(stdin := rb) else this.(stdout := rb)
    }

    /** `swap_streams`: the active input becomes the active output and vice versa. */
    function Swap(): (r: MockStream)
      ensures r.In() == Out() && r.Out() == In()
    {
      this.(swapped := !swapped)
    }

    /** `write(value)`: a push without rollover on the active output. */
    function WriteOne(v: char): (r: (MockStream, bool))
      requires Valid()
      ensures r.0.Valid() && r.0.In() == In() && r.0.swapped == swapped
      ensures r.1 <==> !Out().isFull
      ensures r.1 ==> r.0.Out().Contents() == Out().Contents() + [v]
      ensures r.0.Out().Capacity() == Out().Capacity()
      ensures !r.1 ==> r.0 == this
    {
      var (rb, ok) := Out().Push(v, false);
      if !ok then (this, false)
      else
        PushAppends(Out(), v, false);
        (WithOut(rb), true)
    }

    /** `write(buffer, length)`: writes what fits, in order, and yields the count. */
    function Write(data: string): (r: (MockStream, nat))
      requires Valid()
      ensures r.0.Valid() && r.0.In() == In() && r.0.swapped == swapped
      ensures r.1 == Min(|data|, Out().FreeSpace())
      ensures r.0.Out().Contents() == Out().Contents() + data[..(r.1)]
    {
      PushRangeFills(Out(), data);
      var (rb, n) := Out().PushRange(data, false);
      (WithOut(rb), n)
    }

    /** `read(value)`: pops the oldest byte of the active input. */
    function ReadOne(): (r: (MockStream, Option<char>))
      requires Valid()
      ensures r.0.Valid() && r.0.Out() == Out() && r.0.swapped == swapped
      ensures r.1.None? <==> In().Contents() == []
      ensures r.1.Some? ==> r.1.value == In().Contents()[0] && r.0.In().Contents() == In().Contents()[1..]
    {
      EmptyIffNoContents(In());
      if In().Empty() then (this, None)
      else
        PopTakesOldest(In());
        var (rb, v) := In().Pop();
        (WithIn(rb), v)
    }

    /** `read(buffer, length)`: all-or-nothing read of `length` bytes. */
    function Read(length: nat): (r: (MockStream, string))
      requires Valid()
      ensures r.0.Valid() && r.0.Out() == Out() && r.0.swapped == swapped
      ensures length <= Available() ==>
                r.1 == In().Contents()[..length] && r.0.In().Contents() == In().Contents()[length..]
      ensures length > Available() ==> r.1 == [] && r.0 == this
    {
      PopRangeAllOrNothing(In(), length);
      var (rb, s) := In().PopRange(length);
      (WithIn(rb), s)
    }

    /** `available()`: bytes waiting on the active input. */
    function Available(): (n: nat)
      requires Valid()
      ensures n == |In().Contents()|
    {
      In().UsedSpace()
    }

    /** `available_for_write()`: room left on the active output. */
    function AvailableForWrite(): (n: nat)
      requires Valid()
      ensures n + |Out().Contents()| == Out().Capacity()
    {
      Out().FreeSpace()
    }

    /** `inject_bytestream`: writes the bytes into the input buffer from the far end. */
    function Inject(bytes: string): (r: MockStream)
      requires Valid()
      ensures r.Valid() && r.Out() == Out() && r.swapped == swapped
      ensures r.In().Contents() == In().Contents() + bytes[..Min(|bytes|, In().FreeSpace())]
    {
      Swap().Write(bytes).0.Swap()
    }

    /** `extract_bytestream`: drains the output buffer from the far end. */
    function Extract(): (r: (MockStream, string))
      requires Valid()
      ensures r.0.Valid() && r.0.In() == In() && r.0.swapped == swapped
      ensures r.1 == Out().Contents()
      ensures r.0.Out().Contents() == []
    {
      var s := Swap();
      var (t, bytes) := s.Read(s.Available());
      (t.Swap(), bytes)
    }
  }

  /** `MockStream({input_buffer_size, output_buffer_size})`. */
  function NewMock(inputSize: nat, outputSize: nat): (r: MockStream)
    requires 0 < inputSize < SizeMod && 0 < outputSize < SizeMod
    ensures r.Valid() && r.In().Contents() == [] && r.Out().Contents() == []
    ensures r.In().Capacity() == inputSize && r.Out().Capacity() == outputSize
  {
    MockStream(New(inputSize, '\0'), New(outputSize, '\0'), false)
  }

  /** Writing bytes and extracting them from the far end returns them unchanged. */
  lemma WriteThenExtract(m: MockStream, data: string)
    requires m.Valid() && m.Out().Contents() == [] && |data| <= m.AvailableForWrite()
    ensures m.Write(data).1 == |data|
    ensures m.Write(data).0.Extract().1 == data
  {
    assert data[..|data|] == data;
  }

  /** Injecting bytes and reading them back returns them unchanged. */
  lemma InjectThenRead(m: MockStream, data: string)
    requires m.Valid() && m.In().Contents() == [] && |data| <= m.In().FreeSpace()
    ensures m.Inject(data).Available() == |data|
    ensures m.Inject(data).Read(|data|).1 == data
  {
    assert data[..|data|] == data;
  }
}

=== FILE: pipeline.dfy ===
/**
 * `spn::eventsystem::Pipeline`: the queue of pending `Future`s of the event
 * system, a bounded `Vector` kept in order of time remaining, soonest first.
 * The clock reading is the explicit argument `now`.
 */
module Events {
  import opened Wrappers
  import opened CInt
  import opened Timers
  import opened Vec

  /** `Future`: the delay it was last scheduled with and the alarm counting it down. */
  datatype Future = Future(delay: int, alarm: AlarmTimer)
  {
    /** `future()`: when it falls due. */
    function Deadline(): int { alarm.deadline }

    /** `time_until_future()`: the time left, negative once overdue. */
    function TimeUntil(now: int): (r: int)
      ensures now + r == Deadline()
    {
      TimeFromNow(alarm, now)
    }

    /** The ordering key of `push`: the time left, cut to `int32_t`. */
    function Key(now: int): (k: int)
      ensures Int32Min <= TimeUntil(now) <= Int32Max ==> k == Deadline() - now
    {
      ToInt32(TimeUntil(now))
    }
  }

  /** `Future(time_from_now)`: due `delay` after now. */
  function NewFuture(delay: int, now: int): (r: Future)
    ensures r.delay == delay && r.Deadline() == now + delay && !r.alarm.latched
  {
    Future(delay, NewAlarm(delay, false, now))
  }

  /**
   * `reschedule(time_from_now)`: a nonzero argument replaces the delay, zero
   * keeps the one it had; the alarm restarts from now with that delay. The
   * debug-only check that the delay is positive is not a precondition.
   */
  function Reschedule(f: Future, delay: int, now: int): (r: Future)
    ensures r.delay == (if delay != 0 then delay else f.delay)
    ensures r == NewFuture(r.delay, now)
  {
    NewFuture(if delay != 0 then delay else f.delay, now)
  }

  /** Keys never decrease along `s`. */
  predicate SortedByKey(s: seq<Future>, now: int) {
    forall i, j :: 0 <= i < j < |s| ==> s[i].Key(now) <= s[j].Key(now)
  }

  /** Deadlines never decrease along `s`. */
  predicate SortedByDeadline(s: seq<Future>) {
    forall i, j :: 0 <= i < j < |s| ==> s[i].Deadline() <= s[j].Deadline()
  }

  /** Every future is due within an `int32_t` count of milliseconds of now. */
  predicate InWindow(s: seq<Future>, now: int) {
    forall i :: 0 <= i < |s| ==> Int32Min <= s[i].TimeUntil(now) <= Int32Max
  }

  /**
   * The position the loop of `push` stops at: the first future whose key is
   * strictly larger than `key`, or the end.
   */
  function InsertionIndex(s: seq<Future>, key: int, now: int): (i: nat)
    ensures i <= |s|
    ensures forall j :: 0 <= j < i ==> s[j].Key(now) <= key
    ensures i < |s| ==> key < s[i].Key(now)
    decreases |s|
  {
    if |s| == 0 then 0
    else if key < s[0].Key(now) then 0
    else 1 + InsertionIndex(s[1..], key, now)
  }

  /** A placeholder for the empty slots of the pipe, which hold null pointers in the source. */
  const NoFuture: Future := Future(0, AlarmTimer(0, false))

  datatype Pipeline = Pipeline(pipe: Vector<Future>)
  {
    predicate Valid() { pipe.Valid() }

    function Futures(): (s: seq<Future>)
      requires Valid()
    {
      pipe.Elements()
    }

    /** `contains_futures()`: at least one future is queued. */
    function ContainsFutures(): (r: bool)
      requires Valid()
      ensures r <==> Futures() != []
    {
      !pipe.Empty()
    }
  }

  /** `Pipeline(events_cap)`: an empty pipe with room for `cap` futures. */
  function NewPipeline(cap: nat): (r: Pipeline)
    ensures r.Valid() && r.Futures() == [] && r.pipe.MaxSize() == cap
  {
    Pipeline(NewVector(cap, NoFuture))
  }

  /**
   * `push(future)`: reschedules the future with its own delay, then inserts
   * it before the first queued future with strictly more time left (compared
   * as `int32_t`), or appends it. The source asserts there is room.
   */
  function Push(p: Pipeline, f: Future, now: int): (r: Pipeline)
    requires p.Valid() && p.pipe.Size() < p.pipe.MaxSize()
    ensures r.Valid() && r.pipe.MaxSize() == p.pipe.MaxSize()
    ensures var g := Reschedule(f, 0, now);
            var i := InsertionIndex(p.Futures(), g.Key(now), now);
            r.Futures() == p.Futures()[..i] + [g] + p.Futures()[i..]
  {
    var g := Reschedule(f, 0, now);
    var i := InsertionIndex(p.Futures(), g.Key(now), now);
    if i < p.pipe.Size() then
      InsertPlaces(p.pipe, i, g);
      Pipeline(p.pipe.Insert(i, g))
    else
      PushBackAppends(p.pipe, g);
      assert p.Futures()[..i] == p.Futures() && p.Futures()[i..] == [];
      Pipeline(p.pipe.PushBack(g))
  }

  /**
   * `expire()`: takes the front future off the pipe whether or not it has
   * expired, and hands it out, with its alarm latched, only if it has; an
   * empty pipe is left alone. Expiry is the alarm's `expired()` as written,
   * which compares times cut to `int32_t`. The debug-only emptiness and expiry
   * checks are not preconditions, since the code handles both cases.
   */
  function Expire(p: Pipeline, now: int): (r: (Pipeline, Option<Future>))
    requires p.Valid()
    ensures r.0.Valid()
    ensures !p.ContainsFutures() ==> r == (p, None)
    ensures p.ContainsFutures() ==> r.0.Futures() == p.Futures()[1..]
    ensures p.ContainsFutures() ==>
              var front := p.Futures()[0];
              (r.1.Some? <==> front.alarm.latched || ToInt32(front.Deadline()) <= ToInt32(now))
              && (r.1.Some? ==> r.1.value == front.(alarm := front.alarm.(latched := true)))
  {
    if p.pipe.Empty() then (p, None)
    else
      var (v, front) := p.pipe.PopFront();
      var (alarm, expired) := AlarmExpiredAsWritten(front.alarm, now);
      if expired then (Pipeline(v), Some(front.(alarm := alarm)))
      else (Pipeline(v), None)
  }

  /** `expire()` over the alarm's full-width comparison. */
  function ExpireIntended(p: Pipeline, now: int): (r: (Pipeline, Option<Future>))
    requires p.Valid()
    ensures r.0.Valid()
    ensures !p.ContainsFutures() ==> r == (p, None)
    ensures p.ContainsFutures() ==> r.0.Futures() == p.Futures()[1..]
    ensures p.ContainsFutures() ==>
              var front := p.Futures()[0];
              (r.1.Some? <==> front.alarm.latched || front.Deadline() <= now)
              && (r.1.Some? ==> r.1.value == front.(alarm := front.alarm.(latched := true)))
  {
    if p.pipe.Empty() then (p, None)
    else
      var (v, front) := p.pipe.PopFront();
      var (alarm, expired) := AlarmExpired(front.alarm, now);
      if expired then (Pipeline(v), Some(front.(alarm := alarm)))
      else (Pipeline(v), None)
  }

  /**
   * `contains_expired_futures()`: the pipe is not empty and its front has
   * expired, asked through the front's `expired()` as written. Asking latches
   * the front's alarm when the answer is yes, so the pipe is handed back.
   */
  function ContainsExpiredFutures(p: Pipeline, now: int): (r: (Pipeline, bool))
    requires p.Valid()
    ensures r.0.Valid() && r.0.pipe.MaxSize() == p.pipe.MaxSize()
    ensures r.1 <==> p.Futures() != [] && AlarmExpiredAsWritten(p.Futures()[0].alarm, now).1
    ensures p.Futures() == [] ==> r == (p, false)
    ensures p.Futures() != [] ==>
              var front := p.Futures()[0];
              r.0.Futures() == p.Futures()[0 := front.(alarm := front.alarm.(latched := r.1))]
  {
    if !p.ContainsFutures() then (p, false)
    else
      var front := p.pipe.At(0);
      var (alarm, expired) := AlarmExpiredAsWritten(front.alarm, now);
      (Pipeline(p.pipe.SetAt(0, front.(alarm := alarm))), expired)
  }

  /** `contains_expired_futures()` over the alarm's full-width comparison. */
  function ContainsExpiredFuturesIntended(p: Pipeline, now: int): (r: (Pipeline, bool))
    requires p.Valid()
    ensures r.0.Valid() && r.0.pipe.MaxSize() == p.pipe.MaxSize()
    ensures r.1 <==> p.Futures() != [] && AlarmExpired(p.Futures()[0].alarm, now).1
    ensures p.Futures() == [] ==> r == (p, false)
    ensures p.Futures() != [] ==>
              var front := p.Futures()[0];
              r.0.Futures() == p.Futures()[0 := front.(alarm := front.alarm.(latched := r.1))]
  {
    if !p.ContainsFutures() then (p, false)
    else
      var front := p.pipe.At(0);
      var (alarm, expired) := AlarmExpired(front.alarm, now);
      (Pipeline(p.pipe.SetAt(0, front.(alarm := alarm))), expired)
  }

  /** `time_until_next_future()`: 0 for an empty pipe or an overdue front, otherwise the time left on the front. */
  function TimeUntilNextFuture(p: Pipeline, now: int): (r: int)
    requires p.Valid()
    ensures r >= 0
    ensures r == 0 <==> p.Futures() == [] || p.Futures()[0].Deadline() <= now
    ensures r > 0 ==> now + r == p.Futures()[0].Deadline()
  {
    if !p.ContainsFutures() then 0
    else
      var front := p.pipe.At(0).Deadline();
      if front <= now then 0 else front - now
  }

  /** Rescheduling with 0 keeps the delay, so the future falls due that long after now. */
  lemma RescheduleKeepsDelay(f: Future, now: int)
    ensures Reschedule(f, 0, now).delay == f.delay
    ensures Reschedule(f, 0, now).Deadline() == now + f.delay
  {
  }

  /** `push` grows the pipe by exactly the one rescheduled future. */
  lemma PushAddsOne(p: Pipeline, f: Future, now: int)
    requires p.Valid() && p.pipe.Size() < p.pipe.MaxSize()
    ensures |Push(p, f, now).Futures()| == |p.Futures()| + 1
    ensures multiset(Push(p, f, now).Futures()) == multiset(p.Futures()) + multiset{Reschedule(f, 0, now)}
  {
    var g := Reschedule(f, 0, now);
    var i := InsertionIndex(p.Futures(), g.Key(now), now);
    assert p.Futures() == p.Futures()[..i] + p.Futures()[i..];
  }

  /**
   * A pipe sorted by key stays sorted after a push, and the new future goes
   * behind every queued future with the same key, so equal keys leave in
   * the order they were pushed.
   */
  lemma PushKeepsKeyOrder(p: Pipeline, f: Future, now: int)
    requires p.Valid() && p.pipe.Size() < p.pipe.MaxSize()
    requires SortedByKey(p.Futures(), now)
    ensures SortedByKey(Push(p, f, now).Futures(), now)
    ensures var g := Reschedule(f, 0, now);
            forall j :: 0 <= j < |p.Futures()| && p.Futures()[j].Key(now) == g.Key(now) ==>
              Push(p, f, now).Futures()[j] == p.Futures()[j]
  {
    var g := Reschedule(f, 0, now);
    var i := InsertionIndex(p.Futures(), g.Key(now), now);
    InsertKeepsSorted(p.Futures(), g, i, now);
    EqualKeysStayAhead(p.Futures(), g, i, now);
  }

  /** Inserting at the position `push` finds keeps a key-sorted sequence sorted. */
  lemma InsertKeepsSorted(s: seq<Future>, g: Future, i: nat, now: int)
    requires i <= |s| && SortedByKey(s, now)
    requires forall j :: 0 <= j < i ==> s[j].Key(now) <= g.Key(now)
    requires i < |s| ==> g.Key(now) < s[i].Key(now)
    ensures SortedByKey(s[..i] + [g] + s[i..], now)
  {
    var t := s[..i] + [g] + s[i..];
    forall a, b | 0 <= a < b < |t|
      ensures t[a].Key(now) <= t[b].Key(now)
    {
      if b < i {
        assert t[a] == s[a] && t[b] == s[b];
      } else if b == i {
        assert t[a] == s[a];
      } else if a < i {
        assert t[a] == s[a] && t[b] == s[b - 1];
      } else if a == i {
        assert t[b] == s[b - 1];
      } else {
        assert t[a] == s[a - 1] && t[b] == s[b - 1];
      }
    }
  }

  /** Every queued future whose key equals the new one's lies before the insertion point, so it keeps its place. */
  lemma EqualKeysStayAhead(s: seq<Future>, g: Future, i: nat, now: int)
    requires i <= |s| && SortedByKey(s, now)
    requires i < |s| ==> g.Key(now) < s[i].Key(now)
    ensures forall j :: 0 <= j < |s| && s[j].Key(now) == g.Key(now) ==> (s[..i] + [g] + s[i..])[j] == s[j]
  {
    forall j | 0 <= j < |s| && s[j].Key(now) == g.Key(now)
      ensures (s[..i] + [g] + s[i..])[j] == s[j]
    {
      assert j < i;
    }
  }

  /** Within the `int32_t` window the key is the deadline shifted by now, so the two orders agree. */
  lemma KeyOrderIsDeadlineOrder(s: seq<Future>, now: int)
    requires InWindow(s, now)
    ensures SortedByKey(s, now) <==> SortedByDeadline(s)
  {
  }

  /**
   * A pipe sorted by deadline stays sorted by deadline after a push, as long
   * as every future, the new one included, is due within the `int32_t` window.
   */
  lemma PushKeepsDeadlineOrder(p: Pipeline, f: Future, now: int)
    requires p.Valid() && p.pipe.Size() < p.pipe.MaxSize()
    requires SortedByDeadline(p.Futures())
    requires InWindow(p.Futures(), now) && Int32Min <= f.delay <= Int32Max
    ensures SortedByDeadline(Push(p, f, now).Futures())
  {
    var g := Reschedule(f, 0, now);
    var i := InsertionIndex(p.Futures(), g.Key(now), now);
    var t := Push(p, f, now).Futures();
    KeyOrderIsDeadlineOrder(p.Futures(), now);
    PushKeepsKeyOrder(p, f, now);
    assert t == p.Futures()[..i] + [g] + p.Futures()[i..];
    assert InWindow(t, now) by {
      forall j | 0 <= j < |t|
        ensures Int32Min <= t[j].TimeUntil(now) <= Int32Max
      {
        if j < i {
          assert t[j] == p.Futures()[j];
        } else if j > i {
          assert t[j] == p.Futures()[j - 1];
        }
      }
    }
    KeyOrderIsDeadlineOrder(t, now);
  }

  /**
   * For a front whose alarm has not latched, "expired" and "no time left" are
   * the same question, as long as the front's deadline and the clock both fit
   * an `int32_t`.
   */
  lemma ExpiredIffNoTimeLeft(p: Pipeline, now: int)
    requires p.Valid() && (p.ContainsFutures() ==> !p.Futures()[0].alarm.latched)
    requires p.ContainsFutures() ==> Int32Min <= p.Futures()[0].Deadline() <= Int32Max
    requires Int32Min <= now <= Int32Max
    ensures ContainsExpiredFutures(p, now).1 <==> p.ContainsFutures() && TimeUntilNextFuture(p, now) == 0
  {
    if p.ContainsFutures() {
      AlarmAgreesInInt32Range(p.Futures()[0].alarm, now);
    }
  }

  /** With the full-width comparison the two questions agree at every time. */
  lemma ExpiredIntendedIffNoTimeLeft(p: Pipeline, now: int)
    requires p.Valid() && (p.ContainsFutures() ==> !p.Futures()[0].alarm.latched)
    ensures ContainsExpiredFuturesIntended(p, now).1 <==> p.ContainsFutures() && TimeUntilNextFuture(p, now) == 0
  {
  }

  /**
   * Once `contains_expired_futures()` has said yes, the front stays latched, so
   * a later `expire()` hands it out whatever the clock says then.
   */
  lemma ContainsExpiredThenExpire(p: Pipeline, now: int, later: int)
    requires p.Valid() && ContainsExpiredFutures(p, now).1
    ensures var q := ContainsExpiredFutures(p, now).0;
            && Expire(q, later).1.Some?
            && Expire(q, later).0.Futures() == p.Futures()[1..]
  {
  }

  /**
   * A future pushed with a delay of 100 ms at 2147483600 ms of uptime is handed
   * out by `expire()` at once, since its deadline wraps negative as an
   * `int32_t`; with the full-width comparison it is not yet due.
   */
  lemma ExpireEarlyAcrossInt32(p: Pipeline)
    requires p.Valid() && p.Futures() == [] && 0 < p.pipe.MaxSize()
    ensures var q := Push(p, NewFuture(100, 0), 2147483600);
            && q.Futures() == [NewFuture(100, 2147483600)]
            && Expire(q, 2147483600).1 == Some(NewFuture(100, 2147483600).(alarm := AlarmTimer(2147483700, true)))
            && ExpireIntended(q, 2147483600).1 == None
  {
    var f := NewFuture(100, 2147483600);
    assert ToInt32(f.Deadline()) == f.Deadline() - 0x1_0000_0000;
  }
}

=== FILE: points.dfy ===
/**
 * `spn::structure::XYZPoint<T>` and `XYPoint<T>` for an integer `T`: points
 * with componentwise arithmetic. Division and remainder are C++'s, truncating
 * toward zero; the width of `T` is not modelled.
 */
module Points {
  import opened CInt

  datatype XYZPoint = XYZPoint(x: int, y: int, z: int)
  {
    /** `operator+`. */
    function Plus(o: XYZPoint): (r: XYZPoint)
      ensures r.Minus(o) == this
    {
      XYZPoint(x + o.x, y + o.y, z + o.z)
    }

    /** `operator-`: the difference is the origin exactly when the points coincide. */
    function Minus(o: XYZPoint): (r: XYZPoint)
      ensures r == XYZPoint(0, 0, 0) <==> this == o
    {
      XYZPoint(x - o.x, y - o.y, z - o.z)
    }

    /** `operator*`, and `Dot`, which computes the same componentwise product:
        `(1, 1, 1)` is neutral and the origin absorbs. */
    function Times(o: XYZPoint): (r: XYZPoint)
      ensures o == XYZPoint(1, 1, 1) ==> r == this
      ensures o == XYZPoint(0, 0, 0) ==> r == o
    {
      XYZPoint(x * o.x, y * o.y, z * o.z)
    }

    /** Division and remainder need every component of the divisor to be nonzero. */
    predicate NonZero() { x != 0 && y != 0 && z != 0 }

    /** `operator/`: each component truncated toward zero. */
    function Div(o: XYZPoint): (r: XYZPoint)
      requires o.NonZero()
      ensures Abs(r.x) * Abs(o.x) <= Abs(x) && Abs(r.y) * Abs(o.y) <= Abs(y) && Abs(r.z) * Abs(o.z) <= Abs(z)
    {
      TruncDivBounds(x, o.x);
      TruncDivBounds(y, o.y);
      TruncDivBounds(z, o.z);
      XYZPoint(TruncDiv(x, o.x), TruncDiv(y, o.y), TruncDiv(z, o.z))
    }

    /** `operator%`: each component's remainder, with the sign of the dividend. */
    function Mod(o: XYZPoint): (r: XYZPoint)
      requires o.NonZero()
      ensures Abs(r.x) < Abs(o.x) && Abs(r.y) < Abs(o.y) && Abs(r.z) < Abs(o.z)
    {
      XYZPoint(TruncMod(x, o.x), TruncMod(y, o.y), TruncMod(z, o.z))
    }

    /** `operator==`: all three components agree. */
    function Equals(o: XYZPoint): (r: bool)
      ensures r <==> this == o
    {
      x == o.x && y == o.y && z == o.z
    }

    /** `operator!=`: some component differs. */
    function NotEquals(o: XYZPoint): (r: bool)
      ensures r <==> !Equals(o)
    {
      x != o.x || y != o.y || z != o.z
    }

    /** `Add`: `+=` on each component. */
    function Add(o: XYZPoint): (r: XYZPoint)
      ensures r == Plus(o)
    {
      this.(x := x + o.x).(y := y + o.y).(z := z + o.z)
    }

    /** `Substract`: `-=` on each component. */
    function Substract(o: XYZPoint): (r: XYZPoint)
      ensures r == Minus(o)
      ensures r.Plus(o) == this
    {
      this.(x := x - o.x).(y := y - o.y).(z := z - o.z)
    }

    /** `ScalarMultiplication(s)`: `*= s` on each component. */
    function ScalarMultiplication(s: int): (r: XYZPoint)
      ensures r == Times(XYZPoint(s, s, s))
    {
      this.(x := x * s).(y := y * s).(z := z * s)
    }

    /** `Dot`. */
    function Dot(o: XYZPoint): (r: XYZPoint)
      ensures r == Times(o) && r == o.Times(this)
    {
      XYZPoint(x * o.x, y * o.y, z * o.z)
    }
  }

  /** The default constructor. */
  function ZeroXYZ(): (r: XYZPoint)
    ensures forall p: XYZPoint :: p.Plus(r) == p && p.Times(r) == r
  {
    XYZPoint(0, 0, 0)
  }

  /** Quotient and remainder put the dividend back together, as C++ guarantees for each component. */
  lemma XYZDivModReconstruct(p: XYZPoint, q: XYZPoint)
    requires q.NonZero()
    ensures q.Times(p.Div(q)).Plus(p.Mod(q)) == p
  {
  }

  datatype XYPoint = XYPoint(x: int, y: int)
  {
    /** `operator+`. */
    function Plus(o: XYPoint): (r: XYPoint)
      ensures r.Minus(o) == this
    {
      XYPoint(x + o.x, y + o.y)
    }

    /** `operator-`: the difference is the origin exactly when the points coincide. */
    function Minus(o: XYPoint): (r: XYPoint)
      ensures r == XYPoint(0, 0) <==> this == o
    {
      XYPoint(x - o.x, y - o.y)
    }

    /** `operator*`: `(1, 1)` is neutral and the origin absorbs. */
    function Times(o: XYPoint): (r: XYPoint)
      ensures o == XYPoint(1, 1) ==> r == this
      ensures o == XYPoint(0, 0) ==> r == o
    {
      XYPoint(x * o.x, y * o.y)
    }

    predicate NonZero() { x != 0 && y != 0 }

    /** `operator/`: each component truncated toward zero. */
    function Div(o: XYPoint): (r: XYPoint)
      requires o.NonZero()
      ensures Abs(r.x) * Abs(o.x) <= Abs(x) && Abs(r.y) * Abs(o.y) <= Abs(y)
    {
      TruncDivBounds(x, o.x);
      TruncDivBounds(y, o.y);
      XYPoint(TruncDiv(x, o.x), TruncDiv(y, o.y))
    }

    /** `operator%`: each component's remainder, with the sign of the dividend. */
    function Mod(o: XYPoint): (r: XYPoint)
      requires o.NonZero()
      ensures Abs(r.x) < Abs(o.x) && Abs(r.y) < Abs(o.y)
    {
      XYPoint(TruncMod(x, o.x), TruncMod(y, o.y))
    }

    /** `operator==`. */
    function Equals(o: XYPoint): (r: bool)
      ensures r <==> this == o
    {
      x == o.x && y == o.y
    }

    /** `operator!=`. */
    function NotEquals(o: XYPoint): (r: bool)
      ensures r <==> !Equals(o)
    {
      x != o.x || y != o.y
    }

    /** `Add`. */
    function Add(o: XYPoint): (r: XYPoint)
      ensures r == Plus(o)
    {
      this.(x := x + o.x).(y := y + o.y)
    }

    /** `Substract`. */
    function Substract(o: XYPoint): (r: XYPoint)
      ensures r == Minus(o)
      ensures r.Plus(o) == this
    {
      this.(x := x - o.x).(y := y - o.y)
    }

    /** `ScalarMultiplication(s)`. */
    function ScalarMultiplication(s: int): (r: XYPoint)
      ensures r == Times(XYPoint(s, s))
    {
      this.(x := x * s).(y := y * s)
    }

    /** `Dot`. */
    function Dot(o: XYPoint): (r: XYPoint)
      ensures r == Times(o) && r == o.Times(this)
    {
      XYPoint(x * o.x, y * o.y)
    }
  }

  /** The default constructor. */
  function ZeroXY(): (r: XYPoint)
    ensures forall p: XYPoint :: p.Plus(r) == p && p.Times(r) == r
  {
    XYPoint(0, 0)
  }

  lemma XYDivModReconstruct(p: XYPoint, q: XYPoint)
    requires q.NonZero()
    ensures q.Times(p.Div(q)).Plus(p.Mod(q)) == p
  {
  }

  /** The integer cases of the operator test: `(1, 2)` against `(4, 5)`. */
  lemma XYOperatorExamples()
    ensures XYPoint(1, 2).Plus(XYPoint(4, 5)) == XYPoint(5, 7)
    ensures XYPoint(1, 2).Minus(XYPoint(4, 5)) == XYPoint(-3, -3)
    ensures XYPoint(1, 2).Times(XYPoint(4, 5)) == XYPoint(4, 10)
    ensures XYPoint(1, 2).Div(XYPoint(4, 5)) == XYPoint(0, 0)
    ensures XYPoint(1, 2).Mod(XYPoint(4, 5)) == XYPoint(1, 2)
    ensures XYPoint(4, 5).Mod(XYPoint(1, 2)) == XYPoint(0, 1)
  {
  }
}

=== FILE: pool.dfy ===
/** `spn::structure::Pool<T>`: a fixed set of shared objects handed out for reuse.
    Each slot holds a `shared_ptr`; a slot whose use count is 1 is referenced by the
    pool alone and is free. The model records, per slot, how many holders outside
    the pool share the object, so the use count is that number plus one. */
module ObjectPool {
  import opened Wrappers
  import opened CInt
  import opened Vec

  /** A pool slot: a null pointer, or an object with `holders` references outside the pool. */
  datatype Handle<T> = Null | Handle(obj: T, holders: nat)
  {
    /** `use_count()`: zero for a null pointer, otherwise the pool's own reference
        plus the outside holders. */
    function UseCount(): (n: nat)
      ensures n == 0 <==> Null?
    {
      if Null? then 0 else holders + 1
    }

    predicate Free() { UseCount() == 1 }
  }

  datatype Pool<T> = Pool(pointers: Vector<Handle<T>>, lookup: nat)
  {
    predicate Valid() {
      pointers.Valid() && pointers.blank == Null
    }

    /** `size()`: the number of populated slots, bounded by the capacity. */
    function Size(): (n: nat)
      requires Valid()
      ensures n <= pointers.MaxSize()
    {
      pointers.Size()
    }

    /** `fully_populated()`: every slot of the capacity holds an object. */
    function FullyPopulated(): (r: bool)
      requires Valid()
      ensures r <==> |Slots()| == pointers.MaxSize()
    {
      pointers.Full()
    }

    function Slots(): (s: seq<Handle<T>>)
      requires Valid()
      ensures |s| == Size()
    {
      pointers.Elements()
    }

    /** `populate(obj)`: appends a slot; the `T*` and `T&&` overloads create an
        object nobody else holds, the `shared_ptr` overload may bring `holders`. */
    function Populate(obj: T, holders: nat): (r: Pool<T>)
      requires Valid() && !FullyPopulated()
      ensures r.Valid() && r.Slots() == Slots() + [Handle(obj, holders)]
      ensures r.pointers.MaxSize() == pointers.MaxSize()
    {
      PushBackAppends(pointers, Handle(obj, holders));
      Pool(pointers.PushBack(Handle(obj, holders)), lookup)
    }

    /** `depopulate()`: takes out the first slot populated. */
    function Depopulate(): (r: (Pool<T>, Handle<T>))
      requires Valid() && Size() > 0
      ensures r.0.Valid() && r.1 == Slots()[0] && r.0.Slots() == Slots()[1..]
    {
      var (v, h) := pointers.PopFront();
      (Pool(v, lookup), h)
    }

    /** A holder outside the pool drops its copy of the pointer in slot `i`. */
    function Release(i: nat): (r: Pool<T>)
      requires Valid() && i < Size() && Slots()[i].Handle? && Slots()[i].holders > 0
      ensures r.Valid() && r.lookup == lookup
      ensures r.Slots() == Slots()[i := Handle(Slots()[i].obj, Slots()[i].holders - 1)]
    {
      var h := Slots()[i];
      Pool(pointers.SetAt(i, Handle(h.obj, h.holders - 1)), lookup)
    }
  }

  /** The first free slot in `[lo, hi)`, if any. */
  function FirstFree<T>(s: seq<Handle<T>>, lo: nat, hi: nat): (r: Option<nat>)
    requires lo <= hi <= |s|
    ensures r.Some? ==> lo <= r.value < hi && s[r.value].Free()
                        && forall j :: lo <= j < r.value ==> !s[j].Free()
    ensures r.None? <==> forall j :: lo <= j < hi ==> !s[j].Free()
    decreases hi - lo
  {
    if lo == hi then None
    else if s[lo].Free() then Some(lo)
    else FirstFree(s, lo + 1, hi)
  }

  /** Where `acquire` finds an object: the first free slot from the lookup index on,
      else the first free slot before it. */
  function AcquireChoice<T>(p: Pool<T>): (r: Option<nat>)
    requires p.Valid()
    ensures r.Some? ==> r.value < p.Size() && p.Slots()[r.value].Free()
    ensures r.None? <==> forall j :: 0 <= j < p.Size() ==> !p.Slots()[j].Free()
  {
    var s := p.Slots();
    var lo := Min(p.lookup, |s|);
    var after := FirstFree(s, lo, |s|);
    if after.Some? then after else FirstFree(s, 0, lo)
  }

  /** `acquire()`: hands out a free object, now with one more holder. The lookup
      index stays at the slot found, so the next search starts there; after a miss
      it wraps to 0. The debug-only check that the pool is fully populated is not
      a precondition: a pool with fewer slots is searched the same way. */
  method Acquire<T>(p: Pool<T>) returns (r: Pool<T>, slot: Option<nat>)
    requires p.Valid()
    ensures r.Valid() && r.pointers.MaxSize() == p.pointers.MaxSize()
    ensures r.FullyPopulated() <==> p.FullyPopulated()
    ensures slot == AcquireChoice(p)
    ensures r.lookup == if slot.Some? && slot.value >= Min(p.lookup, p.Size()) then slot.value else 0
    ensures slot.Some? ==> p.Slots()[slot.value].Handle?
                           && r.Slots() == p.Slots()[slot.value := Handle(p.Slots()[slot.value].obj, 1)]
    ensures slot.None? ==> r.Slots() == p.Slots() && r.lookup == 0
  {
    var s := p.Slots();
    var lo := Min(p.lookup, |s|);
    var i := lo;
    while i < |s|
      invariant lo <= i <= |s|
      invariant FirstFree(s, lo, i) == None
    {
      if s[i].UseCount() == 1 {
        assert FirstFree(s, lo, |s|) == Some(i);
        r := Pool(p.pointers.SetAt(i, Handle(s[i].obj, 1)), i);
        return r, Some(i);
      }
      i := i + 1;
    }
    var j := 0;
    while j < p.lookup && j < |s|
      invariant 0 <= j <= lo
      invariant FirstFree(s, 0, j) == None
    {
      if s[j].UseCount() == 1 {
        r := Pool(p.pointers.SetAt(j, Handle(s[j].obj, 1)), 0);
        return r, Some(j);
      }
      j := j + 1;
    }
    return Pool(p.pointers, 0), None;
  }

  /** `can_acquire()`: the same search without handing anything out. */
  method CanAcquire<T>(p: Pool<T>) returns (b: bool)
    requires p.Valid()
    ensures b <==> exists j :: 0 <= j < p.Size() && p.Slots()[j].Free()
  {
    var s := p.Slots();
    var i := Min(p.lookup, |s|);
    while i < |s|
      invariant Min(p.lookup, |s|) <= i <= |s|
      invariant forall k :: Min(p.lookup, |s|) <= k < i ==> !s[k].Free()
    {
      if s[i].UseCount() == 1 {
        return true;
      }
      i := i + 1;
    }
    var j := 0;
    while j < p.lookup && j < |s|
      invariant 0 <= j <= Min(p.lookup, |s|)
      invariant forall k :: 0 <= k < j ==> !s[k].Free()
    {
      if s[j].UseCount() == 1 {
        return true;
      }
      j := j + 1;
    }
    return false;
  }

  /** `Pool(size)`. */
  function NewPool<T>(size: nat): (r: Pool<T>)
    ensures r.Valid() && r.Slots() == [] && r.pointers.MaxSize() == size
  {
    Pool(NewVector(size, Null), 0)
  }

  /** With every object held, the first `k` acquires of a freshly populated pool hand
      out the objects in the order they were populated. */
  lemma AcquireFollowsPopulationOrder<T>(p: Pool<T>, k: nat)
    requires p.Valid() && p.FullyPopulated() && k < p.Size()
    requires p.lookup <= k && forall j :: 0 <= j < p.Size() ==> p.Slots()[j].Free() <==> j >= k
    ensures AcquireChoice(p) == Some(k)
  {
    var s := p.Slots();
    var lo := Min(p.lookup, |s|);
    assert s[k].Free();
    var after := FirstFree(s, lo, |s|);
    assert after.Some?;
    assert after.value == k;
  }

  /** Once every object is handed out, `acquire` yields nothing; releasing one object
      makes it the one handed out next. */
  lemma ReleaseMakesAcquirable<T>(p: Pool<T>, i: nat)
    requires p.Valid() && p.FullyPopulated() && i < p.Size()
    requires forall j :: 0 <= j < p.Size() ==> p.Slots()[j].Handle? && p.Slots()[j].holders == 1
    ensures AcquireChoice(p) == None
    ensures AcquireChoice(p.Release(i)) == Some(i)
  {
    var q := p.Release(i);
    assert q.Slots()[i].Free();
    var lo := Min(q.lookup, q.Size());
    if i < lo {
      assert FirstFree(q.Slots(), lo, q.Size()) == None;
    }
  }
}

=== FILE: result.dfy ===
/** `spn::structure::Result<T, E, I>`: the outcome of a processing stage, which is
    undefined, a success value, an intermediary value to hand to the next stage, or
    an error. */
module Outcome {

  datatype Result<T, E, I> = Undefined | Ok(value: T) | Intermediary(inter: I) | Failed(error: E)
  {
    /** `is_success()`: at most one of the three queries holds. */
    function IsSuccess(): (r: bool)
      ensures r ==> !Intermediary? && !Failed?
    {
      Ok?
    }

    function IsIntermediary(): (r: bool)
      ensures r ==> !IsSuccess() && !Failed?
    {
      Intermediary?
    }

    function IsFailed(): (r: bool)
      ensures r <==> !Undefined? && !IsSuccess() && !IsIntermediary()
    {
      Failed?
    }

    /** `operator bool`: true for a success only. */
    function AsBool(): (r: bool)
      ensures r <==> IsSuccess()
    {
      Ok?
    }

    /** `value()`, `operator*`: only defined on a success, whose payload it is. */
    function Value(): (r: T)
      requires IsSuccess()
      ensures this == Ok(r)
    {
      value
    }

    function IntermediaryValue(): (r: I)
      requires IsIntermediary()
      ensures this == Intermediary(r)
    {
      inter
    }

    /** `error_value()`: only defined on a failure, whose payload it is. */
    function ErrorValue(): (r: E)
      requires IsFailed()
      ensures this == Failed(r)
    {
      error
    }

    /** `chain(func)`: a settled result (success or failure) passes through unchanged;
        an intermediary value is handed to `func`. An undefined result has no
        intermediary value to hand on and is not a valid receiver. */
    function Chain(f: I -> Result<T, E, I>): (r: Result<T, E, I>)
      requires !Undefined?
      ensures Ok? || Failed? ==> r == this
      ensures Intermediary? ==> r == f(inter)
    {
      if IsFailed() || IsSuccess() then this else f(IntermediaryValue())
    }
  }

  /** `Result()`: the default-constructed result. */
  function Default<T, E, I>(): (r: Result<T, E, I>)
    ensures !r.IsSuccess() && !r.IsIntermediary() && !r.IsFailed() && !r.AsBool()
  {
    Undefined
  }

  /** A chain of stages applied one after the other: `r.chain(f0).chain(f1)...`.
      No stage may produce an undefined result, since the next `chain` would receive it. */
  function ChainAll<T, E, I(!new)>(r: Result<T, E, I>, stages: seq<I -> Result<T, E, I>>): (out: Result<T, E, I>)
    requires !r.Undefined?
    requires forall k, x :: 0 <= k < |stages| ==> !stages[k](x).Undefined?
    ensures !out.Undefined?
    decreases |stages|
  {
    if |stages| == 0 then r else ChainAll(r.Chain(stages[0]), stages[1..])
  }

  /** Once a stage settles the result, the later stages are skipped. */
  lemma {:induction false} SettledPassesThrough<T, E, I(!new)>(r: Result<T, E, I>, stages: seq<I -> Result<T, E, I>>)
    requires r.Ok? || r.Failed?
    requires forall k, x :: 0 <= k < |stages| ==> !stages[k](x).Undefined?
    ensures ChainAll(r, stages) == r
    decreases |stages|
  {
    if |stages| > 0 {
      SettledPassesThrough(r, stages[1..]);
    }
  }

  /** Chaining two runs of stages is chaining their concatenation. */
  lemma {:induction false} ChainAllAppend<T, E, I(!new)>(r: Result<T, E, I>, a: seq<I -> Result<T, E, I>>, b: seq<I -> Result<T, E, I>>)
    requires !r.Undefined?
    requires forall k, x :: 0 <= k < |a| ==> !a[k](x).Undefined?
    requires forall k, x :: 0 <= k < |b| ==> !b[k](x).Undefined?
    ensures ChainAll(r, a + b) == ChainAll(ChainAll(r, a), b)
    decreases |a|
  {
    if |a| == 0 {
      assert a + b == b;
    } else {
      assert (a + b)[1..] == a[1..] + b;
      ChainAllAppend(r.Chain(a[0]), a[1..], b);
    }
  }

  /** The first failing stage decides the outcome of the whole chain. */
  lemma FirstFailureWins<T, E, I(!new)>(r: Result<T, E, I>, a: seq<I -> Result<T, E, I>>, b: seq<I -> Result<T, E, I>>)
    requires !r.Undefined?
    requires forall k, x :: 0 <= k < |a| ==> !a[k](x).Undefined?
    requires forall k, x :: 0 <= k < |b| ==> !b[k](x).Undefined?
    requires ChainAll(r, a).Failed?
    ensures ChainAll(r, a + b) == ChainAll(r, a)
  {
    ChainAllAppend(r, a, b);
    SettledPassesThrough(ChainAll(r, a), b);
  }

  /** Stages of a small parser: counting up, finishing, succeeding early, failing. */
  function CountStage(h: int): Result<int, string, int> {
    if h == 0 then Failed("value was 0") else Intermediary(h + 1)
  }

  function FinalStage(h: int): Result<int, string, int> { Ok(h) }

  function EarlyStage(h: int): Result<int, string, int> { Ok(42) }

  function ErrorStage(h: int): Result<int, string, int> { Failed("stage_error") }

  /** Two counting stages and a final stage turn the intermediary 5 into the success 7;
      an early success skips an erroring stage; an erroring stage skips the rest. */
  lemma ChainedStages()
    ensures ChainAll(Intermediary(5), [CountStage, CountStage, FinalStage]) == Ok(7)
    ensures ChainAll(Intermediary(5), [EarlyStage, ErrorStage, CountStage]) == Ok(42)
    ensures ChainAll(Intermediary(5), [ErrorStage, CountStage]) == Failed("stage_error")
  {
    var s1 := [CountStage, CountStage, FinalStage];
    assert ChainAll(Intermediary(5), s1) == ChainAll(Intermediary(6), s1[1..]);
    assert ChainAll(Intermediary(6), s1[1..]) == ChainAll(Intermediary(7), s1[2..]);
    var s2 := [EarlyStage, ErrorStage, CountStage];
    SettledPassesThrough(Ok(42), s2[1..]);
    var s3 := [ErrorStage, CountStage];
    SettledPassesThrough(Failed("stage_error"), s3[1..]);
  }
}

=== FILE: ringbuffer.dfy ===
/** `spn::structure::RingBuffer<T>`: a fixed-capacity circular buffer over an array,
    with a write position (`head`), a read position (`tail`), a flag telling a full
    buffer from an empty one, and a count of elements overwritten while rolling over. */
module Ring {
  import opened Wrappers
  import opened CInt

  datatype RingBuffer<T> = RingBuffer(buf: seq<T>, head: nat, tail: nat, overwritten: nat, isFull: bool)
  {
    /** The representation invariant every public operation keeps. */
    predicate Valid() {
      && 0 < |buf| < SizeMod
      && head < |buf| && tail < |buf|
      && (isFull ==> head == tail)
      && overwritten < SizeMod
    }

    /** `capacity()`: every slot is either holding an element or free. */
    function Capacity(): (n: nat)
      ensures Valid() ==> 0 < n && n == |Contents()| + FreeSpace()
    {
      |buf|
    }

    function UsedSpace(): (n: nat)
      requires Valid()
      ensures n <= |buf|
    {
      if isFull then |buf|
      else if head >= tail then head - tail
      else |buf| - tail + head
    }

    function FreeSpace(): (n: nat)
      requires Valid()
      ensures n + UsedSpace() == |buf|
    {
      if isFull then 0
      else if head >= tail then |buf| - head + tail
      else tail - head
    }

    /** `empty()`: no element is stored. */
    function Empty(): (r: bool)
      requires Valid()
      ensures r <==> Contents() == []
    {
      !isFull && head == tail
    }

    /** The array slot holding the `i`-th oldest element. */
    function Slot(i: nat): (k: nat)
      requires Valid()
      ensures k < |buf|
    {
      (tail + i) % |buf|
    }

    /** The abstraction of the buffer: its elements, oldest first. */
    function Contents(): (s: seq<T>)
      requires Valid()
      ensures |s| == UsedSpace()
    {
      seq(UsedSpace(), i requires 0 <= i < UsedSpace() => buf[Slot(i)])
    }

    /** `push(value, rollover)`: refused on a full buffer unless rolling over, in
        which case the oldest element is overwritten. */
    function Push(v: T, rollover: bool): (r: (RingBuffer<T>, bool))
      requires Valid()
      ensures r.0.Valid()
      ensures r.1 <==> !isFull || rollover
      ensures !r.1 ==> r.0 == this
    {
      if isFull && !rollover then (this, false)
      else
        var b := buf[head := v];
        var h := (head + 1) % |buf|;
        if h == tail then (RingBuffer(b, h, tail, overwritten, true), true)
        else if isFull then (RingBuffer(b, h, (tail + 1) % |buf|, (overwritten + 1) % SizeMod, true), true)
        else (RingBuffer(b, h, tail, overwritten, false), true)
    }

    /** `push(buffer, length, rollover)`: pushes element by element and stops at the
        first refusal; yields the number of elements written. */
    function PushRange(data: seq<T>, rollover: bool): (r: (RingBuffer<T>, nat))
      requires Valid()
      ensures r.0.Valid()
      ensures r.1 <= |data|
      decreases |data|
    {
      if |data| == 0 then (this, 0)
      else
        var (next, ok) := Push(data[0], rollover);
        if !ok then (this, 0)
        else
          var (last, n) := next.PushRange(data[1..], rollover);
          (last, n + 1)
    }

    /** `pop(value)`: removes the oldest element; `None` on an empty buffer. */
    function Pop(): (r: (RingBuffer<T>, Option<T>))
      requires Valid()
      ensures r.0.Valid()
      ensures r.1.None? <==> Empty()
      ensures r.1.None? ==> r.0 == this
    {
      if Empty() then (this, None)
      else (RingBuffer(buf, head, (tail + 1) % |buf|, 0, false), Some(buf[tail]))
    }

    /** Pops `n` elements one after the other. */
    function PopN(n: nat): (r: (RingBuffer<T>, seq<T>))
      requires Valid() && n <= UsedSpace()
      ensures r.0.Valid()
      ensures |r.1| == n
      decreases n
    {
      if n == 0 then (this, [])
      else
        PopShrinks(this);
        var (next, v) := Pop();
        var (last, rest) := next.PopN(n - 1);
        (last, [v.value] + rest)
    }

    /** `pop(buffer, length)`: all-or-nothing read of `length` elements. */
    function PopRange(n: nat): (r: (RingBuffer<T>, seq<T>))
      requires Valid()
      ensures r.0.Valid()
      ensures |r.1| == 0 || |r.1| == n
    {
      if UsedSpace() < n then (this, []) else PopN(n)
    }

    /** `peek_at(value, index)`: reads the `index`-th oldest element in place. */
    function PeekAt(index: nat): (r: Option<T>)
      requires Valid()
      ensures r.None? <==> index >= UsedSpace()
    {
      if index >= UsedSpace() then None else Some(buf[(tail + index) % |buf|])
    }

    /** `drop_first(n)` as written: `m_is_full` is cleared even when nothing is
        dropped, and the overrun count is clamped with the post-drop used space. */
    function DropFirstAsWritten(n: nat): (r: (RingBuffer<T>, nat))
      requires Valid() && n < SizeMod
      ensures r.0.Valid()
      ensures r.1 == Min(n, UsedSpace())
    {
      var k := Min(UsedSpace(), n);
      var t := (tail + k) % |buf|;
      var moved := RingBuffer(buf, head, t, overwritten, false);
      var ow := Min(overwritten, SizeSub(moved.UsedSpace(), k));
      (RingBuffer(buf, head, t, ow, false), k)
    }

    /** `drop_last(n)` as written: `m_is_full` is cleared even when nothing is
        dropped, and `max(0, m_overwritten - n)` is computed on `size_t`, whose
        subtraction wraps around instead of stopping at zero. */
    function DropLastAsWritten(n: nat): (r: (RingBuffer<T>, nat))
      requires Valid() && n < SizeMod
      ensures r.0.Valid()
      ensures r.1 == Min(n, UsedSpace())
    {
      var k := Min(UsedSpace(), n);
      var h := (head + |buf| - k % |buf|) % |buf|;
      (RingBuffer(buf, h, tail, Max(0, SizeSub(overwritten, k)), false), k)
    }

    /** `drop_first(n)` with the evident intent: dropping nothing changes nothing. */
    function DropFirst(n: nat): (r: (RingBuffer<T>, nat))
      requires Valid() && n < SizeMod
      ensures r.0.Valid()
      ensures r.1 == Min(n, UsedSpace())
    {
      if Min(UsedSpace(), n) == 0 then (this, 0) else DropFirstAsWritten(n)
    }

    /** `drop_last(n)` with the evident intent: dropping nothing changes nothing and
        the overrun count saturates at zero. */
    function DropLast(n: nat): (r: (RingBuffer<T>, nat))
      requires Valid() && n < SizeMod
      ensures r.0.Valid()
      ensures r.1 == Min(n, UsedSpace())
    {
      var k := Min(UsedSpace(), n);
      if k == 0 then (this, 0)
      else
        var h := (head + |buf| - k % |buf|) % |buf|;
        (RingBuffer(buf, h, tail, overwritten - Min(overwritten, k), false), k)
    }

    /** `clear()`: `drop_last(used_space())`, with the overrun count lowered as
        `drop_last` as written lowers it. */
    function Clear(): (r: RingBuffer<T>)
      requires Valid()
      ensures r.Valid()
    {
      DropLastAsWritten(UsedSpace()).0
    }
  }

  /** `RingBuffer(capacity, init_value)`. */
  function New<T>(capacity: nat, init: T): (r: RingBuffer<T>)
    requires 0 < capacity < SizeMod
    ensures r.Valid() && r.Capacity() == capacity
    ensures r.Contents() == [] && r.overwritten == 0
  {
    RingBuffer(seq(capacity, _ => init), 0, 0, 0, false)
  }

  /** Slot arithmetic: the head always sits `UsedSpace()` slots past the tail. */
  lemma HeadAfterUsed<T>(rb: RingBuffer<T>)
    requires rb.Valid()
    ensures rb.head == (rb.tail + rb.UsedSpace()) % |rb.buf|
  {
    ModWrap(rb.tail + rb.UsedSpace(), |rb.buf|);
  }

  /** A non-full buffer whose head sits `u < capacity` slots past the tail holds `u` elements. */
  lemma UsedFromOffset<T>(rb: RingBuffer<T>, u: nat)
    requires rb.Valid() && !rb.isFull && u < |rb.buf|
    requires rb.head == (rb.tail + u) % |rb.buf|
    ensures rb.UsedSpace() == u
  {
    ModWrap(rb.tail + u, |rb.buf|);
  }

  /** Distinct logical positions occupy distinct slots. */
  lemma SlotsDistinct<T>(rb: RingBuffer<T>, i: nat, j: nat)
    requires rb.Valid() && i < |rb.buf| && j < |rb.buf| && i != j
    ensures rb.Slot(i) != rb.Slot(j)
  {
    ModWrap(rb.tail + i, |rb.buf|);
    ModWrap(rb.tail + j, |rb.buf|);
  }

  /** Moving the tail by `k` shifts every logical position by `k`. */
  lemma SlotShift(c: nat, t: nat, k: nat, i: nat)
    requires 0 < c && t < c && k <= c && i + k <= c
    ensures ((t + k) % c + i) % c == (t + (k + i)) % c
  {
    ModWrap(t + k, c);
    var t2 := (t + k) % c;
    ModWrap(t2 + i, c);
    ModWrap(t + (k + i), c);
  }

  lemma PopValue<T>(rb: RingBuffer<T>)
    requires rb.Valid() && !rb.Empty()
    ensures rb.Pop().1 == Some(rb.Contents()[0])
  {
    ModWrap(rb.tail, |rb.buf|);
    assert rb.Slot(0) == rb.tail;
  }

  lemma PopShrinks<T>(rb: RingBuffer<T>)
    requires rb.Valid() && !rb.Empty()
    ensures rb.Pop().0.UsedSpace() == rb.UsedSpace() - 1
    ensures rb.Pop().0.Contents() == rb.Contents()[1..]
  {
    AdvanceTail(rb, 1, 0);
  }

  /** A push into a buffer with room appends the value and touches nothing else. */
  lemma {:induction false} PushAppends<T>(rb: RingBuffer<T>, v: T, rollover: bool)
    requires rb.Valid() && !rb.isFull
    ensures rb.Push(v, rollover).1
    ensures rb.Push(v, rollover).0.Contents() == rb.Contents() + [v]
    ensures rb.Push(v, rollover).0.overwritten == rb.overwritten
  {
    var c := |rb.buf|;
    var u := rb.UsedSpace();
    var r := rb.Push(v, rollover).0;
    assert u < c;
    HeadAfterUsed(rb);
    SlotShift(c, rb.tail, u, 1);
    ModWrap(rb.tail + u + 1, c);
    if r.isFull {
      assert u + 1 == c;
    } else {
      UsedFromOffset(r, u + 1);
    }
    assert r.UsedSpace() == u + 1;
    forall i | 0 <= i < u + 1
      ensures r.Contents()[i] == (rb.Contents() + [v])[i]
    {
      assert r.Slot(i) == rb.Slot(i);
      if i < u {
        SlotsDistinct(rb, i, u);
      }
    }
  }

  /** A rolling-over push into a full buffer overwrites the oldest element: the
      buffer stays full and, when it has more than one slot, the overrun count grows. */
  lemma {:induction false} PushOverwrites<T>(rb: RingBuffer<T>, v: T)
    requires rb.Valid() && rb.isFull
    ensures rb.Push(v, true).1
    ensures rb.Push(v, true).0.isFull
    ensures rb.Push(v, true).0.Contents() == rb.Contents()[1..] + [v]
    ensures |rb.buf| > 1 ==> rb.Push(v, true).0.overwritten == (rb.overwritten + 1) % SizeMod
    ensures |rb.buf| == 1 ==> rb.Push(v, true).0.overwritten == rb.overwritten
  {
    var c := |rb.buf|;
    var b := rb.buf[rb.head := v];
    var h := (rb.head + 1) % c;
    ModWrap(rb.head + 1, c);
    if c > 1 {
      var r := RingBuffer(b, h, h, (rb.overwritten + 1) % SizeMod, true);
      assert rb.Push(v, true).0 == r;
      forall i | 0 <= i < c
        ensures r.Contents()[i] == (rb.Contents()[1..] + [v])[i]
      {
        OverwrittenSlot(rb, v, i);
      }
    }
  }

  lemma OverwrittenSlot<T>(rb: RingBuffer<T>, v: T, i: nat)
    requires rb.Valid() && rb.isFull && |rb.buf| > 1 && i < |rb.buf|
    ensures var c := |rb.buf|;
            var h := (rb.head + 1) % c;
            var b := rb.buf[rb.head := v];
            b[(h + i) % c] == if i + 1 < c then rb.buf[rb.Slot(i + 1)] else v
  {
    var c := |rb.buf|;
    SlotShift(c, rb.tail, 1, i);
    if i + 1 < c {
      SlotsDistinct(rb, i + 1, 0);
      ModWrap(rb.tail, c);
    } else {
      ModWrap(rb.tail + c, c);
    }
  }

  /** Range push without rollover writes as many elements as there is room for. */
  lemma {:induction false} PushRangeFills<T>(rb: RingBuffer<T>, data: seq<T>)
    requires rb.Valid()
    ensures rb.PushRange(data, false).1 == Min(|data|, rb.FreeSpace())
    ensures rb.PushRange(data, false).0.Contents() == rb.Contents() + data[..rb.PushRange(data, false).1]
    ensures rb.PushRange(data, false).0.overwritten == rb.overwritten
    decreases |data|
  {
    if |data| == 0 {
    } else if rb.isFull {
    } else {
      PushAppends(rb, data[0], false);
      var next := rb.Push(data[0], false).0;
      PushRangeFills(next, data[1..]);
      var n := next.PushRange(data[1..], false).1;
      assert data[..n + 1] == [data[0]] + data[1..][..n];
    }
  }

  /** Range push with rollover writes everything and keeps the newest `capacity` elements. */
  lemma {:induction false} PushRangeRollsOver<T>(rb: RingBuffer<T>, data: seq<T>)
    requires rb.Valid()
    ensures rb.PushRange(data, true).1 == |data|
    ensures var all := rb.Contents() + data;
            rb.PushRange(data, true).0.Contents() == all[Max(0, |all| - rb.Capacity())..]
    decreases |data|
  {
    if |data| == 0 {
      assert rb.Contents() + data == rb.Contents();
    } else {
      var next := rb.Push(data[0], true).0;
      PushRolls(rb, data[0]);
      PushRangeRollsOver(next, data[1..]);
      assert data == [data[0]] + data[1..];
      KeepNewestTwice(rb.Contents(), data[0], data[1..], next.Contents(),
                      next.PushRange(data[1..], true).0.Contents(), rb.Capacity());
    }
  }

  /** A full buffer holds as many elements as it has slots. */
  lemma FullAtCapacity<T>(rb: RingBuffer<T>)
    requires rb.Valid()
    ensures rb.isFull ==> |rb.Contents()| == rb.Capacity()
  {
  }

  /** A range push with rollover is a push of the first element followed by a range
      push of the rest. */
  lemma PushRangeCons<T>(rb: RingBuffer<T>, data: seq<T>)
    requires rb.Valid() && |data| > 0
    ensures rb.PushRange(data, true).0 == rb.Push(data[0], true).0.PushRange(data[1..], true).0
  {
  }

  /** One push with rollover keeps the newest `capacity` elements. */
  lemma PushRolls<T>(rb: RingBuffer<T>, v: T)
    requires rb.Valid()
    ensures var next := rb.Push(v, true).0;
            next.Capacity() == rb.Capacity()
            && next.Contents() == (rb.Contents() + [v])[Max(0, |rb.Contents()| + 1 - rb.Capacity())..]
  {
    if rb.isFull {
      PushOverwrites(rb, v);
    } else {
      PushAppends(rb, v, true);
    }
  }

  /** Keeping the newest `c` elements after one more and then after the rest keeps the newest `c` of all. */
  lemma KeepNewestTwice<T>(prev: seq<T>, x: T, rest: seq<T>, next: seq<T>, last: seq<T>, c: nat)
    requires |prev| <= c
    requires next == (prev + [x])[Max(0, |prev| + 1 - c)..]
    requires last == (next + rest)[Max(0, |next| + |rest| - c)..]
    ensures last == (prev + ([x] + rest))[Max(0, |prev| + 1 + |rest| - c)..]
  {
    var all := prev + ([x] + rest);
    var d := Max(0, |prev| + 1 - c);
    assert next + rest == all[d..];
  }

  /** Popping `n` elements yields the `n` oldest and leaves the rest. */
  lemma {:induction false} PopNTakesOldest<T>(rb: RingBuffer<T>, n: nat)
    requires rb.Valid() && n <= rb.UsedSpace()
    ensures rb.PopN(n).1 == rb.Contents()[..n]
    ensures rb.PopN(n).0.Contents() == rb.Contents()[n..]
    decreases n
  {
    if n > 0 {
      PopShrinks(rb);
      var next := rb.Pop().0;
      PopNTakesOldest(next, n - 1);
      PopValue(rb);
    }
  }

  /** `pop(buffer, length)` reads the `length` oldest elements, or nothing at all when
      fewer are stored. */
  lemma PopRangeAllOrNothing<T>(rb: RingBuffer<T>, n: nat)
    requires rb.Valid()
    ensures rb.UsedSpace() < n ==> rb.PopRange(n) == (rb, [])
    ensures n <= rb.UsedSpace() ==>
              rb.PopRange(n).1 == rb.Contents()[..n] && rb.PopRange(n).0.Contents() == rb.Contents()[n..]
  {
    if n <= rb.UsedSpace() {
      PopNTakesOldest(rb, n);
    }
  }

  /** `pop(value)` returns the oldest element. */
  lemma PopTakesOldest<T>(rb: RingBuffer<T>)
    requires rb.Valid() && !rb.Empty()
    ensures rb.Pop().1 == Some(rb.Contents()[0])
    ensures rb.Pop().0.Contents() == rb.Contents()[1..]
    ensures rb.Pop().0.overwritten == 0
  {
    PopShrinks(rb);
    PopValue(rb);
  }

  /** `peek_at(value, index)` reads the `index`-th oldest element. */
  lemma PeekAtReads<T>(rb: RingBuffer<T>, index: nat)
    requires rb.Valid() && index < rb.UsedSpace()
    ensures rb.PeekAt(index) == Some(rb.Contents()[index])
  {
  }

  /** An empty buffer is exactly one without contents. */
  lemma EmptyIffNoContents<T>(rb: RingBuffer<T>)
    requires rb.Valid()
    ensures rb.Empty() <==> rb.Contents() == []
  {
  }

  /** Dropping the first `k` elements of the contents, tail side. */
  lemma {:induction false} AdvanceTail<T>(rb: RingBuffer<T>, k: nat, ow: nat)
    requires rb.Valid() && k <= rb.UsedSpace() && (k > 0 || !rb.isFull) && ow < SizeMod
    ensures var r := RingBuffer(rb.buf, rb.head, (rb.tail + k) % |rb.buf|, ow, false);
            r.Valid() && r.UsedSpace() == rb.UsedSpace() - k && r.Contents() == rb.Contents()[k..]
  {
    var c := |rb.buf|;
    var u := rb.UsedSpace();
    var t2 := (rb.tail + k) % c;
    ModWrap(rb.tail + k, c);
    var r := RingBuffer(rb.buf, rb.head, t2, ow, false);
    assert r.UsedSpace() == u - k by {
      HeadAfterUsed(rb);
      SlotShift(c, rb.tail, k, u - k);
      UsedFromOffset(r, u - k);
    }
    forall i | 0 <= i < u - k
      ensures r.Contents()[i] == rb.Contents()[k..][i]
    {
      SlotShift(c, rb.tail, k, i);
    }
  }

  /** Dropping the last `k` elements of the contents, head side. */
  lemma {:induction false} RetractHead<T>(rb: RingBuffer<T>, k: nat, ow: nat)
    requires rb.Valid() && k <= rb.UsedSpace() && (k > 0 || !rb.isFull) && ow < SizeMod
    ensures var c := |rb.buf|;
            var r := RingBuffer(rb.buf, (rb.head + c - k % c) % c, rb.tail, ow, false);
            r.Valid() && r.Contents() == rb.Contents()[..rb.UsedSpace() - k]
  {
    var c := |rb.buf|;
    var u := rb.UsedSpace();
    var r := RingBuffer(rb.buf, (rb.head + c - k % c) % c, rb.tail, ow, false);
    HeadAfterUsed(rb);
    ModWrap(k, c);
    ModWrap(rb.head + c - k % c, c);
    ModWrap(rb.tail + u, c);
    ModWrap(rb.tail + (u - k), c);
    UsedFromOffset(r, u - k);
    forall i | 0 <= i < u - k
      ensures r.Contents()[i] == rb.Contents()[..u - k][i]
    {
    }
  }

  /** `drop_first(n)` removes the `min(n, used)` oldest elements; the overrun count never grows. */
  lemma DropFirstRemovesOldest<T>(rb: RingBuffer<T>, n: nat)
    requires rb.Valid() && n < SizeMod
    ensures var (r, k) := rb.DropFirst(n);
            && r.Contents() == rb.Contents()[k..]
            && r.overwritten <= rb.overwritten
            && (k == 0 ==> r == rb)
  {
    var k := Min(rb.UsedSpace(), n);
    if k > 0 {
      AdvanceTail(rb, k, rb.overwritten);
    }
  }

  /** `drop_last(n)` removes the `min(n, used)` newest elements; the overrun count
      goes down by as many, stopping at zero. */
  lemma DropLastRemovesNewest<T>(rb: RingBuffer<T>, n: nat)
    requires rb.Valid() && n < SizeMod
    ensures var (r, k) := rb.DropLast(n);
            && r.Contents() == rb.Contents()[..rb.UsedSpace() - k]
            && r.overwritten == Max(0, rb.overwritten - k)
            && (k == 0 ==> r == rb)
  {
    var k := Min(rb.UsedSpace(), n);
    if k > 0 {
      RetractHead(rb, k, rb.overwritten - Min(rb.overwritten, k));
    }
  }

  /** `clear()` leaves an empty buffer. */
  lemma ClearEmpties<T>(rb: RingBuffer<T>)
    requires rb.Valid()
    ensures rb.Clear().Contents() == [] && rb.Clear().Empty()
    ensures rb.Clear().buf == rb.buf
  {
    RetractHead(rb, rb.UsedSpace(), rb.Clear().overwritten);
  }

  /** The code as written agrees with the corrected drops whenever something is
      dropped or the buffer is not full. */
  lemma AsWrittenDropsAgree<T>(rb: RingBuffer<T>, n: nat)
    requires rb.Valid() && n < SizeMod && (Min(n, rb.UsedSpace()) > 0 || !rb.isFull)
    ensures rb.DropFirstAsWritten(n).0.Contents() == rb.DropFirst(n).0.Contents()
    ensures rb.DropLastAsWritten(n).0.Contents() == rb.DropLast(n).0.Contents()
  {
    var k := Min(n, rb.UsedSpace());
    if k == 0 {
      AdvanceTail(rb, 0, rb.DropFirstAsWritten(n).0.overwritten);
      RetractHead(rb, 0, rb.DropLastAsWritten(n).0.overwritten);
    } else {
      SameSlotsSameContents(rb.DropFirstAsWritten(n).0, rb.DropFirst(n).0);
      SameSlotsSameContents(rb.DropLastAsWritten(n).0, rb.DropLast(n).0);
    }
  }

  /** `drop_last(n)` as written removes the `min(n, used)` newest elements, except
      that dropping nothing from a full buffer empties it. */
  lemma DropLastAsWrittenRemoves<T>(rb: RingBuffer<T>, n: nat)
    requires rb.Valid() && n < SizeMod
    ensures var (r, k) := rb.DropLastAsWritten(n);
            && (k > 0 || !rb.isFull ==> r.Contents() == rb.Contents()[..rb.UsedSpace() - k])
            && (k == 0 && rb.isFull ==> r.Contents() == [])
  {
    var r := rb.DropLastAsWritten(n).0;
    var k := Min(n, rb.UsedSpace());
    if k > 0 || !rb.isFull {
      RetractHead(rb, k, r.overwritten);
      assert r == RingBuffer(rb.buf, (rb.head + |rb.buf| - k % |rb.buf|) % |rb.buf|, rb.tail, r.overwritten, false);
    } else {
      ModWrap(0, |rb.buf|);
      ModWrap(rb.head + |rb.buf|, |rb.buf|);
      assert r.head == r.tail && !r.isFull;
    }
  }

  /** The contents depend on the array and the positions only, not on the overrun count. */
  lemma SameSlotsSameContents<T>(a: RingBuffer<T>, b: RingBuffer<T>)
    requires a.Valid() && b.Valid()
    requires a.buf == b.buf && a.head == b.head && a.tail == b.tail && a.isFull == b.isFull
    ensures a.Contents() == b.Contents()
  {
  }

  /** On a full buffer `drop_first(0)` and `drop_last(0)` report that nothing was
      dropped, yet the buffer comes back empty. */
  lemma DropZeroEmptiesFullBuffer()
    ensures var rb := RingBuffer([7, 8], 0, 0, 0, true);
            && rb.Valid() && rb.Contents() == [7, 8]
            && rb.DropFirstAsWritten(0) == (RingBuffer([7, 8], 0, 0, 0, false), 0)
            && rb.DropLastAsWritten(0) == (RingBuffer([7, 8], 0, 0, 0, false), 0)
            && rb.DropFirstAsWritten(0).0.Contents() == []
            && rb.DropLast(0) == (rb, 0)
  {
    var rb := RingBuffer([7, 8], 0, 0, 0, true);
    ModWrap(0, 2);
    ModWrap(1, 2);
    assert rb.Slot(0) == 0 && rb.Slot(1) == 1;
  }

  /** `drop_last(1)` right after a push with no overrun wraps the overrun count to 2^64 - 1. */
  lemma DropLastWrapsOverrun()
    ensures var rb := RingBuffer([7, 8, 9], 1, 0, 0, false);
            && rb.Valid() && rb.Contents() == [7]
            && rb.DropLastAsWritten(1).0.overwritten == SizeMod - 1
            && rb.Clear().overwritten == SizeMod - 1
            && rb.DropLast(1).0.overwritten == 0
  {
    var rb := RingBuffer([7, 8, 9], 1, 0, 0, false);
    ModWrap(0, 3);
    assert rb.Slot(0) == 0;
  }
}

=== FILE: rwbuffer.dfy ===
/** `spn::structure::RWBuffer<T, Size>`: a linear buffer that is written at `tail`
    and read at `head`; the pending data is moved back to the front when a write
    needs the room. `Size` is `uint16_t` by default. */
module RW {
  import opened CInt
  import opened Seqs

  const SizeLimit: nat := 0x1_0000

  datatype RWBuffer<T> = RWBuffer(buf: seq<T>, head: nat, tail: nat)
  {
    predicate Valid() {
      head <= tail <= |buf| < SizeLimit
    }

    /** The data written and not yet read, oldest first. */
    function Pending(): (s: seq<T>)
      requires Valid()
      ensures |s| == AvailableToRead()
    {
      buf[head..tail]
    }

    /** `available_to_read()`: the pending data runs from the read position and
        fits the `Size` type. */
    function AvailableToRead(): (n: nat)
      requires Valid()
      ensures head + n <= |buf| && n < SizeLimit
    {
      tail - head
    }

    /** `available_to_write()`: the room after the pending data; the consumed
        prefix, the pending data and this room make up the whole buffer. */
    function AvailableToWrite(): (n: nat)
      requires Valid()
      ensures head + |Pending()| + n == |buf|
    {
      |buf| - tail
    }

    /** `read(buffer, length)`: copies out up to `length` pending elements; a drained
        buffer starts over at position 0. */
    function Read(length: nat): (r: (RWBuffer<T>, seq<T>))
      requires Valid() && length < SizeLimit
      ensures r.0.Valid() && |r.0.buf| == |buf|
      ensures |r.1| == Min(length, AvailableToRead())
    {
      var n := Min(length, AvailableToRead());
      var out := buf[head..head + n];
      if head + n == tail then (RWBuffer(buf, 0, 0), out)
      else (RWBuffer(buf, head + n, tail), out)
    }

    /** `read()`: one element. */
    function ReadOne(): (r: (RWBuffer<T>, T))
      requires Valid() && AvailableToRead() > 0
      ensures r.0.Valid() && |r.0.buf| == |buf|
      ensures [r.1] == Pending()[..1] && r.0.Pending() == Pending()[1..]
    {
      var h := head + 1;
      if h == tail then (RWBuffer(buf, 0, 0), buf[head]) else (RWBuffer(buf, h, tail), buf[head])
    }

    /** Moves the pending data to the front of the array. */
    function Compact(): (r: RWBuffer<T>)
      requires Valid()
      ensures r.Valid() && |r.buf| == |buf| && r.head == 0
      ensures r.Pending() == Pending()
    {
      var n := AvailableToRead();
      RWBuffer(buf[head..tail] + buf[n..], 0, n)
    }

    /** Appends as much of `data` as fits behind `tail`. */
    function Append(data: seq<T>): (r: (RWBuffer<T>, nat))
      requires Valid()
      ensures r.0.Valid() && |r.0.buf| == |buf|
      ensures r.1 == Min(|data|, AvailableToWrite())
      ensures r.0.Pending() == Pending() + data[..(r.1)]
    {
      var n := Min(|data|, AvailableToWrite());
      var b := buf[..tail] + data[..n] + buf[tail + n..];
      assert b[head..tail + n] == buf[head..tail] + data[..n];
      (RWBuffer(b, head, tail + n), n)
    }

    /** `write(buffer, length)` as written: compacts only when the data does not fit
        behind `tail` and is strictly shorter than the room compaction would make. */
    function WriteAsWritten(data: seq<T>): (r: (RWBuffer<T>, nat))
      requires Valid() && |data| < SizeLimit
      ensures r.0.Valid() && |r.0.buf| == |buf| && r.1 <= |data|
      ensures r.0.Pending() == Pending() + data[..(r.1)]
    {
      var len := |data|;
      var b := if len > AvailableToWrite() && len < |buf| - AvailableToRead() then Compact() else this;
      b.Append(data)
    }

    /** `write(buffer, length)` with the evident intent: data that fits once the
        pending elements are moved to the front is written whole. */
    function Write(data: seq<T>): (r: (RWBuffer<T>, nat))
      requires Valid() && |data| < SizeLimit
      ensures r.0.Valid() && |r.0.buf| == |buf| && r.1 <= |data|
      ensures r.0.Pending() == Pending() + data[..(r.1)]
    {
      var len := |data|;
      var b := if len > AvailableToWrite() && len <= |buf| - AvailableToRead() then Compact() else this;
      b.Append(data)
    }
  }

  /** `read` hands out the oldest pending elements and keeps the rest. */
  lemma ReadTakesOldest<T>(rb: RWBuffer<T>, length: nat)
    requires rb.Valid() && length < SizeLimit
    ensures var (r, out) := rb.Read(length);
            out == rb.Pending()[..|out|] && r.Pending() == rb.Pending()[|out|..]
  {
    var n := Min(length, rb.AvailableToRead());
    SubSlice(rb.buf, rb.head, rb.tail, n);
  }

  /** A write is taken whole exactly when it fits, counting the room that moving the
      pending data to the front frees; otherwise what fits behind `tail` is taken. */
  lemma WriteTakesWhatFits<T>(rb: RWBuffer<T>, data: seq<T>)
    requires rb.Valid() && |data| < SizeLimit
    ensures |data| <= |rb.buf| - rb.AvailableToRead() ==> rb.Write(data).1 == |data|
    ensures |data| > |rb.buf| - rb.AvailableToRead() ==> rb.Write(data).1 == rb.AvailableToWrite()
  {
  }

  /** Everything written comes back, in order, from a read of the whole buffer. */
  lemma WriteThenReadAll<T>(rb: RWBuffer<T>, data: seq<T>)
    requires rb.Valid() && |data| < SizeLimit
    ensures var (w, n) := rb.Write(data);
            w.Read(|w.buf|).1 == rb.Pending() + data[..n]
            && w.Read(|w.buf|).0.Pending() == []
  {
  }

  /** Four slots, one element pending at slot 1, three to write: they fit once the
      pending element moves to slot 0, yet the code writes only two. */
  lemma ExactFitNotCompacted()
    ensures var rb := RWBuffer([0, 5, 0, 0], 1, 2);
            && rb.Valid()
            && rb.WriteAsWritten([1, 2, 3]).1 == 2
            && rb.Write([1, 2, 3]).1 == 3
  {
  }
}

=== FILE: schedule.dfy ===
/**
 * `spn::structure::time::Schedule`: a day divided into blocks, each with a
 * start, a duration and a value. Times are whole seconds since midnight
 * (`k_time_s`); a block may run past midnight into the next morning.
 */
module Schedules {
  import opened Wrappers

  /** `k_time_h(24)` in seconds. */
  const Day: int := 24 * 3600

  /** `Schedule::Block`; the `double` value is an exact real here. */
  datatype Block = Block(start: int, duration: int, value: real)
  {
    function End(): int { start + duration }

    /**
     * The test of `value_at`: `t` lies in the block today, or the block runs
     * past midnight and `t` lies in the part that spills into the morning.
     */
    predicate Covers(t: int) {
      (start <= t < End()) || (End() > Day && t < End() - Day)
    }
  }

  datatype Schedule = Schedule(blocks: seq<Block>)

  /** The sum of the block durations. */
  function TotalDuration(blocks: seq<Block>): int
    decreases |blocks|
  {
    if |blocks| == 0 then 0 else blocks[0].duration + TotalDuration(blocks[1..])
  }

  /** The checks of the constructor: every duration is positive and together they fit in a day. */
  predicate WellFormed(blocks: seq<Block>) {
    (forall i :: 0 <= i < |blocks| ==> blocks[i].duration > 0) && TotalDuration(blocks) <= Day
  }

  /**
   * `Schedule(blocks)` built with `DEBUG_SPINE`: `None` where the assertions
   * reject the blocks by throwing.
   */
  function NewScheduleDebug(blocks: seq<Block>): (r: Option<Schedule>)
    ensures r.Some? <==> WellFormed(blocks)
    ensures r.Some? ==> r.value.blocks == blocks
  {
    if WellFormed(blocks) then Some(Schedule(blocks)) else None
  }

  /**
   * `Schedule(blocks)` in a release build: `spn_assert` expands to nothing, so
   * the blocks are kept whatever they are. It builds the schedule the debug
   * build builds whenever that one does not throw.
   */
  function NewSchedule(blocks: seq<Block>): (r: Schedule)
    ensures r.blocks == blocks
    ensures NewScheduleDebug(blocks).Some? ==> NewScheduleDebug(blocks).value == r
  {
    Schedule(blocks)
  }

  /** `value_at(t)`: the value of the first block, in list order, that covers `t`, and 0 when none does. */
  function ValueAt(blocks: seq<Block>, t: int): (r: real)
    ensures r == 0.0 || exists i :: 0 <= i < |blocks| && blocks[i].Covers(t) && blocks[i].value == r
    decreases |blocks|
  {
    if |blocks| == 0 then 0.0
    else if blocks[0].Covers(t) then blocks[0].value
    else ValueAt(blocks[1..], t)
  }

  /** `start_of_next_block(t)`: the start of the first block, in list order, that starts after `t`, and 24 h when none does. */
  function StartOfNextBlock(blocks: seq<Block>, t: int): (r: int)
    ensures r == Day || exists i :: 0 <= i < |blocks| && t < blocks[i].start == r
    decreases |blocks|
  {
    if |blocks| == 0 then Day
    else if t < blocks[0].start then blocks[0].start
    else StartOfNextBlock(blocks[1..], t)
  }

  /** `value_at` answers 0 exactly when no block covers `t`, and otherwise the value of the first block that does. */
  lemma {:induction false} ValueAtFirstCover(blocks: seq<Block>, t: int)
    ensures (forall i :: 0 <= i < |blocks| ==> !blocks[i].Covers(t)) ==> ValueAt(blocks, t) == 0.0
    ensures forall i :: 0 <= i < |blocks| && blocks[i].Covers(t) && (forall j :: 0 <= j < i ==> !blocks[j].Covers(t)) ==>
              ValueAt(blocks, t) == blocks[i].value
    decreases |blocks|
  {
    if |blocks| > 0 && !blocks[0].Covers(t) {
      ValueAtFirstCover(blocks[1..], t);
      assert forall i :: 1 <= i < |blocks| ==> blocks[1..][i - 1] == blocks[i];
    }
  }

  /** `start_of_next_block` is 24 h exactly when no block starts after `t`, and otherwise the start of the first block that does. */
  lemma {:induction false} NextBlockFirstStart(blocks: seq<Block>, t: int)
    ensures (forall i :: 0 <= i < |blocks| ==> blocks[i].start <= t) ==> StartOfNextBlock(blocks, t) == Day
    ensures forall i :: 0 <= i < |blocks| && t < blocks[i].start && (forall j :: 0 <= j < i ==> blocks[j].start <= t) ==>
              StartOfNextBlock(blocks, t) == blocks[i].start
    decreases |blocks|
  {
    if |blocks| > 0 && t >= blocks[0].start {
      NextBlockFirstStart(blocks[1..], t);
      assert forall i :: 1 <= i < |blocks| ==> blocks[1..][i - 1] == blocks[i];
    }
  }

  /** No moment is covered by two blocks. */
  ghost predicate Disjoint(blocks: seq<Block>) {
    forall i, j, t :: 0 <= i < j < |blocks| && blocks[i].Covers(t) ==> !blocks[j].Covers(t)
  }

  /** Blocks listed in order of their start. */
  predicate SortedByStart(blocks: seq<Block>) {
    forall i, j :: 0 <= i < j < |blocks| ==> blocks[i].start <= blocks[j].start
  }

  /** When blocks do not overlap, the list order does not matter: a moment inside a block gets that block's value. */
  lemma ValueAtInsideBlock(blocks: seq<Block>, i: nat, t: int)
    requires Disjoint(blocks) && i < |blocks| && blocks[i].Covers(t)
    ensures ValueAt(blocks, t) == blocks[i].value
  {
    ValueAtFirstCover(blocks, t);
    assert forall j :: 0 <= j < i ==> !blocks[j].Covers(t);
  }

  /**
   * For blocks sorted by start, the next start is the earliest start after
   * `t`: it is later than `t`, or 24 h, and no block starts after `t` but
   * before it.
   */
  lemma {:induction false} NextBlockIsEarliest(blocks: seq<Block>, t: int)
    requires SortedByStart(blocks)
    ensures var r := StartOfNextBlock(blocks, t);
            (r == Day || t < r) && forall i :: 0 <= i < |blocks| && t < blocks[i].start ==> r <= blocks[i].start
    decreases |blocks|
  {
    if |blocks| > 0 && t >= blocks[0].start {
      var rest := blocks[1..];
      assert SortedByStart(rest) by {
        forall i, j | 0 <= i < j < |rest|
          ensures rest[i].start <= rest[j].start
        {
          assert rest[i] == blocks[i + 1] && rest[j] == blocks[j + 1];
        }
      }
      NextBlockIsEarliest(rest, t);
      forall i | 1 <= i < |blocks| && t < blocks[i].start
        ensures StartOfNextBlock(blocks, t) <= blocks[i].start
      {
        assert blocks[i] == rest[i - 1];
      }
    }
  }

  /** A block that ends after midnight also covers the early morning, up to its end minus 24 h. */
  lemma CoversAfterMidnight(b: Block, t: int)
    requires b.End() > Day && 0 <= t < b.End() - Day
    ensures b.Covers(t)
  {
  }

  /** Over three blocks, both lookups at `t` are a chain of tests in list order. */
  lemma ThreeBlocksAt(b0: Block, b1: Block, b2: Block, t: int)
    ensures ValueAt([b0, b1, b2], t) ==
              if b0.Covers(t) then b0.value else if b1.Covers(t) then b1.value else if b2.Covers(t) then b2.value else 0.0
    ensures StartOfNextBlock([b0, b1, b2], t) ==
              if t < b0.start then b0.start else if t < b1.start then b1.start else if t < b2.start then b2.start else Day
    ensures TotalDuration([b0, b1, b2]) == b0.duration + b1.duration + b2.duration
  {
    var s := [b0, b1, b2];
    assert s[1..] == [b1, b2] && s[1..][1..] == [b2] && s[1..][1..][1..] == [];
    assert ValueAt([b2], t) == if b2.Covers(t) then b2.value else 0.0;
    assert ValueAt([b1, b2], t) == if b1.Covers(t) then b1.value else ValueAt([b2], t);
    assert ValueAt(s, t) == if b0.Covers(t) then b0.value else ValueAt([b1, b2], t);
    assert StartOfNextBlock([b2], t) == if t < b2.start then b2.start else Day;
    assert StartOfNextBlock([b1, b2], t) == if t < b1.start then b1.start else StartOfNextBlock([b2], t);
    assert StartOfNextBlock(s, t) == if t < b0.start then b0.start else StartOfNextBlock([b1, b2], t);
    assert TotalDuration([b2]) == b2.duration + TotalDuration([]);
  }

  /**
   * Three blocks of 3 h from 1 h, 4 h and 7 h with values `a`, `b`, `c`:
   * probing one second before and after the start of each block, and one
   * second before and after its end.
   */
  lemma ThreeBlockDay(a: real, b: real, c: real)
    ensures var blocks := [Block(3600, 10800, a), Block(14400, 10800, b), Block(25200, 10800, c)];
            && NewScheduleDebug(blocks).Some?
            && StartOfNextBlock(blocks, 3599) == 3600 && ValueAt(blocks, 3599) == 0.0
            && StartOfNextBlock(blocks, 3601) == 14400 && ValueAt(blocks, 3601) == a
            && StartOfNextBlock(blocks, 14399) == 14400 && ValueAt(blocks, 14399) == a
            && StartOfNextBlock(blocks, 14401) == 25200 && ValueAt(blocks, 14401) == b
            && StartOfNextBlock(blocks, 25199) == 25200 && ValueAt(blocks, 25199) == b
            && StartOfNextBlock(blocks, 25201) == Day && ValueAt(blocks, 25201) == c
            && StartOfNextBlock(blocks, 35999) == Day && ValueAt(blocks, 35999) == c
            && StartOfNextBlock(blocks, 36001) == Day && ValueAt(blocks, 36001) == 0.0
  {
    var b0, b1, b2 := Block(3600, 10800, a), Block(14400, 10800, b), Block(25200, 10800, c);
    var blocks := [b0, b1, b2];
    ThreeBlocksAt(b0, b1, b2, 3599);
    ThreeBlocksAt(b0, b1, b2, 3601);
    ThreeBlocksAt(b0, b1, b2, 14399);
    ThreeBlocksAt(b0, b1, b2, 14401);
    ThreeBlocksAt(b0, b1, b2, 25199);
    ThreeBlocksAt(b0, b1, b2, 25201);
    ThreeBlocksAt(b0, b1, b2, 35999);
    ThreeBlocksAt(b0, b1, b2, 36001);
  }
}

=== FILE: seqs.dfy ===
/** Facts about slices of sequences that the buffer proofs share. */
module Seqs {

  /** Moving the first element of `all` onto `out`, then `n` more, is moving `n + 1`. */
  lemma SplitFirst<T>(out: seq<T>, all: seq<T>, n: nat)
    requires n < |all|
    ensures all[..n + 1] == [all[0]] + all[1..][..n]
    ensures out + all[..n + 1] == (out + [all[0]]) + all[1..][..n]
    ensures all[n + 1..] == all[1..][n..]
  {
    assert all[..n + 1] == [all[0]] + all[1..][..n];
  }

  /** The first `n` and the rest of a slice `s[a..b]` are slices of `s`. */
  lemma SubSlice<T>(s: seq<T>, a: nat, b: nat, n: nat)
    requires a <= b <= |s| && n <= b - a
    ensures s[a..b][..n] == s[a..a + n]
    ensures s[a..b][n..] == s[a + n..b]
  {
  }

  /** Opening a gap at `p` inside the window `[h, t)` and writing `x` there inserts `x`
      into the window's contents at offset `p - h`. */
  lemma InsertIntoWindow<T>(s: seq<T>, h: nat, p: nat, t: nat, x: T)
    requires h <= p <= t < |s|
    ensures (s[..p] + [x] + s[p..t] + s[t + 1..])[h..t + 1] == s[h..t][..p - h] + [x] + s[h..t][p - h..]
  {
    var a := s[..p] + [x] + s[p..t] + s[t + 1..];
    assert a[h..t + 1] == s[h..p] + [x] + s[p..t];
    SubSlice(s, h, t, p - h);
  }

  /** A sequence is what comes before position `k`, the element at `k`, and what follows. */
  lemma SplitAt<T>(s: seq<T>, k: nat)
    requires k < |s|
    ensures s == s[..k] + [s[k]] + s[k + 1..]
  {
  }

  /** The parts of `a + [x] + b` are found again at their positions. */
  lemma ConcatParts<T>(a: seq<T>, x: T, b: seq<T>)
    ensures var s := a + [x] + b;
            && s[..|a|] == a && s[|a|] == x && s[|a| + 1..] == b
            && forall j :: 0 <= j < |a| ==> s[j] == a[j]
  {
    var s := a + [x] + b;
    assert s[..|a|] == a;
    assert s[|a| + 1..] == b;
  }

  lemma ConsHeadTail<T>(s: seq<T>)
    requires |s| > 0
    ensures s == [s[0]] + s[1..]
  {
  }
}

=== FILE: sr_latch.dfy ===
/**
 * `spn::controller::SRLatch`: a set-reset latch with hysteresis. A reading
 * above `high` switches it on, one below `low` switches it off, and the time
 * spent in either state can be bounded from below and from above. The clock
 * reading is the explicit argument `now`, in milliseconds; readings are exact
 * reals.
 */
module Latches {
  import opened Wrappers
  import opened Timers

  /** `SRLatch::Config`; a maximal time of 0 means no maximum. */
  datatype Config = Config(high: real, low: real, minOn: int, maxOn: int, minOff: int, maxOff: int)

  /** The state of the latch: on or off, and when it was last switched. */
  datatype Latch = Latch(cfg: Config, on: bool, lastTurned: Timer)
  {
    /** `_last_turned.time_since_last(NoReset)`. */
    function Elapsed(now: int): (r: int)
      ensures lastTurned.last + r == now
    {
      TimeSinceLast(lastTurned, now, false).1
    }

    /** The reading is ignored: the latch has not yet been in its state for the minimal time. */
    predicate Held(now: int) {
      if on then Elapsed(now) < cfg.minOn else Elapsed(now) < cfg.minOff
    }

    /** The latch has been on for longer than the maximal on time, when there is one. */
    predicate OverMaxOn(now: int) {
      cfg.maxOn != 0 && on && Elapsed(now) > cfg.maxOn
    }

    /** The latch has been off for longer than the maximal off time, when there is one. */
    predicate OverMaxOff(now: int) {
      cfg.maxOff != 0 && !on && Elapsed(now) > cfg.maxOff
    }
  }

  /** The constructor: off, and counted as off for exactly the minimal off time already. */
  function NewLatch(cfg: Config, now: int): (r: Latch)
    ensures !r.on && r.cfg == cfg
    ensures r.Elapsed(now) == cfg.minOff
  {
    Latch(cfg, false, Timer(now - cfg.minOff))
  }

  /** `response()`: whether the latch is on. */
  function Response(l: Latch): (r: bool)
    ensures r <==> l.on
  {
    l.on
  }

  /** `set(state)` as written: the state is stored and the timer restarts, even when the state does not change. */
  function SetAsWritten(l: Latch, on: bool, now: int): (r: Latch)
    ensures r.on == on && r.cfg == l.cfg && r.Elapsed(now) == 0
  {
    l.(on := on, lastTurned := TimeSinceLast(l.lastTurned, now, true).0)
  }

  /** `set(state)` as intended: the timer restarts only when the latch actually switches. */
  function Set(l: Latch, on: bool, now: int): (r: Latch)
    ensures r.on == on && r.cfg == l.cfg
    ensures r.lastTurned == if on == l.on then l.lastTurned else Timer(now)
  {
    if on == l.on then l else SetAsWritten(l, on, now)
  }

  /**
   * The decision of `new_reading(value)`: `None` leaves the latch alone,
   * `Some(s)` sets it to `s`. Minimal times come first, then maximal times,
   * then the two thresholds.
   */
  function Decide(l: Latch, value: real, now: int): (r: Option<bool>)
    ensures l.Held(now) ==> r.None?
    ensures !l.Held(now) && l.OverMaxOn(now) ==> r == Some(false)
    ensures !l.Held(now) && l.OverMaxOff(now) ==> r == Some(true)
  {
    if l.Held(now) then None
    else if l.OverMaxOn(now) then Some(false)
    else if l.OverMaxOff(now) then Some(true)
    else if value > l.cfg.high then Some(true)
    else if value < l.cfg.low then Some(false)
    else None
  }

  /** `new_reading(value)` as written, restarting the timer on every set. */
  function NewReadingAsWritten(l: Latch, value: real, now: int): (r: Latch)
    ensures r.cfg == l.cfg
  {
    match Decide(l, value, now)
    case None => l
    case Some(s) => SetAsWritten(l, s, now)
  }

  /** `new_reading(value)` with the intended `set`, so that the timer measures the time since the last switch. */
  function NewReading(l: Latch, value: real, now: int): (r: Latch)
    ensures r.cfg == l.cfg
    ensures r.on == l.on ==> r.lastTurned == l.lastTurned
    ensures r.on != l.on ==> r.Elapsed(now) == 0
  {
    match Decide(l, value, now)
    case None => l
    case Some(s) => Set(l, s, now)
  }

  /** Both readings of `set` leave the latch in the same state after any one reading; only the timer differs. */
  lemma SameStateEitherWay(l: Latch, value: real, now: int)
    ensures NewReadingAsWritten(l, value, now).on == NewReading(l, value, now).on
  {
  }

  /** Before the minimal time in its state has passed, a reading changes nothing at all. */
  lemma MinimalTimeHolds(l: Latch, value: real, now: int)
    requires l.Held(now)
    ensures NewReading(l, value, now) == l && NewReadingAsWritten(l, value, now) == l
  {
  }

  /**
   * Once the minimal time has passed, a reading switches the latch on exactly
   * when it is above `high` or the maximal off time has run out, unless the
   * maximal on time has run out, which switches it off whatever the reading.
   */
  lemma ThresholdsDecide(l: Latch, value: real, now: int)
    requires !l.Held(now)
    ensures l.OverMaxOn(now) ==> !NewReading(l, value, now).on
    ensures !l.OverMaxOn(now) ==>
              (NewReading(l, value, now).on <==>
                 l.OverMaxOff(now) || value > l.cfg.high || (l.on && value >= l.cfg.low))
  {
  }

  /** A reading inside the band `[low, high]` moves the latch only when a maximal time has run out. */
  lemma BandKeepsState(l: Latch, value: real, now: int)
    requires l.cfg.low <= value <= l.cfg.high
    requires !l.OverMaxOn(now) && !l.OverMaxOff(now)
    ensures NewReading(l, value, now) == l
  {
  }

  /** A higher reading never leaves the latch off where a lower one would have left it on. */
  lemma HigherReadingNoLessOn(l: Latch, v1: real, v2: real, now: int)
    requires v1 <= v2
    ensures NewReading(l, v1, now).on ==> NewReading(l, v2, now).on
  {
  }

  /** A new latch, with a non-negative minimal off time, switches on at the first reading above `high`. */
  lemma FreshLatchSwitchesOn(cfg: Config, value: real, now: int)
    requires cfg.minOff >= 0 && value > cfg.high
    ensures NewReading(NewLatch(cfg, now), value, now).on
    ensures Response(NewReadingAsWritten(NewLatch(cfg, now), value, now))
  {
  }

  /**
   * A latch on since `l.lastTurned`, fed readings above `high` at `t1` and
   * `t2`, each within the maximal on time of the one before but `t2` past it
   * counted from the switch (maximal on time 1000 ms, readings 600 ms and
   * 1200 ms after switching on): as written, the reading at `t1` restarts the
   * timer and the latch is still on at `t2`; with the intended `set` it
   * switches off at `t2`.
   */
  lemma MaxOnTimeSkippedAsWritten(l: Latch, v: real, t1: int, t2: int)
    requires l.on && l.cfg.maxOn != 0 && v > l.cfg.high
    requires l.cfg.minOn <= l.Elapsed(t1) <= l.cfg.maxOn
    requires l.cfg.minOn <= t2 - t1 <= l.cfg.maxOn
    requires l.Elapsed(t2) > l.cfg.maxOn
    ensures NewReadingAsWritten(NewReadingAsWritten(l, v, t1), v, t2).on
    ensures !NewReading(NewReading(l, v, t1), v, t2).on
  {
    var w := NewReadingAsWritten(l, v, t1);
    assert w.Elapsed(t2) == t2 - t1;
  }

  /**
   * With the intended `set`, a latch that has been on for longer than the
   * maximal on time, and at least the minimal on time, switches off at the
   * next reading, whatever that reading is.
   */
  lemma OnTimeBounded(l: Latch, value: real, now: int)
    requires l.on && l.cfg.maxOn != 0
    requires l.Elapsed(now) > l.cfg.maxOn && l.Elapsed(now) >= l.cfg.minOn
    ensures !NewReading(l, value, now).on && NewReading(l, value, now).Elapsed(now) == 0
  {
  }
}

=== FILE: static_string.dfy ===
/**
 * `StaticString`: a `std::string` that is never allowed to grow past the
 * capacity it was given at construction.
 */
module FixedString {
  import opened Wrappers
  import opened CInt
  import Strings

  /**
   * `buffer` is the string's current contents. `capacity` is the
   * `std::string` capacity, which may round the requested length up.
   */
  datatype StaticString = StaticString(buffer: string, capacity: nat) {
    predicate Valid() { |buffer| <= capacity }

    /** `size()`: never beyond the capacity. */
    function Size(): (n: nat)
      ensures Valid() ==> n <= capacity
    {
      |buffer|
    }

    /**
     * `set_size`: resize to `min(n, capacity)`. The debug-only assertion
     * `n <= capacity` is not a precondition, since the clamp handles it.
     * Growing pads with NUL chars.
     */
    function SetSize(n: nat): (r: StaticString)
      requires Valid()
      ensures r.Valid() && r.capacity == capacity
      ensures r.Size() == Min(n, capacity)
      ensures forall i :: 0 <= i < Min(n, Size()) ==> r.buffer[i] == buffer[i]
      ensures forall i :: Size() <= i < r.Size() ==> r.buffer[i] == '\0'
    {
      var m := Min(n, capacity);
      if m <= |buffer| then StaticString(buffer[..m], capacity)
      else StaticString(buffer + seq(m - |buffer|, _ => '\0'), capacity)
    }

    /** `data(k)`: announces `k` bytes about to be written by resizing first, when `k > 0`. */
    function Data(expectedBytesWritten: nat): (r: StaticString)
      requires Valid()
      ensures r.Valid() && r.capacity == capacity
      ensures expectedBytesWritten == 0 ==> r == this
      ensures expectedBytesWritten > 0 ==> r.Size() == Min(expectedBytesWritten, capacity)
    {
      if expectedBytesWritten > 0 then SetSize(expectedBytesWritten) else this
    }

    /**
     * The forward scan of `lstrip` may read the terminating NUL, which stops
     * it unless NUL is itself a delimiter; past that the scan is undefined.
     */
    predicate LStripStops(delims: string) {
      '\0' !in delims || Strings.HasNonDelimiter(buffer, delims)
    }

    /** `lstrip`: moves the chars after the leading delimiter run to the front and shrinks the size. */
    function LStrip(delims: string): (r: StaticString)
      requires Valid() && LStripStops(delims)
      ensures r.Valid() && r.capacity == capacity
      ensures r.Size() <= Size() && buffer == buffer[..Size() - r.Size()] + r.buffer
      ensures forall i :: 0 <= i < Size() - r.Size() ==> buffer[i] in delims
      ensures r.Size() > 0 ==> r.buffer[0] !in delims
    {
      var len := Strings.LeadingRun(buffer + ['\0'], delims);
      assert forall i :: 0 <= i < |buffer| ==> (buffer + ['\0'])[i] == buffer[i];
      assert len <= |buffer| by {
        if Strings.HasNonDelimiter(buffer, delims) {
          var j :| 0 <= j < |buffer| && buffer[j] !in delims;
          assert (buffer + ['\0'])[j] !in delims;
        } else {
          assert (buffer + ['\0'])[|buffer|] !in delims;
        }
      }
      assert buffer == buffer[..len] + buffer[len..];
      StaticString(buffer[len..], capacity)
    }

    /**
     * `rstrip`: shrinks the size by the trailing delimiter run. The backward
     * scan has no terminator to stop at, so some char must not be a delimiter.
     */
    function RStrip(delims: string): (r: StaticString)
      requires Valid() && Strings.HasNonDelimiter(buffer, delims)
      ensures r.Valid() && r.capacity == capacity
      ensures r.Size() <= Size() && buffer == r.buffer + buffer[r.Size()..]
      ensures forall i :: r.Size() <= i < Size() ==> buffer[i] in delims
      ensures r.Size() > 0 && r.buffer[r.Size() - 1] !in delims
    {
      var len := Strings.TrailingRun(buffer, delims);
      SetSize(|buffer| - len)
    }

    function StartsWith(needle: string): (r: bool)
      ensures r <==> |needle| <= Size() && buffer[..|needle|] == needle
    {
      Strings.StartsWith(buffer, needle)
    }

    /** `ends_with`: throws `std::out_of_range` (`None`) when the needle is longer than the string. */
    function EndsWith(needle: string): (r: Option<bool>)
      ensures r.Some? <==> |needle| <= Size()
      ensures r == Some(true) <==> |needle| <= Size() && buffer[Size() - |needle|..] == needle
    {
      Strings.EndsWith(buffer, needle)
    }
  }

  /**
   * The constructor: a string of `bufferLength` NULs whose size is then set to
   * the full capacity the allocator chose, `capacity >= bufferLength`.
   */
  function New(bufferLength: nat, capacity: nat): (r: StaticString)
    requires bufferLength <= capacity
    ensures r.Valid() && r.capacity == capacity && r.Size() == capacity
    ensures forall i :: 0 <= i < r.Size() ==> r.buffer[i] == '\0'
  {
    StaticString(seq(bufferLength, _ => '\0'), capacity).SetSize(capacity)
  }

  /** Shrinking and then restoring the size keeps the prefix and pads the rest with NULs. */
  lemma SetSizeKeepsPrefix(s: StaticString, n: nat)
    requires s.Valid() && n <= s.Size()
    ensures s.SetSize(n).SetSize(s.Size()).buffer == s.buffer[..n] + seq(s.Size() - n, _ => '\0')
  {
    var t := s.SetSize(n).SetSize(s.Size());
    var e := s.buffer[..n] + seq(s.Size() - n, _ => '\0');
    assert forall i :: 0 <= i < |t.buffer| ==> t.buffer[i] == e[i];
  }

  /** On a string with a non-delimiter char, the member `lstrip` agrees with the free function. */
  lemma LStripMatchesUtils(s: StaticString, delims: string)
    requires s.Valid() && Strings.HasNonDelimiter(s.buffer, delims)
    ensures s.LStrip(delims).buffer == Strings.LStrip(s.buffer, delims)
  {
    var a := s.LStrip(delims).buffer;
    var b := Strings.LStrip(s.buffer, delims);
    // both remove a delimiter run and start at a non-delimiter
    if |a| > 0 {
      assert s.buffer[|s.buffer| - |a|] == a[0];
    }
    assert s.buffer[|s.buffer| - |b|] == b[0];
  }

  /** The member `rstrip` removes the trailing delimiters, as the free `rstrip` was meant to. */
  lemma RStripMatchesIntended(s: StaticString, delims: string)
    requires s.Valid() && Strings.HasNonDelimiter(s.buffer, delims)
    ensures s.RStrip(delims).buffer == Strings.RStrip(s.buffer, delims)
  {
  }

  /** With the default delimiters, `lstrip` of a fresh, all-NUL string removes nothing. */
  lemma FreshStringDoesNotStrip(bufferLength: nat, capacity: nat)
    requires bufferLength <= capacity
    ensures New(bufferLength, capacity).LStripStops(Strings.Whitespace)
    ensures New(bufferLength, capacity).LStrip(Strings.Whitespace) == New(bufferLength, capacity)
  {
    var s := New(bufferLength, capacity);
    assert '\0' !in Strings.Whitespace;
    if |s.buffer| > 0 {
      assert s.buffer[0] !in Strings.Whitespace;
    }
  }
}

=== FILE: strings.dfy ===
/** String helpers of `spn::core::utils`: strip, prefix/suffix tests and find-first-of. */
module Strings {
  import opened Wrappers
  import opened CInt

  /** The default delimiter set: space, form feed, newline, carriage return, tab, vertical tab. */
  const Whitespace: string := [' ', '\U{000C}', '\n', '\r', '\t', '\U{000B}']

  /** `std::string::npos`, the largest `size_t`. */
  const Npos: nat := SizeMod - 1

  /** The strip loops have no end check: some char must stop them. */
  predicate HasNonDelimiter(s: string, delims: string) {
    exists i :: 0 <= i < |s| && s[i] !in delims
  }

  /** Length of the maximal run of delimiter chars at the front of `s`. */
  function LeadingRun(s: string, delims: string): (k: nat)
    ensures k <= |s|
    ensures forall i :: 0 <= i < k ==> s[i] in delims
    ensures k < |s| ==> s[k] !in delims
    ensures k == |s| <==> !HasNonDelimiter(s, delims)
  {
    if |s| == 0 || s[0] !in delims then 0
    else
      var k' := LeadingRun(s[1..], delims);
      assert forall i :: 1 <= i < |s| ==> s[i] == s[1..][i - 1];
      1 + k'
  }

  /** Length of the maximal run of delimiter chars at the back of `s`. */
  function TrailingRun(s: string, delims: string): (k: nat)
    ensures k <= |s|
    ensures forall i :: |s| - k <= i < |s| ==> s[i] in delims
    ensures k < |s| ==> s[|s| - k - 1] !in delims
    ensures k == |s| <==> !HasNonDelimiter(s, delims)
  {
    if |s| == 0 || s[|s| - 1] !in delims then 0
    else
      var k' := TrailingRun(s[..|s| - 1], delims);
      assert forall i :: 0 <= i < |s| - 1 ==> s[i] == s[..|s| - 1][i];
      1 + k'
  }

  /** `lstrip`: the input without its leading delimiter run. */
  function LStrip(s: string, delims: string): (r: string)
    requires HasNonDelimiter(s, delims)
    ensures 0 < |r| <= |s| && r[0] !in delims
    ensures s == s[..|s| - |r|] + r
    ensures forall i :: 0 <= i < |s| - |r| ==> s[i] in delims
  {
    var k := LeadingRun(s, delims);
    assert s == s[..k] + s[k..];
    s[k..]
  }

  /**
   * `rstrip` as the code computes it: the trailing run `k` is counted from
   * the back, but the view returned starts `k` chars into the input and keeps
   * `size - k` chars, so it drops a prefix instead of the trailing run.
   */
  function RStripAsWritten(s: string, delims: string): (r: string)
    requires HasNonDelimiter(s, delims)
    ensures |r| == |s| - TrailingRun(s, delims)
    ensures s == s[..|s| - |r|] + r
  {
    var k := TrailingRun(s, delims);
    assert s == s[..k] + s[k..];
    s[k..]
  }

  /** `rstrip` as its documentation describes it: the input without its trailing delimiter run. */
  function RStrip(s: string, delims: string): (r: string)
    requires HasNonDelimiter(s, delims)
    ensures 0 < |r| <= |s| && r[|r| - 1] !in delims
    ensures s == r + s[|r|..]
    ensures forall i :: |r| <= i < |s| ==> s[i] in delims
  {
    var k := TrailingRun(s, delims);
    assert s == s[..|s| - k] + s[|s| - k..];
    s[..|s| - k]
  }

  /**
   * `starts_with`: compares the first `min(|needle|, |s|)` chars of `s` with
   * the whole needle, as `std::string_view::compare(0, n, needle)` does.
   */
  function StartsWith(s: string, needle: string): (r: bool)
    ensures r <==> |needle| <= |s| && forall i :: 0 <= i < |needle| ==> s[i] == needle[i]
  {
    s[..Min(|needle|, |s|)] == needle
  }

  /**
   * `ends_with`: compares from position `|s| - |needle|`; when the needle is
   * longer, that `size_t` position wraps past the end and `compare` throws
   * `std::out_of_range`, modelled as `None`.
   */
  function EndsWith(s: string, needle: string): (r: Option<bool>)
    ensures r.Some? <==> |needle| <= |s|
    ensures r == Some(true) <==>
              |needle| <= |s| && forall i :: 0 <= i < |needle| ==> s[|s| - |needle| + i] == needle[i]
  {
    if |needle| > |s| then None
    else Some(s[|s| - |needle|..] == needle)
  }

  /** `find_first_of`: the least index whose char is a delimiter, or `Npos`. */
  method FindFirstOf(s: string, delims: string) returns (r: nat)
    requires |s| < Npos
    ensures r == Npos <==> forall i :: 0 <= i < |s| ==> s[i] !in delims
    ensures r != Npos ==> r < |s| && s[r] in delims && forall i :: 0 <= i < r ==> s[i] !in delims
  {
    var i := 0;
    while i < |s|
      invariant 0 <= i <= |s|
      invariant forall j :: 0 <= j < i ==> s[j] !in delims
    {
      if s[i] in delims {
        return i;
      }
      i := i + 1;
    }
    return Npos;
  }

  /** Stripping is idempotent on the left. */
  lemma LStripIdempotent(s: string, delims: string)
    requires HasNonDelimiter(s, delims)
    ensures HasNonDelimiter(LStrip(s, delims), delims)
    ensures LStrip(LStrip(s, delims), delims) == LStrip(s, delims)
  {
    var r := LStrip(s, delims);
    assert r[0] !in delims;
    assert LeadingRun(r, delims) == 0;
  }

  /** Stripping is idempotent on the right. */
  lemma RStripIdempotent(s: string, delims: string)
    requires HasNonDelimiter(s, delims)
    ensures HasNonDelimiter(RStrip(s, delims), delims)
    ensures RStrip(RStrip(s, delims), delims) == RStrip(s, delims)
  {
    var r := RStrip(s, delims);
    assert r[|r| - 1] !in delims;
    assert TrailingRun(r, delims) == 0;
  }

  function Reverse(s: string): (r: string)
    ensures |r| == |s| && forall i :: 0 <= i < |s| ==> r[i] == s[|s| - 1 - i]
  {
    seq(|s|, i requires 0 <= i < |s| => s[|s| - 1 - i])
  }

  /** The trailing run is the leading run of the reversed string. */
  lemma TrailingIsReversedLeading(s: string, delims: string)
    ensures TrailingRun(s, delims) == LeadingRun(Reverse(s), delims)
  {
    var k1 := LeadingRun(Reverse(s), delims);
    var k2 := TrailingRun(s, delims);
    // the first non-delimiter from either end is the same char
    if k1 < |s| {
      assert Reverse(s)[k1] == s[|s| - 1 - k1];
    }
    if k2 < |s| {
      assert Reverse(s)[k2] == s[|s| - 1 - k2];
    }
  }

  /** Right-stripping is left-stripping seen from the other end. */
  lemma RStripMirrorsLStrip(s: string, delims: string)
    requires HasNonDelimiter(s, delims)
    ensures HasNonDelimiter(Reverse(s), delims)
    ensures RStrip(s, delims) == Reverse(LStrip(Reverse(s), delims))
  {
    TrailingIsReversedLeading(s, delims);
    var k := TrailingRun(s, delims);
    assert LStrip(Reverse(s), delims) == Reverse(s)[k..];
    ReverseOfReversedSuffix(s, k);
  }

  lemma ReverseOfReversedSuffix(s: string, k: nat)
    requires k <= |s|
    ensures Reverse(Reverse(s)[k..]) == s[..|s| - k]
  {
    var l := Reverse(s)[k..];
    forall i | 0 <= i < |s| - k
      ensures Reverse(l)[i] == s[i]
    {
      assert Reverse(l)[i] == l[|l| - 1 - i];
    }
  }

  /** "ab  " strips to "  " as written, and to "ab" as intended. */
  lemma RStripDropsPrefix()
    ensures HasNonDelimiter("ab  ", Whitespace)
    ensures RStripAsWritten("ab  ", Whitespace) == "  "
    ensures RStrip("ab  ", Whitespace) == "ab"
  {
    var s := "ab  ";
    assert s[0] !in Whitespace;
    assert s[1] !in Whitespace;
    assert s[3] in Whitespace && s[2] in Whitespace;
    assert TrailingRun(s[..3], Whitespace) == 1 by {
      assert s[..3][..2] == "ab";
      assert TrailingRun("ab", Whitespace) == 0;
    }
    assert TrailingRun(s, Whitespace) == 2;
  }

  /** "abc " strips to "bc " as written: the one trailing space makes the view skip
      the first char and keep the space. The documented strip gives "abc". */
  lemma RStripSkipsFirstChars()
    ensures HasNonDelimiter("abc ", Whitespace)
    ensures RStripAsWritten("abc ", Whitespace) == "bc "
    ensures RStrip("abc ", Whitespace) == "abc"
  {
    var s := "abc ";
    assert s[0] !in Whitespace;
    assert s[2] !in Whitespace;
    assert s[3] in Whitespace;
    assert TrailingRun(s[..3], Whitespace) == 0;
    assert TrailingRun(s, Whitespace) == 1;
  }
}

=== FILE: time_repr.dfy ===
/** `spn::core::utils::repr` and `parse_time`: kernel time as text, a decimal count
    followed by a unit suffix ("10us", "2h", "1d"). */
module TimeText {
  import opened Wrappers
  import opened CInt
  import opened Units

  /** Size of the text buffer `repr` formats into. */
  const ReprBufferSize: nat := 64

  predicate IsDigit(c: char) { '0' <= c <= '9' }

  predicate AllDigits(s: string) { forall i :: 0 <= i < |s| ==> IsDigit(s[i]) }

  /** Decimal digits of a natural number, most significant first, as `%d` prints them. */
  function NatDigits(n: nat): (s: string)
    ensures |s| >= 1 && AllDigits(s)
    decreases n
  {
    var d := [(('0' as int) + n % 10) as char];
    if n < 10 then d else NatDigits(n / 10) + d
  }

  /** `%" PRId64 "`: an optional minus sign and the decimal digits. */
  function IntText(n: int): (s: string)
    ensures |s| >= 1
    ensures n >= 0 ==> AllDigits(s)
    ensures n < 0 ==> s[0] == '-' && AllDigits(s[1..])
  {
    if n < 0 then "-" + NatDigits(-n) else NatDigits(n)
  }

  /** The value of a string of decimal digits. */
  function DigitsValue(s: string): (n: nat)
    requires AllDigits(s)
    decreases |s|
  {
    if |s| == 0 then 0
    else DigitsValue(s[..|s| - 1]) * 10 + ((s[|s| - 1] as int) - ('0' as int))
  }

  function UnitName(m: Magnitude): (s: string)
    ensures |s| >= 1 && !IsDigit(s[0])
  {
    match m
    case Micro => "us"
    case Milli => "ms"
    case Base => "s"
    case Minute => "m"
    case Hour => "h"
    case Day => "d"
  }

  /**
   * The unit `repr` ought to pick for a duration of `d` microseconds, read off
   * the duration itself: microseconds below 1 ms, milliseconds below 1 s,
   * seconds below 900 s, minutes below a day, and days from a day on.
   */
  function ReprBand(d: int): Magnitude {
    if d < 1000 then Micro
    else if d < 1_000_000 then Milli
    else if d < 900_000_000 then Base
    else if d < 86_400_000_000 then Minute
    else Day
  }

  /** Each test of the `repr` cascade, on a time that failed the tests before it, is a test on the duration. */
  lemma ReprCutoffs(t: KTime)
    ensures t.To(Micro).raw < 1000 <==> t.Duration() < 1000
    ensures t.Duration() >= 1000 ==> (t.To(Milli).raw < 1000 <==> t.Duration() < 1_000_000)
    ensures t.Duration() >= 1000 ==> (t.To(Base).raw < 900 <==> t.Duration() < 900_000_000)
    ensures t.Duration() >= 1000 ==> (t.To(Minute).raw < 1440 <==> t.Duration() < 86_400_000_000)
    ensures t.Duration() >= 86_400_000_000 ==> t.To(Hour).raw >= 24 && t.To(Day).raw > 0
  {
    var d := t.Duration();
    var us, ms, s, m, h, dd := t.To(Micro).raw, t.To(Milli).raw, t.To(Base).raw, t.To(Minute).raw, t.To(Hour).raw, t.To(Day).raw;
    assert us == d;
    if d >= 1000 {
      assert ms * 1000 <= d < (ms + 1) * 1000;
      assert s * 1_000_000 <= d < (s + 1) * 1_000_000;
      assert m * 60_000_000 <= d < (m + 1) * 60_000_000;
      assert h * 3_600_000_000 <= d < (h + 1) * 3_600_000_000;
      assert dd * 86_400_000_000 <= d < (dd + 1) * 86_400_000_000;
    }
  }

  /**
   * The unit `repr` settles on: the first of microseconds below 1000,
   * milliseconds below 1000, seconds below 900, minutes below 1440, hours below
   * 24 and a positive number of days; `None` stands for "unknown".
   */
  function ReprUnit(t: KTime): (r: Option<Magnitude>)
    ensures r == Some(ReprBand(t.Duration()))
  {
    ReprCutoffs(t);
    if t.To(Micro).raw < 1000 then Some(Micro)
    else if t.To(Milli).raw < 1000 then Some(Milli)
    else if t.To(Base).raw < 900 then Some(Base)
    else if t.To(Minute).raw < 1440 then Some(Minute)
    else if t.To(Hour).raw < 24 then Some(Hour)
    else if t.To(Day).raw > 0 then Some(Day)
    else None
  }

  /** `repr(t)`: the count in the chosen unit and the unit's suffix; "Error" when the
      text does not fit the 64-character buffer. The kernel-time value must be
      representable in microseconds as an `int64_t`, and then the text always fits. */
  function Repr(t: KTime): (s: string)
    requires Int64Min <= t.Duration() <= Int64Max
    ensures var u := ReprBand(t.Duration());
            s == IntText(t.To(u).raw) + UnitName(u) && |s| < ReprBufferSize
  {
    var u := ReprUnit(t);
    var raw := if u.Some? then t.To(u.value).raw else 0;
    var text := IntText(raw) + (if u.Some? then UnitName(u.value) else "unknown");
    assert |IntText(raw)| <= 20 by {
      CountWithinDuration(t, u.value);
      DigitsShort(Abs(raw));
    }
    if |text| >= ReprBufferSize then "Error" else text
  }

  /** The outcomes of `parse_time`: no time (`nullopt`), the two exceptions
      `std::stoi` throws, or a parsed time. */
  datatype ParseOutcome = NoTime | InvalidArgument | OutOfRange | Parsed(time: KTime)

  /** `find_first_not_of("0123456789")`: `None` for `npos`. */
  function FirstNonDigit(s: string): (r: Option<nat>)
    ensures r.Some? ==> r.value < |s| && !IsDigit(s[r.value]) && AllDigits(s[..(r.value)])
    ensures r.None? ==> AllDigits(s)
    decreases |s|
  {
    if |s| == 0 then None
    else if !IsDigit(s[0]) then Some(0)
    else
      match FirstNonDigit(s[1..])
      case None => None
      case Some(k) =>
        assert s[..k + 1] == [s[0]] + s[1..][..k];
        Some(k + 1)
  }

  /** The unit suffixes `parse_time` accepts. */
  function UnitOf(suffix: string): Option<Magnitude>
  {
    if suffix == "us" then Some(Micro)
    else if suffix == "ms" then Some(Milli)
    else if suffix == "s" then Some(Base)
    else if suffix == "m" then Some(Minute)
    else if suffix == "h" then Some(Hour)
    else if suffix == "d" then Some(Day)
    else None
  }

  /** `parse_time(input)`: a run of digits then a unit suffix. Empty input, input
      without a suffix and an unknown suffix give no time; `std::stoi` throws
      `invalid_argument` on an empty digit run and `out_of_range` above `INT_MAX`. */
  function ParseTime(input: string): (r: ParseOutcome)
    ensures r.Parsed? ==> 0 <= r.time.raw <= Int32Max
  {
    if |input| == 0 then NoTime
    else
      match FirstNonDigit(input)
      case None => NoTime
      case Some(pos) =>
        if pos == 0 then InvalidArgument
        else
          var value := DigitsValue(input[..pos]);
          if value > Int32Max then OutOfRange
          else
            match UnitOf(input[pos..])
            case None => NoTime
            case Some(m) => Parsed(KTime(m, value))
  }

  lemma {:induction false} DigitsRoundTrip(n: nat)
    ensures DigitsValue(NatDigits(n)) == n
    decreases n
  {
    var d := [(('0' as int) + n % 10) as char];
    if n >= 10 {
      DigitsRoundTrip(n / 10);
      var s := NatDigits(n / 10) + d;
      assert s[..|s| - 1] == NatDigits(n / 10);
    }
  }

  lemma UnitNameRoundTrip(m: Magnitude)
    ensures UnitOf(UnitName(m)) == Some(m)
  {
  }

  /** Digits followed by a unit suffix parse back to that count of that unit. */
  lemma ParseOfPrinted(n: nat, m: Magnitude)
    requires n <= Int32Max
    ensures ParseTime(NatDigits(n) + UnitName(m)) == Parsed(KTime(m, n))
  {
    var digits := NatDigits(n);
    var s := digits + UnitName(m);
    assert FirstNonDigit(s) == Some(|digits|) by {
      FirstNonDigitAfterDigits(digits, UnitName(m));
    }
    assert s[..|digits|] == digits;
    assert s[|digits|..] == UnitName(m);
    DigitsRoundTrip(n);
    UnitNameRoundTrip(m);
  }

  lemma {:induction false} FirstNonDigitAfterDigits(digits: string, rest: string)
    requires AllDigits(digits) && |rest| >= 1 && !IsDigit(rest[0])
    ensures FirstNonDigit(digits + rest) == Some(|digits|)
    decreases |digits|
  {
    if |digits| > 0 {
      assert (digits + rest)[1..] == digits[1..] + rest;
      FirstNonDigitAfterDigits(digits[1..], rest);
    }
  }

  /** A count in any unit is no larger in size than the duration in microseconds. */
  lemma CountWithinDuration(t: KTime, m: Magnitude)
    ensures Abs(t.To(m).raw) <= Abs(t.Duration())
  {
    var a := Abs(t.To(m).raw);
    if a > 0 {
      MulAtLeast(a, Micros(m));
    }
  }

  /** A non-negative time printed by `repr` parses back to its count in the unit
      `repr` chose (whenever that count fits an `int`), which is the time truncated
      toward zero to that unit. */
  lemma ReprThenParse(t: KTime)
    requires 0 <= t.Duration() <= Int64Max
    ensures ReprUnit(t).Some?
    ensures t.To(ReprUnit(t).value).raw <= Int32Max ==>
              ParseTime(Repr(t)) == Parsed(t.To(ReprUnit(t).value))
  {
    var m := ReprUnit(t).value;
    var raw := t.To(m).raw;
    assert raw >= 0;
    assert |IntText(raw) + UnitName(m)| < ReprBufferSize by {
      DigitsShort(raw);
    }
    ParseOfPrinted(raw, m);
  }

  /** Nineteen digits are enough for any magnitude up to 2^63. */
  lemma {:induction false} DigitsShort(n: nat)
    requires n <= Int64Max + 1
    ensures |NatDigits(n)| <= 19
  {
    assert Pow10(5) == 100_000;
    assert Pow10(10) == 10_000_000_000;
    assert Pow10(15) == 1_000_000_000_000_000;
    assert Pow10(19) == 10_000_000_000_000_000_000;
    DigitCount(n, 19);
  }

  lemma {:induction false} DigitCount(n: nat, k: nat)
    requires n < Pow10(k) && k >= 1
    ensures |NatDigits(n)| <= k
    decreases k
  {
    if n >= 10 {
      assert n / 10 < Pow10(k - 1);
      DigitCount(n / 10, k - 1);
    }
  }

  function Pow10(k: nat): (p: nat)
    ensures p >= 1
  {
    if k == 0 then 1 else 10 * Pow10(k - 1)
  }

  /** Text that starts with a sign has an empty digit run. */
  lemma SignedTextThrows(s: string)
    requires |s| >= 1 && s[0] == '-'
    ensures ParseTime(s) == InvalidArgument
  {
  }

  /** A negative time prints with a minus sign, which `std::stoi` is never shown:
      parsing it back throws `invalid_argument`. */
  lemma NegativeReprDoesNotParse(t: KTime)
    requires Int64Min <= t.Duration() < 0
    ensures ParseTime(Repr(t)) == InvalidArgument
  {
    assert t.To(Micro).raw < 1000;
    assert ReprUnit(t) == Some(Micro);
    var raw := t.To(Micro).raw;
    assert raw < 0 && -raw <= Int64Max + 1;
    DigitsShort(-raw);
    var text := IntText(raw) + "us";
    assert |text| < ReprBufferSize;
    assert Repr(t) == text;
    SignedTextThrows(text);
  }

  /** A count above `INT_MAX` throws `out_of_range`, whatever the unit. */
  lemma LargeCountThrows(n: nat, m: Magnitude)
    requires n > Int32Max
    ensures ParseTime(NatDigits(n) + UnitName(m)) == OutOfRange
  {
    var digits := NatDigits(n);
    var s := digits + UnitName(m);
    FirstNonDigitAfterDigits(digits, UnitName(m));
    assert s[..|digits|] == digits;
    DigitsRoundTrip(n);
  }

  /** The empty, unit-less, number-less and unknown-unit inputs. */
  lemma ParseRejects()
    ensures ParseTime("") == NoTime
    ensures ParseTime("10") == NoTime
    ensures ParseTime("s") == InvalidArgument
    ensures ParseTime("10x") == NoTime
  {
    assert FirstNonDigit("10") == None;
    assert FirstNonDigit("10x") == Some(2);
    assert "10x"[2..] == "x";
  }

  /** Any non-empty digit run within `INT_MAX` followed by a suffix that starts
      with a non-digit parses exactly when the whole suffix is a known unit:
      "10ms" is ten milliseconds, "10mss" and "10 s" are no time. */
  lemma ParseDigitsThenSuffix(d: string, u: string)
    requires |d| > 0 && AllDigits(d) && DigitsValue(d) <= Int32Max
    requires |u| > 0 && !IsDigit(u[0])
    ensures ParseTime(d + u) == (match UnitOf(u)
                                 case Some(m) => Parsed(KTime(m, DigitsValue(d)))
                                 case None => NoTime)
  {
    FirstNonDigitAfterDigits(d, u);
    assert (d + u)[..|d|] == d;
    assert (d + u)[|d|..] == u;
  }

  /** Conversely, every parsed input splits into a non-empty digit run whose
      value is the count and a suffix naming the unit. */
  lemma ParsedMeansDigitsThenUnit(s: string)
    requires ParseTime(s).Parsed?
    ensures exists k :: 0 < k < |s| && AllDigits(s[..k])
                        && UnitOf(s[k..]) == Some(ParseTime(s).time.mag)
                        && DigitsValue(s[..k]) == ParseTime(s).time.raw
  {
    var k := FirstNonDigit(s).value;
    assert 0 < k < |s| && AllDigits(s[..k]);
  }
}

=== FILE: timers.dfy ===
/**
 * The timers of `spn::structure::time`: a stopwatch (`Timer`), a one-shot
 * deadline (`AlarmTimer`) and a periodic tick (`IntervalTimer`). Times are
 * kernel milliseconds; the clock reading `HAL::millis()` is the explicit
 * argument `now`.
 */
module Timers {
  import opened CInt

  /** `Timer`: the moment it was last reset. */
  datatype Timer = Timer(last: int)

  /** `time_since_last(reset)`: the time elapsed since the last reset, restarting the count when asked. */
  function TimeSinceLast(t: Timer, now: int, reset: bool): (r: (Timer, int))
    ensures t.last + r.1 == now
    ensures reset ==> r.0 == Timer(now)
    ensures !reset ==> r.0 == t
  {
    (if reset then Timer(now) else t, now - t.last)
  }

  /** Two resetting reads measure consecutive stretches, which add up to the time since the first reset. */
  lemma TimeSinceLastSplits(t: Timer, now1: int, now2: int)
    ensures var (t1, d1) := TimeSinceLast(t, now1, true);
            var (_, d2) := TimeSinceLast(t1, now2, true);
            d1 + d2 == TimeSinceLast(t, now2, false).1
  {
  }

  /** `AlarmTimer`: the deadline and whether expiry has already been seen. */
  datatype AlarmTimer = AlarmTimer(deadline: int, latched: bool)

  /** `AlarmTimer(future, absolute)`: the deadline is `future` itself, or `future` from now. */
  function NewAlarm(future: int, absolute: bool, now: int): (r: AlarmTimer)
    ensures !r.latched
    ensures absolute ==> r.deadline == future
    ensures !absolute ==> r.deadline - now == future
  {
    AlarmTimer(if absolute then future else now + future, false)
  }

  /**
   * `expired()` as written: the deadline and the clock are both cut to
   * `int32_t` before they are compared, and a true answer is latched.
   */
  function AlarmExpiredAsWritten(a: AlarmTimer, now: int): (r: (AlarmTimer, bool))
    ensures r.1 <==> a.latched || ToInt32(a.deadline) <= ToInt32(now)
    ensures r.0 == a.(latched := r.1)
  {
    if a.latched then (a, true)
    else if ToInt32(a.deadline) <= ToInt32(now) then (a.(latched := true), true)
    else (a, false)
  }

  /** `expired()` as intended: true once the deadline has been reached, and from then on. */
  function AlarmExpired(a: AlarmTimer, now: int): (r: (AlarmTimer, bool))
    ensures r.1 <==> a.latched || a.deadline <= now
    ensures r.0 == a.(latched := r.1)
  {
    if a.latched then (a, true)
    else if a.deadline <= now then (a.(latched := true), true)
    else (a, false)
  }

  /** `time_from_now()`: how long until the deadline, negative once it has passed. */
  function TimeFromNow(a: AlarmTimer, now: int): (r: int)
    ensures now + r == a.deadline
  {
    a.deadline - now
  }

  /** Once an alarm has answered true it answers true at every later call, whatever the clock says. */
  lemma AlarmStaysExpired(a: AlarmTimer, now: int, later: int)
    ensures AlarmExpired(a, now).1 ==> AlarmExpired(AlarmExpired(a, now).0, later).1
    ensures AlarmExpiredAsWritten(a, now).1 ==>
              AlarmExpiredAsWritten(AlarmExpiredAsWritten(a, now).0, later).1
  {
  }

  /** A fresh alarm set `d > 0` ahead has not expired until `d` has passed, and has expired after. */
  lemma AlarmExpiresOnTime(d: int, now: int, later: int)
    requires d > 0
    ensures !AlarmExpired(NewAlarm(d, false, now), now).1
    ensures AlarmExpired(NewAlarm(d, false, now), later).1 <==> later >= now + d
    ensures TimeFromNow(NewAlarm(d, false, now), now) == d
  {
  }

  /** While deadline and clock both fit in `int32_t`, the code agrees with the intended reading. */
  lemma AlarmAgreesInInt32Range(a: AlarmTimer, now: int)
    requires Int32Min <= a.deadline <= Int32Max && Int32Min <= now <= Int32Max
    ensures AlarmExpiredAsWritten(a, now) == AlarmExpired(a, now)
  {
  }

  /**
   * An alarm set 100 ms ahead at 2147483600 ms of uptime: its deadline passes
   * `INT32_MAX`, turns negative when cut to `int32_t`, and the alarm reports
   * expiry at once, 100 ms early.
   */
  lemma AlarmExpiresEarlyAcrossInt32()
    ensures var a := NewAlarm(100, false, 2147483600);
            AlarmExpiredAsWritten(a, 2147483600).1 && !AlarmExpired(a, 2147483600).1
  {
    var a := NewAlarm(100, false, 2147483600);
    assert ToInt32(a.deadline) == a.deadline - 0x1_0000_0000;
  }

  /** `IntervalTimer`: the last tick, the period, and whether missed ticks are caught up. */
  datatype IntervalTimer = IntervalTimer(previous: int, interval: int, catchUp: bool)
  {
    /** `future()`: when the next tick is due. */
    function Future(): (r: int)
      ensures r - previous == interval
    {
      previous + interval
    }
  }

  /** `IntervalTimer(sampling_interval, allow_catch_up)`: counting starts now. */
  function NewInterval(interval: int, catchUp: bool, now: int): (r: IntervalTimer)
    ensures r.Future() == now + interval && r.interval == interval && r.catchUp == catchUp
  {
    IntervalTimer(now, interval, catchUp)
  }

  /**
   * `expired()`: true when strictly more than one interval has passed since the
   * last tick. The tick then moves one interval on when catching up, and to
   * now otherwise.
   */
  function IntervalExpired(t: IntervalTimer, now: int): (r: (IntervalTimer, bool))
    ensures r.1 <==> now - t.previous > t.interval
    ensures r.0.interval == t.interval && r.0.catchUp == t.catchUp
    ensures r.1 && t.catchUp ==> r.0.Future() == t.Future() + t.interval
    ensures r.1 && !t.catchUp ==> r.0.Future() == now + t.interval
    ensures !r.1 ==> r.0 == t
  {
    if now - t.previous > t.interval then
      (t.(previous := if t.catchUp then t.previous + t.interval else now), true)
    else (t, false)
  }

  /** `reset()`: the last tick becomes now. */
  function IntervalReset(t: IntervalTimer, now: int): (r: IntervalTimer)
    ensures r.Future() == now + t.interval && r.interval == t.interval && r.catchUp == t.catchUp
  {
    t.(previous := now)
  }

  /** `time_until_next()`: how long until the next tick is due. */
  function TimeUntilNext(t: IntervalTimer, now: int): (r: int)
    ensures now + r == t.Future()
  {
    t.Future() - now
  }

  /** Without catch-up, a timer with a non-negative interval fires at most once at any one moment. */
  lemma NoCatchUpFiresOnce(t: IntervalTimer, now: int)
    requires !t.catchUp && t.interval >= 0
    ensures !IntervalExpired(IntervalExpired(t, now).0, now).1
  {
  }

  /**
   * With catch-up, polling at one moment until the timer says no fires once
   * per missed interval: `(elapsed - 1) / interval` times for a positive
   * elapsed time, and never otherwise.
   */
  method DrainCatchUp(t: IntervalTimer, now: int) returns (fired: nat, r: IntervalTimer)
    requires t.catchUp && t.interval > 0
    ensures var elapsed := now - t.previous;
            fired == (if elapsed > 0 then (elapsed - 1) / t.interval else 0)
    ensures !IntervalExpired(r, now).1
    ensures r.previous == t.previous + fired * t.interval
  {
    fired, r := 0, t;
    var more: bool;
    var next: IntervalTimer;
    var step := IntervalExpired(r, now);
    next, more := step.0, step.1;
    while more
      invariant r.interval == t.interval && r.catchUp
      invariant r.previous == t.previous + fired * t.interval
      invariant more <==> now - r.previous > t.interval
      invariant more ==> next == r.(previous := r.previous + t.interval)
      invariant !more ==> next == r
      invariant fired * t.interval < now - t.previous || fired == 0
      decreases now - r.previous
    {
      fired, r := fired + 1, next;
      step := IntervalExpired(r, now);
      next, more := step.0, step.1;
    }
    CatchUpCount(now - t.previous, t.interval, fired);
  }

  /** `fired` whole intervals fit strictly below `elapsed` and one more does not: so `fired` is `(elapsed - 1) / interval`. */
  lemma CatchUpCount(elapsed: int, interval: int, fired: nat)
    requires interval > 0
    requires fired * interval < elapsed || fired == 0
    requires elapsed - fired * interval <= interval
    ensures fired == (if elapsed > 0 then (elapsed - 1) / interval else 0)
  {
    if elapsed > 0 {
      var e := elapsed - 1;
      assert fired * interval <= e < fired * interval + interval;
      MulSucc(fired, interval);
      DivUnique(e, interval, fired);
    }
  }

  /** The quotient is the unique `q` with `q * y <= x < (q + 1) * y`. */
  lemma DivUnique(x: int, y: int, q: int)
    requires y > 0 && q * y <= x < (q + 1) * y
    ensures x / y == q
  {
    var d := x / y;
    assert x == d * y + x % y;
    MulSucc(d, y);
    if d < q {
      MulMono(d + 1, q, y);
    } else if d > q {
      MulMono(q + 1, d, y);
    }
  }

  lemma MulMono(a: int, b: int, y: int)
    requires a <= b && y > 0
    ensures a * y <= b * y
  {
  }
}

=== FILE: transaction.dfy ===
/**
 * `spn::io::Transaction`: a request/response exchange over a `BufferedStream`.
 * The request is the next line of the input buffer; the response is queued on
 * the output buffer and is either committed or taken back again. The stream
 * the transaction points to is passed in and handed back by every operation.
 */
module Transactions {
  import opened Wrappers
  import opened CInt
  import opened Lines
  import opened Buffered

  /**
   * `incoming` is the request line, `queued` the count of response bytes queued
   * since the transaction began (a `size_t`), `finalized` whether it was
   * committed or aborted.
   */
  datatype Transaction = Transaction(incoming: string, queued: nat, finalized: bool)
  {
    predicate Valid() { queued < SizeMod }
  }

  /**
   * `new_transaction()`: a transaction on the next input line, or none when no
   * complete line is buffered. The request is the line without its delimiter,
   * as the corrected line view gives it.
   */
  function NewTransaction(bs: BufferedStream): (r: Option<Transaction>)
    requires bs.Valid()
    ensures r.None? <==> !bs.HasLine()
    ensures r.Some? ==> r.value.Valid() && r.value.queued == 0 && !r.value.finalized
  {
    if bs.input.LengthOfNextLine() == 0 then None
    else Some(Transaction(bs.input.NextLineView().value, 0, false))
  }

  /** `outgoing_space_left()`: room left on the output buffer. */
  function SpaceLeft(bs: BufferedStream): (n: nat)
    requires bs.Valid()
    ensures n + |bs.output.Contents()| == bs.output.ring.Capacity()
  {
    bs.OutputSpaceLeft()
  }

  /**
   * `outgoing(value)`: queues one byte when there is room and counts it. The
   * debug-only assertions on `is_finalized` and on the room left are not
   * preconditions, since the code handles both cases.
   */
  function OutgoingOne(bs: BufferedStream, tx: Transaction, c: char): (r: (BufferedStream, Transaction, nat))
    requires bs.Valid() && tx.Valid()
    ensures r.0.Valid() && r.1.Valid() && r.0.input == bs.input && r.0.stream == bs.stream
    ensures r.0.output.ring.Capacity() == bs.output.ring.Capacity()
    ensures r.2 == (if SpaceLeft(bs) == 0 then 0 else 1)
    ensures r.0.output.Contents() == bs.output.Contents() + [c][..(r.2)]
    ensures r.1 == tx.(queued := (tx.queued + r.2) % SizeMod)
  {
    if SpaceLeft(bs) == 0 then
      assert tx.queued % SizeMod == tx.queued;
      (bs, tx, 0)
    else
      var (b, n) := bs.BufferedWrite([c], false);
      (b, tx.(queued := (tx.queued + n) % SizeMod), n)
  }

  /** `outgoing(buffer, length)`: queues as much of `data` as there is room for and counts it. */
  function Outgoing(bs: BufferedStream, tx: Transaction, data: string): (r: (BufferedStream, Transaction, nat))
    requires bs.Valid() && tx.Valid()
    ensures r.0.Valid() && r.1.Valid() && r.0.input == bs.input && r.0.stream == bs.stream
    ensures r.0.output.ring.Capacity() == bs.output.ring.Capacity()
    ensures r.2 == Min(|data|, SpaceLeft(bs))
    ensures r.0.output.Contents() == bs.output.Contents() + data[..(r.2)]
    ensures r.1 == tx.(queued := (tx.queued + r.2) % SizeMod)
  {
    var len := Min(SpaceLeft(bs), |data|);
    var (b, n) := bs.BufferedWrite(data[..len], false);
    assert data[..len][..n] == data[..n];
    (b, tx.(queued := (tx.queued + n) % SizeMod), n)
  }

  /** The count `undo(n_bytes)` hands to `output_buffer_drop_last`: `min(n_bytes, queued)`, or `queued` for 0. */
  function UndoCount(tx: Transaction, nBytes: nat): (n: nat)
    requires tx.Valid() && nBytes < SizeMod
    ensures n <= tx.queued && n < SizeMod
    ensures nBytes == 0 ==> n == tx.queued
    ensures 0 < nBytes ==> n == Min(nBytes, tx.queued)
  {
    if nBytes > 0 then Min(nBytes, tx.queued) else tx.queued
  }

  /**
   * `undo(n_bytes)`: drops the newest `min(n_bytes, queued)` output bytes, or
   * all queued bytes when `n_bytes` is 0. The queued count is left as it is.
   * The drop goes through `drop_last` as written, so when there is nothing to
   * take back and the output buffer is full, the output buffer is emptied.
   */
  function Undo(bs: BufferedStream, tx: Transaction, nBytes: nat): (r: BufferedStream)
    requires bs.Valid() && tx.Valid() && nBytes < SizeMod
    ensures r.Valid() && r.input == bs.input && r.stream == bs.stream
    ensures var k := Min(UndoCount(tx, nBytes), |bs.output.Contents()|);
            && (k > 0 || !bs.output.ring.isFull ==>
                  r.output.Contents() == bs.output.Contents()[..|bs.output.Contents()| - k])
            && (k == 0 && bs.output.ring.isFull ==> r.output.Contents() == [])
  {
    bs.OutputDropLast(UndoCount(tx, nBytes)).0
  }

  /** `undo(n_bytes)` over the corrected `drop_last`: takes back the newest `min(n_bytes, queued)` bytes and nothing else. */
  function UndoIntended(bs: BufferedStream, tx: Transaction, nBytes: nat): (r: BufferedStream)
    requires bs.Valid() && tx.Valid() && nBytes < SizeMod
    ensures r.Valid() && r.input == bs.input && r.stream == bs.stream
    ensures var k := Min(UndoCount(tx, nBytes), |bs.output.Contents()|);
            r.output.Contents() == bs.output.Contents()[..|bs.output.Contents()| - k]
  {
    bs.OutputDropLastIntended(UndoCount(tx, nBytes)).0
  }

  /**
   * `finalize()`: once only, drops the request line from the input buffer and
   * clears the transaction; a finalized transaction is left alone.
   */
  function Finalize(bs: BufferedStream, tx: Transaction): (r: (BufferedStream, Transaction))
    requires bs.Valid() && tx.Valid()
    ensures r.0.Valid() && r.1.Valid() && r.1.finalized
    ensures r.0.output == bs.output && r.0.stream == bs.stream
    ensures tx.finalized ==> r == (bs, tx)
    ensures !tx.finalized ==> r.1 == Transaction("", 0, true)
  {
    if tx.finalized then (bs, tx)
    else (bs.DropNextLine(), Transaction("", 0, true))
  }

  /** `commit()`: keeps the queued response and finalizes. */
  function Commit(bs: BufferedStream, tx: Transaction): (r: (BufferedStream, Transaction))
    requires bs.Valid() && tx.Valid()
    ensures r.0.Valid() && r.1.Valid() && r.1.finalized
  {
    Finalize(bs, tx.(queued := 0))
  }

  /** `abort()`: takes back every queued response byte and finalizes. */
  function Abort(bs: BufferedStream, tx: Transaction): (r: (BufferedStream, Transaction))
    requires bs.Valid() && tx.Valid()
    ensures r.0.Valid() && r.1.Valid() && r.1.finalized
  {
    Finalize(Undo(bs, tx, 0), tx)
  }

  /** `abort()` with the undo over the corrected `drop_last`. */
  function AbortIntended(bs: BufferedStream, tx: Transaction): (r: (BufferedStream, Transaction))
    requires bs.Valid() && tx.Valid()
    ensures r.0.Valid() && r.1.Valid() && r.1.finalized
  {
    Finalize(UndoIntended(bs, tx, 0), tx)
  }

  /** The output buffer holds `base` followed by exactly the bytes the transaction queued. */
  predicate Tracks(bs: BufferedStream, tx: Transaction, base: string)
    requires bs.Valid()
  {
    && |bs.output.Contents()| == |base| + tx.queued
    && bs.output.Contents()[..|base|] == base
  }

  /** The request of a new transaction is the line `get_next_line` would hand out. */
  lemma IncomingIsNextLine(bs: BufferedStream)
    requires bs.Valid() && bs.HasLine()
    ensures var len := bs.input.LengthOfNextLine();
            NewTransaction(bs).value.incoming == bs.input.GetNextLine(len).1
  {
  }

  /** Where the code's line view stays inside the input array, the request it reads
      is the one the model records. */
  lemma NewTransactionReadsSpan(bs: BufferedStream)
    requires bs.Valid() && bs.HasLine()
    requires var (start, len) := bs.input.NextLineSpanAsWritten().value; start + len <= |bs.input.ring.buf|
    ensures var (start, len) := bs.input.NextLineSpanAsWritten().value;
            NewTransaction(bs).value.incoming == bs.input.ring.buf[start..start + len]
  {
    SpanInBoundsReadsLine(bs.input);
  }

  /** A new transaction tracks the output buffer as it stands. */
  lemma NewTransactionTracks(bs: BufferedStream)
    requires bs.Valid() && bs.HasLine()
    ensures Tracks(bs, NewTransaction(bs).value, bs.output.Contents())
  {
  }

  /** Queuing bytes keeps the output buffer tracked, as long as the count does not wrap. */
  lemma OutgoingTracks(bs: BufferedStream, tx: Transaction, base: string, data: string)
    requires bs.Valid() && tx.Valid() && Tracks(bs, tx, base)
    requires tx.queued + |data| < SizeMod
    ensures var (b, t, _) := Outgoing(bs, tx, data); Tracks(b, t, base)
  {
    var (b, t, n) := Outgoing(bs, tx, data);
    assert (bs.output.Contents() + data[..n])[..|base|] == bs.output.Contents()[..|base|];
  }

  /** Likewise for a single byte. */
  lemma OutgoingOneTracks(bs: BufferedStream, tx: Transaction, base: string, c: char)
    requires bs.Valid() && tx.Valid() && Tracks(bs, tx, base)
    requires tx.queued + 1 < SizeMod
    ensures var (b, t, _) := OutgoingOne(bs, tx, c); Tracks(b, t, base)
  {
    var (b, t, n) := OutgoingOne(bs, tx, c);
    assert (bs.output.Contents() + [c][..n])[..|base|] == bs.output.Contents()[..|base|];
  }

  /**
   * Aborting a transaction leaves the output buffer as it was before the
   * transaction began, unless nothing was queued and the output buffer is full.
   */
  lemma AbortRestoresOutput(bs: BufferedStream, tx: Transaction, base: string)
    requires bs.Valid() && tx.Valid() && Tracks(bs, tx, base)
    requires tx.queued > 0 || !bs.output.ring.isFull
    ensures Abort(bs, tx).0.output.Contents() == base
  {
  }

  /** With the corrected `drop_last`, aborting always restores the output buffer. */
  lemma AbortIntendedRestoresOutput(bs: BufferedStream, tx: Transaction, base: string)
    requires bs.Valid() && tx.Valid() && Tracks(bs, tx, base)
    ensures AbortIntended(bs, tx).0.output.Contents() == base
  {
  }

  /**
   * Aborting a transaction that queued nothing while the output buffer is full
   * throws away the whole output buffer, responses of earlier transactions
   * included; the corrected abort keeps it.
   */
  lemma AbortEmptiesFullOutput(bs: BufferedStream, tx: Transaction)
    requires bs.Valid() && tx.Valid() && tx.queued == 0 && bs.output.ring.isFull
    ensures Tracks(bs, tx, bs.output.Contents()) && |bs.output.Contents()| > 0
    ensures Abort(bs, tx).0.output.Contents() == []
    ensures AbortIntended(bs, tx).0.output.Contents() == bs.output.Contents()
  {
  }

  /** Committing keeps every queued byte, and both end the transaction the same way on the input side. */
  lemma CommitKeepsOutput(bs: BufferedStream, tx: Transaction)
    requires bs.Valid() && tx.Valid() && !tx.finalized
    ensures Commit(bs, tx).0.output == bs.output
    ensures Commit(bs, tx).0.input == Abort(bs, tx).0.input
    ensures bs.HasLine() ==>
              Commit(bs, tx).0.input.Contents() == bs.input.Contents()[bs.input.LengthOfNextLine()..]
  {
  }

  /** Finalizing twice is finalizing once. */
  lemma FinalizeIdempotent(bs: BufferedStream, tx: Transaction)
    requires bs.Valid() && tx.Valid()
    ensures var (b, t) := Finalize(bs, tx); Finalize(b, t) == (b, t)
  {
  }

  /**
   * `undo(n)` takes back `min(n, queued)` bytes, and all queued bytes for
   * `n == 0`, unless nothing was queued and the output buffer is full.
   */
  lemma UndoDropsQueued(bs: BufferedStream, tx: Transaction, base: string, nBytes: nat)
    requires bs.Valid() && tx.Valid() && Tracks(bs, tx, base) && nBytes < SizeMod
    requires tx.queued > 0 || !bs.output.ring.isFull
    ensures var k := if nBytes > 0 then Min(nBytes, tx.queued) else tx.queued;
            Undo(bs, tx, nBytes).output.Contents() == bs.output.Contents()[..|bs.output.Contents()| - k]
    ensures nBytes == 0 ==> Undo(bs, tx, nBytes).output.Contents() == base
  {
  }

  /** With the corrected `drop_last`, `undo(n)` always takes back exactly the bytes it names. */
  lemma UndoIntendedDropsQueued(bs: BufferedStream, tx: Transaction, base: string, nBytes: nat)
    requires bs.Valid() && tx.Valid() && Tracks(bs, tx, base) && nBytes < SizeMod
    ensures var k := if nBytes > 0 then Min(nBytes, tx.queued) else tx.queued;
            UndoIntended(bs, tx, nBytes).output.Contents() == bs.output.Contents()[..|bs.output.Contents()| - k]
    ensures nBytes == 0 ==> UndoIntended(bs, tx, nBytes).output.Contents() == base
  {
  }
}

=== FILE: typelist.dfy ===
/** `spn::core::meta::unique_variant`: compile-time type lists and the removal of
    repeated types, which lets `Result<T, E, I>` store its value in a `std::variant`
    even when two of its type arguments coincide. Types are modelled as values of
    an equality type. */
module TypeLists {

  /** `Prepend<TypeList<Ts...>, T>`. */
  function Prepend<T>(list: seq<T>, t: T): (r: seq<T>)
    ensures |r| == |list| + 1 && r[0] == t && r[1..] == list
  {
    [t] + list
  }

  /** `Contains_v<TypeList<Ts...>, T>`: a head-first search. */
  function Contains<T(==)>(list: seq<T>, t: T): (r: bool)
    ensures r ==> t in list
    decreases |list|
  {
    if |list| == 0 then false
    else if list[0] == t then true
    else Contains(list[1..], t)
  }

  /** `Unique<Ts...>`: the tail is made unique first; the head is kept only when the
      unique tail does not already hold it, so each type keeps its last occurrence. */
  function Unique<T(==)>(ts: seq<T>): (r: seq<T>)
    ensures |r| <= |ts| && (|ts| > 0 ==> |r| > 0)
    decreases |ts|
  {
    if |ts| == 0 then []
    else
      var rest := Unique(ts[1..]);
      if Contains(rest, ts[0]) then rest else Prepend(rest, ts[0])
  }

  predicate NoDuplicates<T(==)>(s: seq<T>) {
    forall i, j :: 0 <= i < j < |s| ==> s[i] != s[j]
  }

  /** The search finds exactly the members of the list. */
  lemma {:induction false} ContainsIsMembership<T>(list: seq<T>, t: T)
    ensures Contains(list, t) <==> t in list
    decreases |list|
  {
    if |list| > 0 {
      ContainsIsMembership(list[1..], t);
      assert list == [list[0]] + list[1..];
    }
  }

  /** `Unique` keeps every type, adds none, and lists each one once. */
  lemma {:induction false} UniqueIsDeduplication<T>(ts: seq<T>)
    ensures forall t :: t in Unique(ts) <==> t in ts
    ensures NoDuplicates(Unique(ts))
    decreases |ts|
  {
    if |ts| > 0 {
      var rest := Unique(ts[1..]);
      UniqueIsDeduplication(ts[1..]);
      ContainsIsMembership(rest, ts[0]);
      assert ts == [ts[0]] + ts[1..];
      if !Contains(rest, ts[0]) {
        var r := Prepend(rest, ts[0]);
        forall i, j | 0 <= i < j < |r|
          ensures r[i] != r[j]
        {
          if i == 0 {
            assert r[j] == rest[j - 1];
          } else {
            assert r[i] == rest[i - 1] && r[j] == rest[j - 1];
          }
        }
      }
    }
  }

  /** A list without repeats comes out of `Unique` unchanged. */
  lemma {:induction false} UniqueKeepsDistinct<T>(ts: seq<T>)
    requires NoDuplicates(ts)
    ensures Unique(ts) == ts
    decreases |ts|
  {
    if |ts| > 0 {
      assert NoDuplicates(ts[1..]) by {
        forall i, j | 0 <= i < j < |ts[1..]|
          ensures ts[1..][i] != ts[1..][j]
        {
          assert ts[1..][i] == ts[i + 1] && ts[1..][j] == ts[j + 1];
        }
      }
      UniqueKeepsDistinct(ts[1..]);
      ContainsIsMembership(ts[1..], ts[0]);
      assert ts[0] !in ts[1..] by {
        forall k | 0 <= k < |ts[1..]|
          ensures ts[1..][k] != ts[0]
        {
          assert ts[1..][k] == ts[k + 1];
        }
      }
      assert ts == [ts[0]] + ts[1..];
    }
  }

  /** Applying `Unique` twice is applying it once. */
  lemma UniqueIdempotent<T>(ts: seq<T>)
    ensures Unique(Unique(ts)) == Unique(ts)
  {
    UniqueIsDeduplication(ts);
    UniqueKeepsDistinct(Unique(ts));
  }

  /** Reference filter: an element is kept exactly when no later element equals it. */
  function LastOccurrences<T(==)>(ts: seq<T>): seq<T>
  {
    if |ts| == 0 then []
    else if ts[0] in ts[1..] then LastOccurrences(ts[1..])
    else [ts[0]] + LastOccurrences(ts[1..])
  }

  /** `Unique` keeps the last occurrence of every type, in the original order. */
  lemma {:induction false} UniqueKeepsLastOccurrences<T>(ts: seq<T>)
    ensures Unique(ts) == LastOccurrences(ts)
  {
    if |ts| > 0 {
      UniqueKeepsLastOccurrences(ts[1..]);
      UniqueIsDeduplication(ts[1..]);
      ContainsIsMembership(Unique(ts[1..]), ts[0]);
    }
  }

  /** The variant behind `Result<T, E, I>`: with all three types equal it has one
      alternative; with `T == I` but a distinct `E` the repeated `T` keeps its last
      position. */
  lemma ResultVariantAlternatives()
    ensures Unique(["T", "T", "T"]) == ["T"]
    ensures Unique(["T", "E", "T"]) == ["E", "T"]
    ensures Unique(["T", "E", "I"]) == ["T", "E", "I"]
  {
    assert ["T", "T", "T"][1..] == ["T", "T"];
    assert ["T", "T"][1..] == ["T"];
    assert ["T", "E", "T"][1..] == ["E", "T"];
    assert ["E", "T"][1..] == ["T"];
    assert ["T", "E", "I"][1..] == ["E", "I"];
    assert ["E", "I"][1..] == ["I"];
  }
}

=== FILE: units.dfy ===
/** `spn::structure::units::Unit<U, M, T>` for kernel time (`k_time_us` ... `k_time_d`):
    an integer count of a magnitude. Quantities of different magnitudes combine by
    converting the right operand to the left operand's magnitude; the conversion
    multiplies by the ratio of magnitudes and the integer result truncates toward zero. */
module Units {
  import opened Wrappers
  import opened CInt

  /** The time magnitudes of kernel time. */
  datatype Magnitude = Micro | Milli | Base | Minute | Hour | Day

  /** Each magnitude as a whole number of microseconds (the ratios of the magnitude
      constants 1e-6, 1e-3, 1, 60, 3600 and 86400 seconds). */
  function Micros(m: Magnitude): (n: nat)
    ensures n > 0
  {
    match m
    case Micro => 1
    case Milli => 1000
    case Base => 1_000_000
    case Minute => 60_000_000
    case Hour => 3_600_000_000
    case Day => 86_400_000_000
  }

  /** A kernel-time quantity: `raw` counts of magnitude `mag`. */
  datatype KTime = KTime(mag: Magnitude, raw: int)
  {
    /** The exact duration in microseconds. */
    function Duration(): int { raw * Micros(mag) }

    /** `is_negative()`: the quantity stands for a negative duration. */
    function IsNegative(): (r: bool)
      ensures r <==> Duration() < 0
    {
      SignOfProduct(raw, Micros(mag));
      raw < 0
    }

    /** `is_integral()`: a count of the integer raw type of kernel time is always whole. */
    function IsIntegral(): (r: bool)
      ensures r
    {
      true
    }

    /** `Unit(const Unit<U, MOther, T>&)`: converting construction. */
    function To(target: Magnitude): (r: KTime)
      ensures r.mag == target
      ensures Abs(r.raw) * Micros(target) <= Abs(Duration()) < (Abs(r.raw) + 1) * Micros(target)
      ensures Duration() >= 0 ==> r.raw >= 0
      ensures Duration() <= 0 ==> r.raw <= 0
    {
      TruncDivBounds(Duration(), Micros(target));
      KTime(target, TruncDiv(Duration(), Micros(target)))
    }

    /** `operator+`: the result keeps the left operand's magnitude. */
    function Plus(other: KTime): (r: KTime)
      ensures r.mag == mag
    {
      KTime(mag, raw + other.To(mag).raw)
    }

    /** `operator-` (binary). */
    function Minus(other: KTime): (r: KTime)
      ensures r.mag == mag
    {
      KTime(mag, raw - other.To(mag).raw)
    }

    /** `operator-` (unary). */
    function Negate(): (r: KTime)
      ensures r.mag == mag && r.Duration() == -Duration()
    {
      KTime(mag, -raw)
    }

    /** `operator*` by an integer scalar. */
    function Times(k: int): (r: KTime)
      ensures r.mag == mag && r.Duration() == Duration() * k
    {
      KTime(mag, raw * k)
    }

    /** `operator/` by an integer scalar: a zero divisor throws "tried to divide by
        zero"; otherwise the integer quotient truncates toward zero. */
    function DividedBy(k: int): (r: Option<KTime>)
      ensures r.None? <==> k == 0
      ensures r.Some? ==> r.value.mag == mag
      ensures r.Some? ==> Abs(r.value.raw) * Abs(k) <= Abs(raw) < (Abs(r.value.raw) + 1) * Abs(k)
      ensures r.Some? && (raw >= 0) == (k > 0) ==> r.value.raw >= 0
      ensures r.Some? && (raw >= 0) != (k > 0) ==> r.value.raw <= 0
    {
      if k == 0 then None
      else
        TruncDivBounds(raw, k);
        Some(KTime(mag, TruncDiv(raw, k)))
    }

    /** `operator==`: the other operand is converted to this one's magnitude first.
        Against an operand of the same or a coarser magnitude that conversion is
        exact, so `==` compares durations. */
    function Equals(other: KTime): (r: bool)
      ensures Finer(mag, other.mag) ==> (r <==> Duration() == other.Duration())
    {
      if Finer(mag, other.mag) then
        RefineIsExact(other, mag);
        raw == other.To(mag).raw
      else raw == other.To(mag).raw
    }

    /** `operator<`: a strict order, never holding together with `==`. */
    function Less(other: KTime): (r: bool)
      ensures r ==> !Equals(other)
    {
      raw < other.To(mag).raw
    }

    /** `operator>`: excludes both `==` and `<`. */
    function Greater(other: KTime): (r: bool)
      ensures r ==> !Equals(other) && !Less(other)
    {
      raw > other.To(mag).raw
    }

    /** `operator!=`: exactly one of `<` and `>` holds. */
    function NotEquals(other: KTime): (r: bool)
      ensures r <==> Less(other) || Greater(other)
    {
      !Equals(other)
    }

    /** `operator<=`: `<` or `==`. */
    function AtMost(other: KTime): (r: bool)
      ensures r <==> Less(other) || Equals(other)
    {
      raw <= other.To(mag).raw
    }

    /** `operator>=`: `>` or `==`, the negation of `<`. */
    function AtLeast(other: KTime): (r: bool)
      ensures r <==> Greater(other) || Equals(other)
      ensures r <==> !Less(other)
    {
      raw >= other.To(mag).raw
    }
  }

  /** `m` is at least as fine as `n`: every `n` is a whole number of `m`. */
  predicate Finer(m: Magnitude, n: Magnitude) {
    Micros(m) <= Micros(n)
  }

  lemma FinerDivides(m: Magnitude, n: Magnitude)
    requires Finer(m, n)
    ensures Micros(n) % Micros(m) == 0
  {
  }

  /** Conversion to a finer magnitude loses nothing, and converting back restores
      the original quantity. */
  lemma RefineIsExact(t: KTime, finer: Magnitude)
    requires Finer(finer, t.mag)
    ensures t.To(finer).Duration() == t.Duration()
    ensures t.To(finer).To(t.mag) == t
  {
    var q := Micros(t.mag) / Micros(finer);
    FinerDivides(finer, t.mag);
    assert Micros(t.mag) == q * Micros(finer);
    assert t.Duration() == (t.raw * q) * Micros(finer);
    ExactDivision(t.raw * q, Micros(finer));
    assert t.To(finer).raw == t.raw * q;
    ExactDivision(t.raw, Micros(t.mag));
  }

  /** A count of a positive magnitude has the sign of the duration it stands for. */
  lemma SignOfProduct(a: int, m: nat)
    requires m > 0
    ensures a < 0 <==> a * m < 0
  {
    if a < 0 {
      ProductAwayFromZero(a, m);
    } else {
      assert a * m >= 0;
    }
  }

  /** Dividing an exact multiple. */
  lemma ExactDivision(a: int, b: int)
    requires b > 0
    ensures TruncDiv(a * b, b) == a
  {
    var x := Abs(a);
    assert Abs(a * b) == x * b;
    MultipleDivides(x, b);
  }

  lemma MultipleDivides(x: nat, b: int)
    requires b > 0
    ensures (x * b) / b == x
  {
    var q, r := (x * b) / b, (x * b) % b;
    assert x * b == q * b + r && 0 <= r < b;
    assert (x - q) * b == r;
    ProductAwayFromZero(x - q, b);
  }

  lemma ProductAwayFromZero(d: int, b: int)
    requires b > 0
    ensures d >= 1 ==> d * b >= b
    ensures d <= -1 ==> d * b <= -b
  {
    if d >= 1 {
      assert d * b == b + (d - 1) * b;
    } else if d <= -1 {
      assert d * b == -b + (d + 1) * b;
    }
  }

  /** Equality against an operand of the same or a coarser magnitude is equality of
      the durations. */
  lemma EqualsIsSameDuration(a: KTime, b: KTime)
    requires Finer(a.mag, b.mag)
    ensures a.Equals(b) <==> a.Duration() == b.Duration()
    ensures a.Less(b) <==> a.Duration() < b.Duration()
  {
    RefineIsExact(b, a.mag);
  }

  /** Sum and difference with an operand of the same or a coarser magnitude are exact:
      the durations add and subtract. */
  lemma CoarserOperandIsExact(a: KTime, b: KTime)
    requires Finer(a.mag, b.mag)
    ensures a.Plus(b).Duration() == a.Duration() + b.Duration()
    ensures a.Minus(b).Duration() == a.Duration() - b.Duration()
  {
    RefineIsExact(b, a.mag);
    assert a.Plus(b).Duration() == a.Duration() + b.To(a.mag).Duration();
    assert a.Minus(b).Duration() == a.Duration() - b.To(a.mag).Duration();
  }

  /** Adding and then subtracting the same quantity is the identity. */
  lemma PlusMinusCancel(a: KTime, b: KTime)
    ensures a.Plus(b).Minus(b) == a
  {
  }

  /** Conversion to a coarser magnitude truncates toward zero, so 500 ms is 0 s, and
      `==` is then not symmetric: 0 s equals 500 ms but 500 ms does not equal 0 s. */
  lemma CoarseningTruncates()
    ensures KTime(Milli, 500).To(Base) == KTime(Base, 0)
    ensures KTime(Milli, -1500).To(Base) == KTime(Base, -1)
    ensures KTime(Base, 0).Equals(KTime(Milli, 500))
    ensures !KTime(Milli, 500).Equals(KTime(Base, 0))
  {
    TruncDivBounds(500_000, 1_000_000);
    TruncDivBounds(-1_500_000, 1_000_000);
  }

  /** The magnitudes agree with one another: 1000 ms is 1 s, 60 s is 1 m, 60 m is
      1 h, 24 h is 1 d. */
  lemma MagnitudeLadder()
    ensures KTime(Milli, 1000).Equals(KTime(Base, 1))
    ensures KTime(Base, 60).Equals(KTime(Minute, 1))
    ensures KTime(Minute, 60).Equals(KTime(Hour, 1))
    ensures KTime(Hour, 24).Equals(KTime(Day, 1))
  {
    EqualsIsSameDuration(KTime(Milli, 1000), KTime(Base, 1));
    EqualsIsSameDuration(KTime(Base, 60), KTime(Minute, 1));
    EqualsIsSameDuration(KTime(Minute, 60), KTime(Hour, 1));
    EqualsIsSameDuration(KTime(Hour, 24), KTime(Day, 1));
  }

  /** Scaling by a non-zero integer and dividing by it again restores the quantity. */
  lemma TimesThenDivide(t: KTime, k: int)
    requires k != 0
    ensures t.Times(k).DividedBy(k) == Some(t)
  {
    if k > 0 {
      ExactDivision(t.raw, k);
    } else {
      ExactDivision(-t.raw, -k);
      assert t.raw * k == (-t.raw) * (-k);
    }
  }
}

=== FILE: vector.dfy ===
/** `spn::structure::Vector<T>`: a bounded sequence kept in a window
    `[head, tail)` of a fixed-size array, so that both ends can grow and shrink
    without moving the other elements. Wiped slots hold `blank`, the all-zero `T`. */
module Vec {
  import opened CInt
  import opened Seqs

  datatype Vector<T> = Vector(store: seq<T>, head: nat, tail: nat, blank: T)
  {
    /** The window lies inside the array. */
    predicate Valid() {
      head <= tail <= |store|
    }

    /** `max_size()`: the bound on the number of elements. */
    function MaxSize(): (n: nat)
      ensures Valid() ==> |Elements()| <= n
    {
      |store|
    }

    function Size(): (n: nat)
      requires Valid()
      ensures n <= |store|
    {
      tail - head
    }

    /** `empty()`: no element is stored. */
    function Empty(): (r: bool)
      requires Valid()
      ensures r <==> Elements() == []
    {
      Size() == 0
    }

    /** `full()`: as many elements as `max_size()`. */
    function Full(): (r: bool)
      requires Valid()
      ensures r <==> |Elements()| == MaxSize()
    {
      Size() == MaxSize()
    }

    /** The abstraction: the stored elements, front first. */
    function Elements(): (s: seq<T>)
      requires Valid()
      ensures |s| == Size()
    {
      store[head..tail]
    }

    /** `operator[](index)`: the `index`-th element from the front. */
    function At(index: nat): (r: T)
      requires Valid() && head + index < tail
      ensures r == Elements()[index]
    {
      store[head + index]
    }

    /** Assignment through `operator[](index)`. */
    function SetAt(index: nat, item: T): (r: Vector<T>)
      requires Valid() && head + index < tail
      ensures r.Valid() && r.MaxSize() == MaxSize() && r.blank == blank && r.Size() == Size()
      ensures r.Elements() == Elements()[index := item]
    {
      var r := Vector(store[head + index := item], head, tail, blank);
      assert r.Elements() == Elements()[index := item];
      r
    }

    /** `back()`: the slot before `tail`, or slot 0 of an empty vector. */
    function Back(): (r: T)
      requires Valid() && MaxSize() > 0
      ensures !Empty() ==> r == Elements()[Size() - 1]
    {
      store[if tail > 0 then tail - 1 else 0]
    }

    /** `rearrange(idx)`: moves the window to start at `idx` and wipes every slot outside it. */
    function Rearrange(idx: nat): (r: Vector<T>)
      requires Valid() && idx + Size() < MaxSize()
      ensures r.Valid() && r.MaxSize() == MaxSize() && r.blank == blank
      ensures r.head == idx && r.Elements() == Elements()
      ensures forall j :: 0 <= j < |r.store| && !(r.head <= j < r.tail) ==> r.store[j] == blank
    {
      var n := Size();
      var s := seq(|store|, j requires 0 <= j < |store| =>
                 if j < idx || j >= idx + n then blank else store[head + (j - idx)]);
      Vector(s, idx, idx + n, blank)
    }

    /** `push_back(item)`: appends, first moving the window to slot 0 when it touches
        the end of the array; a full vector is left unchanged. */
    function PushBack(item: T): (r: Vector<T>)
      requires Valid()
      ensures r.Valid() && r.MaxSize() == MaxSize() && r.blank == blank
    {
      var v := if tail >= |store| && head > 0 then Rearrange(0) else this;
      if v.tail < |v.store| then Vector(v.store[v.tail := item], v.head, v.tail + 1, blank) else v
    }

    /** `push_front(item)`: prepends into the slot before `head`, or shifts everything
        one slot up when the window starts at slot 0. */
    function PushFront(item: T): (r: Vector<T>)
      requires Valid() && Size() < MaxSize()
      ensures r.Valid() && r.MaxSize() == MaxSize() && r.blank == blank
      ensures r.Elements() == [item] + Elements()
    {
      if head > 0 then Vector(store[head - 1 := item], head - 1, tail, blank)
      else Vector([item] + store[..tail] + store[tail + 1..], 0, tail + 1, blank)
    }

    /** `pop_front()`: removes and yields the first element; an emptied window returns to slot 0. */
    function PopFront(): (r: (Vector<T>, T))
      requires Valid() && !Empty()
      ensures r.0.Valid() && r.0.MaxSize() == MaxSize() && r.0.blank == blank
      ensures r.1 == Elements()[0] && r.0.Elements() == Elements()[1..]
    {
      var h := head + 1;
      if tail == h then (Vector(store, 0, 0, blank), store[head])
      else (Vector(store, h, tail, blank), store[head])
    }

    /** `pop_back()` as written: after the window empties and is reset to slot 0 the
        value is read from the new `tail`, which is slot 0. */
    function PopBackAsWritten(): (r: (Vector<T>, T))
      requires Valid() && !Empty()
      ensures r.0.Valid() && r.0.Elements() == Elements()[..Size() - 1]
    {
      var t := tail - 1;
      assert head < tail;
      assert store[head..t] == store[head..tail][..t - head];
      if t == head then (Vector(store, 0, 0, blank), store[0])
      else (Vector(store, head, t, blank), store[t])
    }

    /** `pop_back()` with the evident intent: yields the last element. */
    function PopBack(): (r: (Vector<T>, T))
      requires Valid() && !Empty()
      ensures r.0.Valid() && r.0.MaxSize() == MaxSize() && r.0.blank == blank
      ensures r.1 == Elements()[Size() - 1] && r.0.Elements() == Elements()[..Size() - 1]
    {
      var t := tail - 1;
      assert head < tail;
      assert store[head..t] == store[head..tail][..t - head];
      if t == head then (Vector(store, 0, 0, blank), store[t])
      else (Vector(store, head, t, blank), store[t])
    }

    /** `insert(index, item)`: at the front for index 0, at the back for an index at or
        past the end, otherwise shifting the later elements one slot up. */
    function Insert(index: nat, item: T): (r: Vector<T>)
      requires Valid() && Size() < MaxSize()
      ensures r.Valid() && r.MaxSize() == MaxSize() && r.blank == blank
    {
      if index == 0 then PushFront(item)
      else if head + index >= tail then PushBack(item)
      else
        var v := if tail >= |store| && head > 0 then Rearrange(0) else this;
        v.OpenGap(v.head + index, item)
    }

    /** The shifting step of `insert`: the slots from `p` to the end of the window move
        one slot up and `item` takes slot `p`. */
    function OpenGap(p: nat, item: T): (r: Vector<T>)
      requires Valid() && head <= p <= tail < |store|
      ensures r.Valid() && r.MaxSize() == MaxSize() && r.blank == blank && r.head == head
      ensures r.Elements() == Elements()[..p - head] + [item] + Elements()[p - head..]
    {
      InsertIntoWindow(store, head, p, tail, item);
      Vector(store[..p] + [item] + store[p..tail] + store[tail + 1..], head, tail + 1, blank)
    }

    /** Removal at array slot `p`, shared by both readings of `remove`: the first slot
        pops the front, slot `tail` pops the back, a slot inside the window closes the
        gap, and any other slot leaves the vector alone and yields a zero `T`. */
    function RemoveAtSlot(p: nat, asWritten: bool): (r: (Vector<T>, T))
      requires Valid() && (p == head ==> !Empty())
      ensures r.0.Valid() && r.0.MaxSize() == MaxSize() && r.0.blank == blank
    {
      if p == head then PopFront()
      else if p == tail then (if asWritten then PopBackAsWritten() else PopBack())
      else if head < p < tail then
        // the window keeps at least one element here, so the code's reset of an
        // emptied window to slot 0 cannot fire
        var s := store[..p] + store[p + 1..tail] + store[tail - 1..];
        (Vector(s, head, tail - 1, blank), store[p])
      else (this, blank)
    }

    /** `remove(index)` as written: `index` is compared with the array slots `m_head`
        and `m_tail` rather than with positions in the vector. */
    function RemoveAsWritten(index: nat): (r: (Vector<T>, T))
      requires Valid() && (index == head ==> !Empty())
      ensures r.0.Valid()
    {
      RemoveAtSlot(index, true)
    }

    /** The array range the as-written `remove` copies from when closing a gap at
        slot `index`: `tail - index` slots starting at `index + 1`. */
    function RemoveCopySpanAsWritten(index: nat): (r: (nat, nat))
      requires Valid() && head < index < tail
      ensures r.0 + r.1 == tail + 1
    {
      (index + 1, tail - index)
    }

    /** `remove(index)` with the evident intent: `index` counts from the front, as in
        `operator[]` and `insert`; index `size()` removes the last element, as the
        code's `m_tail` branch does for a window at slot 0. */
    function Remove(index: nat): (r: (Vector<T>, T))
      requires Valid() && (index == 0 ==> !Empty())
      ensures r.0.Valid() && r.0.MaxSize() == MaxSize() && r.0.blank == blank
    {
      RemoveAtSlot(head + index, false)
    }

    /** `fill(value)`: the whole array becomes the window, every slot `value`. */
    function Fill(v: T): (r: Vector<T>)
      requires Valid()
      ensures r.Valid() && r.Full() && r.MaxSize() == MaxSize()
      ensures forall j :: 0 <= j < r.Size() ==> r.At(j) == v
    {
      Vector(seq(|store|, _ => v), 0, |store|, blank)
    }

    /** `clear()`: pops from the back once per element. */
    function Clear(): (r: Vector<T>)
      requires Valid()
      ensures r.Valid() && r.Empty() && r.MaxSize() == MaxSize() && r.blank == blank
      decreases Size()
    {
      if Empty() then this else PopBack().0.Clear()
    }
  }

  /** `Vector(max_size)`: zero-filled array, empty window. */
  function NewVector<T>(maxSize: nat, blank: T): (r: Vector<T>)
    ensures r.Valid() && r.Empty() && r.MaxSize() == maxSize
  {
    Vector(seq(maxSize, _ => blank), 0, 0, blank)
  }

  /** `Vector(initializer_list)`: the listed values, in order, filling the array. */
  function FromList<T>(values: seq<T>, blank: T): (r: Vector<T>)
    ensures r.Valid() && r.Elements() == values && r.MaxSize() == |values|
  {
    Vector(values, 0, |values|, blank)
  }

  /** `push_back` appends when there is room, moving the window if it must, and
      leaves a full vector alone. */
  lemma PushBackAppends<T>(v: Vector<T>, item: T)
    requires v.Valid()
    ensures !v.Full() ==> v.PushBack(item).Elements() == v.Elements() + [item]
    ensures v.Full() ==> v.PushBack(item) == v
  {
    if !v.Full() {
      var w := if v.tail >= |v.store| && v.head > 0 then v.Rearrange(0) else v;
      assert w.Elements() == v.Elements();
      assert w.store[w.tail := item][w.head..w.tail + 1] == w.Elements() + [item];
    }
  }

  /** What `push_back` adds, `pop_back` hands back. */
  lemma PushBackPopBack<T>(v: Vector<T>, item: T)
    requires v.Valid() && !v.Full()
    ensures var (r, x) := v.PushBack(item).PopBack(); x == item && r.Elements() == v.Elements()
  {
    PushBackAppends(v, item);
    var w := v.PushBack(item);
    assert w.Elements()[..w.Size() - 1] == v.Elements();
  }

  /** What `push_front` adds, `pop_front` hands back. */
  lemma PushFrontPopFront<T>(v: Vector<T>, item: T)
    requires v.Valid() && !v.Full()
    ensures var (r, x) := v.PushFront(item).PopFront(); x == item && r.Elements() == v.Elements()
  {
  }

  /** `insert(index, item)` places `item` before the element at `index`, or at the
      end when `index` is at or past it. */
  lemma InsertPlaces<T>(v: Vector<T>, index: nat, item: T)
    requires v.Valid() && !v.Full()
    ensures var k := Min(index, v.Size());
            v.Insert(index, item).Elements() == v.Elements()[..k] + [item] + v.Elements()[k..]
  {
    var k := Min(index, v.Size());
    if index == 0 {
    } else if v.head + index >= v.tail {
      PushBackAppends(v, item);
      assert v.Elements()[..k] == v.Elements();
    }
  }


  /** `remove(index)` takes out the element at `index`; index `size()` takes out the
      last one; a larger index changes nothing and yields a zero `T`. */
  lemma RemoveTakesOut<T>(v: Vector<T>, index: nat)
    requires v.Valid() && (index == 0 ==> !v.Empty())
    ensures index < v.Size() ==>
              v.Remove(index).1 == v.Elements()[index]
              && v.Remove(index).0.Elements() == v.Elements()[..index] + v.Elements()[index + 1..]
    ensures index == v.Size() && index > 0 ==>
              v.Remove(index).1 == v.Elements()[index - 1]
              && v.Remove(index).0.Elements() == v.Elements()[..index - 1]
    ensures index > v.Size() ==> v.Remove(index) == (v, v.blank)
  {
    var p := v.head + index;
    if index < v.Size() && index > 0 {
      var s := v.store[..p] + v.store[p + 1..v.tail] + v.store[v.tail - 1..];
      assert s[v.head..v.tail - 1] == v.store[v.head..p] + v.store[p + 1..v.tail];
      assert v.store[v.head..p] == v.Elements()[..index];
      assert v.store[p + 1..v.tail] == v.Elements()[index + 1..];
    }
  }

  /** With the window at slot 0 both readings of `remove` coincide. */
  lemma RemoveAgreesAtSlotZero<T>(v: Vector<T>, index: nat)
    requires v.Valid() && v.head == 0 && (index == 0 ==> !v.Empty())
    ensures v.RemoveAsWritten(index) == v.Remove(index)
  {
  }

  /** `clear()` leaves no elements. */
  lemma ClearEmpties<T>(v: Vector<T>)
    requires v.Valid()
    ensures v.Clear().Elements() == []
  {
  }

  /** Three elements, two popped from the front, then `pop_back` on the last one
      left: the code yields the first element pushed instead of the third. */
  lemma PopBackReturnsStaleSlot()
    ensures var v := Vector([7, 8, 9], 2, 3, 0);
            && v.Valid() && v.Elements() == [9]
            && v.PopBackAsWritten().1 == 7
            && v.PopBack().1 == 9
  {
  }

  /** After one `pop_front` the window starts at slot 1: `remove(0)` no longer finds
      the first element and does nothing, and `remove(1)` removes the first element
      instead of the second. */
  lemma RemoveUsesSlotNotPosition()
    ensures var v := Vector([1, 2, 3], 1, 3, 0);
            && v.Valid() && v.Elements() == [2, 3]
            && v.RemoveAsWritten(0) == (v, 0)
            && v.RemoveAsWritten(1).1 == 2
            && v.Remove(0).1 == 2 && v.Remove(0).0.Elements() == [3]
            && v.Remove(1).1 == 3 && v.Remove(1).0.Elements() == [2]
  {
    var v := Vector([1, 2, 3], 1, 3, 0);
    RemoveTakesOut(v, 0);
    RemoveTakesOut(v, 1);
    assert v.Elements()[..1] == [2];
    assert v.Elements()[1..] == [3];
  }

  /** Removing from the middle of a full vector copies from one slot past the array. */
  lemma RemoveCopiesPastArray()
    ensures var v := Vector([1, 2, 3], 0, 3, 0);
            && v.Valid() && v.Full()
            && v.RemoveCopySpanAsWritten(1) == (2, 2)
            && 2 + 2 > |v.store|
  {
  }
}

=== FILE: wrappers.dfy ===
/** Failure-compatible helper types shared by every module of the model. */
module Wrappers {

  /** A value that may be absent: the model's rendering of `std::optional`, of a
      null `shared_ptr` and of the `bool`-plus-out-parameter convention. */
  datatype Option<+T> = None | Some(value: T) {
    predicate IsFailure() { None? }

    function PropagateFailure<U>(): Option<U>
      requires None?
    {
      None
    }

    function Extract(): T
      requires Some?
    {
      value
    }
  }
}
